=== FILE: README.md ===
# RJSON encode/decode engine in Dafny

RJSON stores Ruby values as JSON. This project models its encode/decode
dispatch engine and proves properties of the model.

**Dumping.** `Dumper.dump` turns a runtime value into a JSON-shaped tree.
- An object with `as_rjson` supplies its own tree.
- Every other value goes to the first dumper in the priority-sorted registry
  `DUMPERS` that accepts it.
- Strings get a `%` prefix and symbols a `:` prefix.
- Hash keys that do not dump to a string become `!` plus their JSON text.
- `Float::INFINITY`, `BigDecimal`/`Complex`/`Rational` values and plain
  objects become *extension records*: hashes whose `__rjson_builder` key
  names a builder class.

**Loading.** `Parser.parse_json` reads a tree back.
- A string is unescaped by its first character: `:`, `%`, `!`, or none.
- An array is read element by element.
- A hash is split into private options (keys starting with `__rjson_`) and
  data.
- A truthy `builder` option hands the other options and the parsed data to a
  builder: `ObjectBuilder`, `ConstantLoader`, `FunctionalBuilder`, or a
  user-defined one.
- Without a builder, any leftover private key raises `PrivateKeysNotUsed`.
- Errors form the `ParseError` hierarchy of `lib/rjson/errors.rb`.

**Modules** (one file each):
- `Strings`: Ruby string helpers, including `split('::')`.
- `Hashes`: Ruby hashes as ordered pair lists with `to_h` and `delete`.
- `Wire`: the JSON tree and the abstract text layer.
- `Values`: runtime values.
- `Errors`: the error classes.
- `Builders`: the builder classes.
- `Dumpers`: the dumper classes.
- `Parser`: the parser.
- `Intactness`: the round trip `load(dump(v)) == v`, which the library's
  intactness spec checks on examples.

**What stays outside the model, as parameters:**
- The text layer (`YAML.load`, `to_json`) is a `TextCodec` value. It has two
  stated properties:
  - `Sound`: a parsed tree is no larger than its text.
  - `RoundTrips`: it reads back every tree it writes that JSON can hold.
- Ruby reflection (`constantize`, `public_send`, `to_a`, user builders) is
  an `Env` value.

## Model

| member | source | states |
|---|---|---|
| Strings.StripPrefix | lib/rjson/parser.rb:153 | Removing the prefix from a private key leaves exactly the rest of the key: prefix followed by the result is the key. |
| Strings.DropTrailingEmpty | lib/rjson/errors.rb:59 | `split` drops only trailing empty pieces. The result is a prefix of the raw pieces, its last piece is non-empty, and every dropped piece is empty. |
| Strings.JoinSplitAll | lib/rjson/errors.rb:59 | Splitting a constant path at `::` loses nothing: joining the raw pieces with `::` gives the name back. |
| Hashes.ToHLookup | lib/rjson/parser.rb:163-165 | `to_h` keeps every key and gives it the value of its last occurrence. |
| Hashes.ToHKeys | lib/rjson/parser.rb:152-154 | `to_h` loses no key and invents none. |
| Hashes.ToHIdentity | lib/rjson/parser.rb:152-154 | `to_h` of pairs whose keys are already distinct changes nothing. |
| Hashes.Delete | lib/rjson/parser.rb:93 | `options.delete(:builder)` returns the key's value (`nil` if absent) and the hash without that key. Every other pair stays, in its original order, and distinct keys stay distinct. |
| Errors.EveryRjsonErrorIsAParseError | lib/rjson/errors.rb:3-51 | Every error class RJSON raises descends from `ParseError`. Only foreign exceptions let through unwrapped do not. |
| Errors.TryRaisePrivateKeysNotUsed | lib/rjson/errors.rb:13-20 | Does nothing exactly when the options are empty. Otherwise it raises `PrivateKeysNotUsed` carrying the option names and the original hash. |
| Errors.ReaddPrefix | lib/rjson/errors.rb:16 | The message lists every leftover name with `__rjson_` put back in front, in the same order. |
| Errors.Wrap | lib/rjson/errors.rb:32-44 | A wrapped error is a `ProxyError`, hence a `ParseError`. It keeps the original exception and copies its message unchanged. |
| Errors.SecureConstantize | lib/rjson/errors.rb:56-64 | A found constant is returned. A `NameError` becomes an `ObjectLoadError` exactly when its name is one of the `::` segments of the requested name. Every other failure is re-raised unchanged. |
| Builders.KeywordArgs | lib/rjson/builders.rb:91 | Binding a hash to keyword parameters succeeds exactly when all keys are symbols, every required keyword is present and no unknown keyword is given. Failure is an `ArgumentError`; success binds each pair in order. |
| Builders.RequiredKeywordBound | lib/rjson/builders.rb:75 | Once the arguments are accepted, every required keyword has a value. |
| Builders.KeywordGet | lib/rjson/builders.rb:91 | A bound keyword holds the value the argument hash has under that symbol. |
| Builders.BaseInitialize | lib/rjson/builders.rb:13-15 | `Builder#initialize` accepts exactly the empty options. Otherwise it raises a `ParseError` naming them. |
| Builders.ObjectBuilderNeedsClassName | lib/rjson/builders.rb:46-48 | `ObjectBuilder.new` without `class_name` fails with `ArgumentError` "missing keyword: class_name". |
| Builders.ObjectBuilderTakesClassName | lib/rjson/builders.rb:46-48 | With `class_name` as its only option, `ObjectBuilder` is built around that raw value. |
| Builders.New | lib/rjson/builders.rb:13-48 | Only a class can be constructed. `ObjectBuilder` accepts exactly the options whose only name is `class_name` and keeps its raw value; other options give an `ArgumentError`. `ConstantLoader` and `FunctionalBuilder` accept only empty options and otherwise raise `UnexpectedOptions`. |
| Builders.BadKeyTryRaise | lib/rjson/builders.rb:27-37 | A key passes exactly when it starts with `@` and not with `@@`. Otherwise `BadKey` is raised, with the `@@` message exactly when the key starts with `@`. |
| Builders.ValidIvarNamesPassBadKey | lib/rjson/builders.rb:27-37 | Every valid instance-variable name passes `BadKey`. |
| Builders.SetIvars | lib/rjson/builders.rb:54-59 | On success there is one instance variable per data pair, in order. Each is named by the pair's string key, holds the pair's value, and has a valid name. |
| Builders.SetIvarsAbortsOnFirstBadKey | lib/rjson/builders.rb:54-59 | The first key that `BadKey` rejects aborts the build with that key's error. No later key is looked at. |
| Builders.SetIvarsAcceptsValidNames | lib/rjson/builders.rb:54-59 | String keys with valid names set exactly those instance variables, in order. |
| Builders.BuildObject | lib/rjson/builders.rb:54-65 | The class is looked up before any data key, and a failed lookup is the build's error. The build succeeds exactly when the lookup gives a class, not a module, and every data key sets an instance variable. The object then has that class and exactly those instance variables. |
| Builders.ObjectBuilderBuilds | lib/rjson/builders.rb:46-65 | A record for `RJSON::ObjectBuilder` with a class that resolves allocates an instance of it and sets exactly the given instance variables. |
| Builders.CallBuilder | lib/rjson/parser.rb:116-122 | A failed lookup of the builder name is the result. An `ArgumentError` from `new` becomes a `ProxyError` around it, and any other error from `new` passes unchanged. Once the builder is constructed, the result of `build` is returned unchanged, errors included. |
| Builders.ConstantLoaderWithoutNameIsNotProxied | lib/rjson/parser.rb:116-122 | A `ConstantLoader` record without `:name` fails with the `ArgumentError` of `build`, not wrapped in a `ProxyError`. |
| Builders.ObjectBuilderWithoutClassNameIsProxied | lib/rjson/parser.rb:116-122 | Calling `ObjectBuilder` without `class_name` ends in a `ProxyError` around the constructor's `ArgumentError`. |
| Builders.ConstantLoaderLoads | lib/rjson/builders.rb:70-77 | A `ConstantLoader` record with no options and only `name:` as data returns the constant of that name. |
| Builders.SecureConstantizeValue | lib/rjson/errors.rb:56-64 | Only a string name can resolve. An array name re-raises the `NoMethodError` for `constantize`, because ActiveSupport's `Array#split` runs in the rescue and its pieces never equal `:constantize`. Any other non-string name fails with the `NoMethodError` for `split` raised inside the rescue. |
| Builders.ArrayBuilderNameIsNotProxied | lib/rjson/parser.rb:116-122 | A builder named by a JSON array fails with the unwrapped `NoMethodError` for `constantize`, whatever the options and data. |
| Builders.BuildConstant | lib/rjson/builders.rb:75-77 | A keyword error is the result. Otherwise `:name` is present and the result is the constant lookup of its value. |
| Builders.Splat | lib/rjson/builders.rb:92 | `*args` spreads an array into its elements, `nil` into no argument, and a hash into its pairs as two-element arrays. An object that responds to `to_a`, such as a rebuilt `Set`, is spread through it: an array result is spread, `nil` leaves the object as the one argument, any other result is a `TypeError`, and an exception from `to_a` is passed on. A value without `to_a` is the one argument. |
| Builders.SplatHashComesBack | lib/rjson/builders.rb:92 | Spreading a hash and reading the arguments back as pairs gives the same hash, in order: `*` loses nothing of a hash. |
| Builders.BuildFunctional | lib/rjson/builders.rb:91-96 | A keyword error is the result. A `ProxyError` from the build always wraps a `NameError`. |
| Builders.FunctionalBuilderCallsMethod | lib/rjson/builders.rb:91-96 | For any data whose keywords bind and whose `:method` is a string or symbol, the method is called on `:namespace` (`Kernel` when absent) with `:args` spread. Its return value is the result. An exception from the spread's `to_a` or from the method is handled alike: a `NameError` for that very method is wrapped in a `ProxyError`, and any other exception propagates. |
| Builders.FunctionalBuilderRaises | lib/rjson/builders.rb:91-96 | When the called method raises, the error is wrapped exactly when it is a `NameError` whose name equals `method`. Otherwise it propagates unchanged. |
| Builders.FunctionalBuilderCalls | lib/rjson/builders.rb:91-92 | A `FunctionalBuilder` record with `method` and `args` calls the method on `Kernel`, the default namespace, and returns its result. |
| Dumpers.FirstMatch | lib/rjson/dumpers.rb:34-36 | `find` returns the first dumper that accepts the value. No earlier dumper accepts it. |
| Dumpers.FirstMatchFound | lib/rjson/dumpers.rb:228-232 | `ObjectDumper.can_dump?` is always true, so a registry that holds it always finds a dumper. |
| Dumpers.DumpersIsValid | lib/rjson/dumpers.rb:276 | The registry holds every dumper by descending priority, `DumperProxy` (1000) first and `ObjectDumper` (0) last. |
| Dumpers.IntendedOutranks | lib/rjson/dumpers.rb:73-194 | The class tests of the priority-500 dumpers are disjoint. Any accepting dumper other than the one a value's class calls for has strictly lower priority. |
| Dumpers.HighestPriorityWins | lib/rjson/dumpers.rb:9-11 | In any registry sorted by descending priority, the first match is the dumper the value's class calls for. |
| Dumpers.ChoiceIgnoresTieOrder | lib/rjson/dumpers.rb:276 | The order the unstable `sort_by` gives equal-priority dumpers never changes which dumper is chosen. |
| Dumpers.ChooseObjectDumper | lib/rjson/dumpers.rb:34-36 | The chosen dumper accepts the value. It is `DumperProxy` exactly for `as_rjson` objects, and no accepting dumper has higher priority. |
| Dumpers.ChosenIsIntended | lib/rjson/dumpers.rb:34-36 | The registry picks, for every value, the dumper its class calls for. |
| Dumpers.DumpDispatch | lib/rjson/dumpers.rb:25-28 | An `as_rjson` object is dumped as what that method returns, and no registry dumper is consulted. Every other value goes to its class's dumper. |
| Dumpers.Dump | lib/rjson/dumpers.rb:25-28 | An `as_rjson` object dumps to what that method returns. Otherwise the dump is a JSON string exactly for strings and symbols, written `"%" + s` and `":" + a`, and the object it returns has distinct keys. |
| Dumpers.DumpWith | lib/rjson/dumpers.rb:73-247 | Only the String and Symbol dumpers write JSON strings. Every object a registry dumper writes has distinct keys, the hash dumper's through `to_h`. |
| Dumpers.DumpPrimitive | lib/rjson/dumpers.rb:80-82 | Integers, booleans and `nil` are written unchanged. |
| Dumpers.DumpFloat | lib/rjson/dumpers.rb:98-107 | Only `Float::INFINITY` becomes a `ConstantLoader` record. Every other float, `-Infinity` and `NaN` included, is written unchanged. |
| Dumpers.DumpString | lib/rjson/dumpers.rb:123-125 | A string `s` is written as `"%" + s`. |
| Dumpers.DumpSymbol | lib/rjson/dumpers.rb:140-142 | A symbol `a` is written as `":" + a`. |
| Dumpers.DumpItemsAre | lib/rjson/dumpers.rb:157-159 | An array dumps to an array of the same length, each element dumped in order. |
| Dumpers.DumpEntriesAre | lib/rjson/dumpers.rb:175-181 | A hash dumps one pair per pair, in order: the escaped key and the dumped value. |
| Dumpers.DumpKey | lib/rjson/dumpers.rb:177-178 | A string key is written `"%" + s` and a symbol key `":" + a`. Any other key, `as_rjson` objects aside, is written `"!"` plus the JSON text of its dump. |
| Dumpers.DumpedKeyIsEscaped | lib/rjson/dumpers.rb:175-181 | Every dumped hash key is non-empty and starts with `%`, `:` or `!`. |
| Dumpers.DumpNumeric | lib/rjson/dumpers.rb:211-216 | A `BigDecimal`, `Complex` or `Rational` becomes a `FunctionalBuilder` record. Its method is the class name and its single argument the `to_s` text. |
| Dumpers.DumpIvarsAre | lib/rjson/dumpers.rb:238-241 | An object dumps one pair per instance variable, in order, under its raw `@name`. |
| Dumpers.DumpObject | lib/rjson/dumpers.rb:237-247 | A plain object becomes an `ObjectBuilder` record holding its class name and its dumped instance variables. |
| Parser.PrivatePart | lib/rjson/parser.rb:136-138 | The options side holds exactly the pairs whose key starts with `__rjson_`, in their original order. |
| Parser.DataPart | lib/rjson/parser.rb:140-142 | The data side holds exactly the pairs whose key does not start with `__rjson_`, in their original order. |
| Parser.PartitionIsExact | lib/rjson/parser.rb:135-145 | `extract_private_options` puts each pair on exactly one side. As multisets, the two sides together are the hash. |
| Parser.EscapedKeyIsNotPrivate | lib/rjson/parser.rb:137 | A key starting with `%`, `:`, `!` or `@` is never private, so `%__rjson_builder` and `:__rjson_builder` are data. |
| Parser.StripOptionKeys | lib/rjson/parser.rb:151-155 | Each option name with the prefix put back is the original key, and values are left unparsed. |
| Parser.ParseHashOptions | lib/rjson/parser.rb:151-155 | The options form a hash whose names are exactly the private keys without the prefix. |
| Parser.OptionNameIffPrivateKey | lib/rjson/parser.rb:135-155 | An option name is present exactly when the hash has the key made of the prefix and that name. |
| Parser.OptionNamesArePrivateKeys | lib/rjson/errors.rb:16 | Putting the prefix back on the option names, as the error message does, gives exactly the hash's private keys. |
| Parser.LoadJson | lib/rjson/parser.rb:30-35 | `nil` loads as `nil` without calling the text parser. A parsed text gives its tree unchanged, no larger than the text. A parser failure becomes a `YAMLParserError` with the parser's message. |
| Parser.NilTextIsNil | lib/rjson/parser.rb:20-22 | `parse_json(nil)` is `nil`. |
| Parser.ParseJson | lib/rjson/parser.rb:20-22 | `nil` text is `nil`. Text the parser rejects is a `YAMLParserError` with the parser's message. |
| Parser.ParseGeneric | lib/rjson/parser.rb:56-58 | Scalars never fail and load as the Ruby values they denote. An array loads to an array of the same length. |
| Parser.ParseString | lib/rjson/parser.rb:66-73 | Only a `!` string can fail. Any other string loses at most its one escape: after a leading `:` it is the symbol of the rest, after a leading `%` it is the rest, and otherwise it is itself. |
| Parser.ParseGenericOfScalar | lib/rjson/parser.rb:40-48 | `nil`, booleans and numbers go to the default parser, which returns them unchanged. |
| Parser.UnescapedStringIsItself | lib/rjson/parser.rb:71 | A string starting with none of `:`, `%`, `!` is read as itself. |
| Parser.BangOfEmptyText | lib/rjson/parser.rb:70 | `"!"` holds the empty document, which the text layer may read as `false`, and then loads as `false`. |
| Parser.BangOfPlainScalar | lib/rjson/parser.rb:70 | `"!" + s` whose text reads as the plain scalar string `s` loads as that string. |
| Parser.StringExamples | spec/rjson/parser_spec.rb:36-49 | `"foo"` and `""` stay as they are. `":foo"` is the symbol `foo`. `"%foo"`, `"%:foo"` and `"%%foo"` lose exactly their first `%`. |
| Parser.ParseArrayPointwise | lib/rjson/parser.rb:80-82 | An array parses exactly when every element does, to the element values in order. Otherwise its error is that of the first failing element. |
| Parser.ParseArrayOfParsed | lib/rjson/parser.rb:80-82 | Elements that each parse to a value make an array that parses to those values. |
| Parser.ParsePairsPointwise | lib/rjson/parser.rb:162-166 | The data parses exactly when every key and value does. Each result pair is the parsed key with the parsed value. |
| Parser.ParseHashDataOfDistinct | lib/rjson/parser.rb:162-166 | Members that parse to pairs with distinct keys give exactly those pairs, because `to_h` has nothing to merge. |
| Parser.ParseHashData | lib/rjson/parser.rb:162-166 | The data is a hash: its keys are distinct and it has no more pairs than the section has members. |
| Parser.ParseHash | lib/rjson/parser.rb:91-101 | An error in the data section is the result, whatever the options say. |
| Parser.Dispatch | lib/rjson/parser.rb:93-100 | Without a truthy builder option the result is the data as a hash, or a `PrivateKeysNotUsed` that carries the raw hash. |
| Parser.DispatchWithBuilder | lib/rjson/parser.rb:93-96 | For every hash with a truthy `__rjson_builder`, the builder is called with the parsed data and with exactly the other private keys as options, prefix stripped and each with its option value. No key is reported as unused. |
| Parser.PlainHashIsItsData | lib/rjson/parser.rb:91-101 | A hash without private keys parses to its parsed data, or fails with the data's error. |
| Parser.DispatchWithoutBuilder | lib/rjson/parser.rb:93-100 | With no truthy `__rjson_builder` (absent, `nil` or `false`), the data is returned exactly when no other private key is present. Otherwise `PrivateKeysNotUsed` lists exactly the private keys other than `__rjson_builder` and carries the hash. |
| Parser.LeftoverPrivateKeysAreReported | lib/rjson/parser.rb:91-101 | A hash whose data parses, with no truthy `__rjson_builder` and some other private key, fails with `PrivateKeysNotUsed` naming exactly those other private keys. |
| Parser.FalsyBuilderIsIgnored | lib/rjson/parser.rb:93-95 | A `nil` or `false` builder counts as no builder and is not reported as an unused key. |
| Parser.BuilderRecordCallsBuilder | lib/rjson/parser.rb:93-96 | A truthy `__rjson_builder` alone is called with no options and the parsed data. |
| Parser.ObjectRecordCallsBuilder | lib/rjson/parser.rb:92-96 | `__rjson_builder` plus `__rjson_class_name` calls the builder with `class_name` as its one option. |
| Parser.BuilderReceivesOptionsAndData | spec/rjson/parser_spec.rb:102-115 | The builder receives the other private options with the prefix stripped, and the data parsed. |
| Parser.UnprefixedPrivateKeyIsReported | spec/rjson/parser_spec.rb:78-91 | `{"__rjson_foo": "bar"}` raises `PrivateKeysNotUsed` whose message starts `Private keys ["__rjson_foo"] not used in`. |
| Parser.MissingClassNameIsProxied | spec/rjson/parser_spec.rb:128-137 | A record naming only `RJSON::ObjectBuilder` fails with a `ProxyError` around an `ArgumentError`. |
| Intactness.StringKeyIntact | lib/rjson/parser.rb:69 | `parse_string("%" + s)` is `s` for every `s`. |
| Intactness.SymbolKeyIntact | lib/rjson/parser.rb:68 | `parse_string(":" + a)` is the symbol `a` for every `a`. |
| Intactness.StringIntact | lib/rjson/dumpers.rb:123-125 | A dumped string is read back as itself. |
| Intactness.SymbolIntact | lib/rjson/dumpers.rb:140-142 | A dumped symbol is read back as itself. |
| Intactness.IvarParses | lib/rjson/parser.rb:71 | A raw `@name` key written by `ObjectDumper` is read as that string by the default branch. |
| Intactness.ObjectIvarsPublic | lib/rjson/dumpers.rb:238-245 | Raw `@name` keys are never taken for private keys. |
| Intactness.EscapedKeyIntact | lib/rjson/dumpers.rb:175-181 | A hash key whose dump comes back as a value also comes back as a key, through `%`, `:` or `!`. |
| Intactness.FloatIntact | lib/rjson/dumpers.rb:98-107 | Finite floats come back unchanged. `Float::INFINITY` comes back through `ConstantLoader`. |
| Intactness.InfinityIntact | lib/rjson/dumpers.rb:98-103 | The `Float::INFINITY` record loads the constant `Float::INFINITY`. |
| Intactness.NumericIntact | lib/rjson/dumpers.rb:211-216 | A `BigDecimal`, `Complex` or `Rational` comes back through `FunctionalBuilder`. |
| Intactness.ArrayIntact | lib/rjson/dumpers.rb:157-159 | An array whose elements come back comes back. |
| Intactness.HashIntact | lib/rjson/dumpers.rb:175-181 | A hash whose keys and values come back comes back. |
| Intactness.ObjectIntact | lib/rjson/dumpers.rb:237-247 | A plain object whose class resolves, and whose instance variables come back, is rebuilt by `ObjectBuilder`. |
| Intactness.Intact | spec/rjson/intactness_spec.rb:2-4 | Every supported value is read back from its dump as itself. Its dump holds only finite floats and objects with distinct keys, so it can be written as JSON and read back. |
| Intactness.LoadDumpRoundTrip | spec/rjson/intactness_spec.rb:2-4 | `load(dump(v)) == v` through the text layer, for every supported value. |
| Intactness.DumpIsInjective | lib/rjson/dumpers.rb:25-28 | Distinct supported values never dump to the same tree. |

## Left out

- The text layer: `YAML.load` and `to_json` are the two functions of a
  `TextCodec`. What the engine needs from them is stated as the predicates
  `Sound` and `RoundTrips`.
  - `Sound` bounds a parsed tree by the length of its text. Scalars other
    than strings weigh nothing and a string weighs its length, so the empty
    document (`false`) and plain scalars fit. YAML aliases, which can make a
    parsed tree larger than its text, are not modelled.
  - `RoundTrips` promises a trip through text only for `Writable` trees:
    finite floats, and distinct keys in every object, since `YAML.load`
    keeps only the last of repeated keys.
  - YAML back-compatibility, such as loading a `Set` from YAML, is not
    modelled.
  - A `YAML.load` result that is not JSON-shaped, such as a hash with
    non-string keys, is not modelled.
- Ruby reflection: `constantize`, `allocate`, `instance_variable_set`,
  `public_send`, a user-defined `to_a` and user-defined builder classes are
  the function fields of an `Env`.
  - Only plain objects, classes and modules, and `as_rjson` objects may
    define `to_a`. Ruby's other classes modelled here either have their
    own `to_a` (`Array`, `Hash`, `NilClass`) or have none.
  - `SecureConstantizeValue`: a non-string name that is not an array is
    taken to have neither `constantize` nor `split`, even when it is an
    object of a user-defined class.
  - `allocate` always succeeds on a class.
  - `instance_variable_set` rejects names that are not `@` followed by an
    identifier, with the `NameError` that Ruby raises.
- `call_builder`'s backtrace test: it is reduced to where the `ArgumentError`
  came from. An error from `new` is wrapped; an error from `build` is
  re-raised.
- The `caller` frames passed to `raise`: error values carry no backtrace.
- Object identity: values are compared structurally. Shared references and
  cycles are not modelled; on a cyclic value `Dumper.dump` would recurse
  without end. Two hash keys that are distinct Ruby objects but equal
  records are one key here. `Supported` requires distinct keys, so the
  `to_h` of `HashDumper` merges nothing in the round trip.
- Memoist caching of `parsers` and `klass`: it adds no behaviour.
- Float, `BigDecimal`, `Complex` and `Rational` text: kept as opaque tokens.
  There is no floating-point arithmetic, and `NaN != NaN` is not modelled.
- `Intactness.Intact`: holds only for the values `Supported` describes. It
  excludes:
  - `as_rjson` objects, whose encoding is their own;
  - class and module objects, which `ObjectDumper` writes as objects of
    class `Class` or `Module` and which do not come back as themselves;
  - `-Infinity` and `NaN`, which JSON cannot hold;
  - objects whose class does not resolve to itself.
- Objects: a `VObj` stands only for an object described by its instance
  variables, the scope `ObjectBuilder` itself claims
  (`lib/rjson/builders.rb:18-19`). `ObjectDumper` writes only
  `instance_variables`, and `ObjectBuilder` rebuilds by `allocate`, so Ruby
  objects that keep state elsewhere do not come back. These are instances of
  `Range`, `Time`, `Struct`, `Regexp` and exceptions, and instances of
  subclasses of `String`, `Array` or `Hash` (such as
  `HashWithIndifferentAccess`), which fail the exact class tests of the
  string, array and hash dumpers. They are not modelled. Nor are instances
  of anonymous classes, whose `class.name` is `nil`, since a `VObj` class
  name is a string.
- `DumperProxy#dump` (`lib/rjson/dumpers.rb:268`): unreachable, because
  `Dumper.dump` calls `as_rjson` itself first.
- `lib/rjson/coder_context.rb`, `lib/rjson.rb`, `lib/rjson/version.rb` and
  the `as_rjson(context)` form used by the integration specs: not part of
  this model.
- Ruby's `inspect` in error messages: strings are quoted but not escaped.
- `Splat`, `*args` for `FunctionalBuilder`: a hash argument is spread into
  its pairs, as Ruby 2 does.
- Keyword arguments: bound with Ruby 2 semantics. Error messages name only
  the missing or unknown keywords.
- The parser spec example in which an unknown builder name becomes an
  `ObjectLoadError` (spec/rjson/parser_spec.rb:117-126): not restated.
  `Errors.SecureConstantize` states the rule it follows. Whether a
  `NameError` carries its name as a Symbol or a String is left to the
  environment, because Ruby reports either depending on the code that
  raised it.

=== FILE: builders.dfy ===
/** `RJSON::Builder` and its subclasses: turning an extension record's
    options and loaded data into a value. Ruby reflection (`constantize`,
    `allocate`, `instance_variable_set`, `public_send`, user-defined builder
    classes) is reached through an `Env` of functions. */
module Builders {
  import opened Wire
  import opened Values
  import opened Hashes
  import opened Strings
  import opened Errors

  /** The outcome of `receiver.public_send(name, *args)`. */
  datatype CallOutcome = Returned(value: Value) | Raised(exception: Exception)

  datatype Env = Env(
    /** `name.constantize`. */
    resolve: string -> Lookup,
    /** `receiver.public_send(name, *args)`. */
    call: (Value, string, seq<Value>) -> CallOutcome,
    /** `klass.new(options)` for a builder class that is not one of RJSON's
        own: success or the error it raises. */
    customNew: (string, seq<(string, Json)>) -> Result<()>,
    /** `.build(data)` on such a builder, once constructed. */
    customBuild: (string, seq<(string, Json)>, seq<(Value, Value)>) -> Result<Value>,
    /** `object.to_a` as `*object` calls it, for a value whose class may be
        user-defined (a plain object, a class or module, an `as_rjson`
        object): `None` when the object does not respond to `to_a`. */
    toA: Value -> Option<CallOutcome>)

  const ObjectBuilderName: string := "RJSON::ObjectBuilder"
  const ConstantLoaderName: string := "RJSON::ConstantLoader"
  const FunctionalBuilderName: string := "RJSON::FunctionalBuilder"

  /** A constructed builder instance: what `.new(options)` returned. */
  datatype Builder =
    | ObjectBuilder(className: Json)
    | ConstantLoader
    | FunctionalBuilder
    | Custom(name: string, options: seq<(string, Json)>)

  // ---------------------------------------------------------------------
  // Keyword arguments

  function JoinComma(names: seq<string>): string {
    if |names| == 0 then ""
    else if |names| == 1 then names[0]
    else names[0] + ", " + JoinComma(names[1..])
  }

  function Plural(names: seq<string>): string {
    if |names| == 1 then "" else "s"
  }

  predicate AllSymbolKeys<V>(given: seq<(Value, V)>) {
    forall i :: 0 <= i < |given| ==> given[i].0.VSym?
  }

  function SymbolNames<V>(given: seq<(Value, V)>): (r: seq<string>)
    requires AllSymbolKeys(given)
    ensures |r| == |given|
    ensures forall i :: 0 <= i < |given| ==> r[i] == given[i].0.name
  {
    if |given| == 0 then [] else [given[0].0.name] + SymbolNames(given[1..])
  }

  function Missing(names: seq<string>, required: seq<string>): (r: seq<string>)
    ensures forall n :: n in r <==> n in required && n !in names
  {
    if |required| == 0 then []
    else (if required[0] in names then [] else [required[0]]) + Missing(names, required[1..])
  }

  function Unknown(names: seq<string>, allowed: seq<string>): (r: seq<string>)
    ensures forall n :: n in r <==> n in names && n !in allowed
  {
    if |names| == 0 then []
    else (if names[0] in allowed then [] else [names[0]]) + Unknown(names[1..], allowed)
  }

  /** Binding a hash passed as the last argument to a method whose parameters
      are the keywords `required` and `optional` (Ruby 2 semantics): keys must
      be symbols, every required keyword present, no other keyword given. */
  function KeywordArgs<V>(given: seq<(Value, V)>, required: seq<string>, optional: seq<string>)
    : (r: Result<seq<(string, V)>>)
    ensures r.Ok? <==> AllSymbolKeys(given)
                       && (forall n :: n in required ==> n in SymbolNames(given))
                       && (forall n :: n in SymbolNames(given) ==> n in required || n in optional)
    ensures r.Err? ==> r.error.Uncaught? && r.error.exception.ArgumentError?
    ensures r.Ok? ==> |r.value| == |given|
                      && forall i :: 0 <= i < |given| ==> r.value[i] == (given[i].0.name, given[i].1)
  {
    if !AllSymbolKeys(given) then
      Err(Uncaught(ArgumentError("wrong number of arguments (given 1, expected 0)")))
    else
      var names := SymbolNames(given);
      var missing := Missing(names, required);
      var unknown := Unknown(names, required + optional);
      if |missing| > 0 then
        assert missing[0] in missing;
        Err(Uncaught(ArgumentError("missing keyword" + Plural(missing) + ": " + JoinComma(missing))))
      else if |unknown| > 0 then
        assert unknown[0] in unknown;
        Err(Uncaught(ArgumentError("unknown keyword" + Plural(unknown) + ": " + JoinComma(unknown))))
      else
        assert forall n :: n in names ==> n in required || n in optional by {
          forall n | n in names ensures n in required || n in optional {
            assert n !in unknown;
          }
        }
        Ok(seq(|given|, i requires 0 <= i < |given| => (given[i].0.name, given[i].1)))
  }

  /** A required keyword is bound once the arguments are accepted. */
  lemma RequiredKeywordBound<V>(given: seq<(Value, V)>, required: seq<string>, optional: seq<string>, n: string)
    requires KeywordArgs(given, required, optional).Ok? && n in required
    ensures HasKey(KeywordArgs(given, required, optional).value, n)
  {
    var names := SymbolNames(given);
    assert n in names;
    var i :| 0 <= i < |names| && names[i] == n;
    assert KeywordArgs(given, required, optional).value[i].0 == n;
  }

  /** The value bound to keyword `n` is the one the argument hash holds
      under the symbol `:n`. */
  lemma KeywordGet<V>(given: seq<(Value, V)>, required: seq<string>, optional: seq<string>, n: string)
    requires KeywordArgs(given, required, optional).Ok?
    ensures Get(KeywordArgs(given, required, optional).value, n) == Get(given, VSym(n))
  {
    var kw := KeywordArgs(given, required, optional).value;
    var i := IndexOf(given, VSym(n));
    if i < |given| {
      assert kw[i].0 == n;
      assert forall j :: 0 <= j < i ==> kw[j].0 != n by {
        forall j | 0 <= j < i ensures kw[j].0 != n {
          assert given[j].0 != VSym(n) && given[j].0.VSym?;
        }
      }
      IndexOfFirst(kw, n, i);
    } else {
      assert forall j :: 0 <= j < |kw| ==> kw[j].0 != n by {
        forall j | 0 <= j < |kw| ensures kw[j].0 != n {
          assert given[j].0 != VSym(n) && given[j].0.VSym?;
        }
      }
    }
  }

  /** Option names of a private section, as symbols. */
  function AsSymbols(options: seq<(string, Json)>): (r: seq<(Value, Json)>)
    ensures |r| == |options|
    ensures forall i :: 0 <= i < |options| ==> r[i] == (VSym(options[i].0), options[i].1)
  {
    seq(|options|, i requires 0 <= i < |options| => (VSym(options[i].0), options[i].1))
  }

  // ---------------------------------------------------------------------
  // Builder.new

  /** `Builder#initialize(options = {})`: the base class accepts no options. */
  function BaseInitialize(options: seq<(string, Json)>): (r: Result<()>)
    ensures r.Ok? <==> |options| == 0
    ensures r.Err? ==> r.error == UnexpectedOptions(options) && IsA(ClassOf(r.error), ParseErrorClass)
  {
    if |options| == 0 then Ok(()) else Err(UnexpectedOptions(options))
  }

  /** `ObjectBuilder#initialize(class_name:)` binds its options exactly
      when `class_name` is the only option name, and binds them as they are. */
  lemma ObjectBuilderOptions(options: seq<(string, Json)>)
    ensures var kw := KeywordArgs(AsSymbols(options), ["class_name"], []);
            (kw.Ok? <==> HasKey(options, "class_name")
                         && forall i :: 0 <= i < |options| ==> options[i].0 == "class_name")
            && (kw.Ok? ==> kw.value == options)
  {
    var given := AsSymbols(options);
    var names := SymbolNames(given);
    assert forall i :: 0 <= i < |options| ==> names[i] == options[i].0;
    assert "class_name" in names <==> HasKey(options, "class_name") by {
      if HasKey(options, "class_name") {
        var i :| 0 <= i < |options| && options[i].0 == "class_name";
        assert names[i] == "class_name";
      }
    }
    assert (forall n :: n in names ==> n in ["class_name"])
           <==> forall i :: 0 <= i < |options| ==> options[i].0 == "class_name" by {
      if forall n :: n in names ==> n in ["class_name"] {
        forall i | 0 <= i < |options| ensures options[i].0 == "class_name" {
          assert names[i] in names;
        }
      }
    }
  }

  /** `klass.new(options)` for the resolved builder class `klass`: only a
      class has `new`. */
  function New(env: Env, klass: Value, options: seq<(string, Json)>): (r: Result<Builder>)
    ensures r.Ok? ==> klass.VModule? && klass.isClass
    ensures klass == VModule(ObjectBuilderName, true) ==>
              (r.Ok? <==> HasKey(options, "class_name")
                          && forall i :: 0 <= i < |options| ==> options[i].0 == "class_name")
              && (r.Ok? ==> r.value == ObjectBuilder(Get(options, "class_name").value))
              && (r.Err? ==> r.error.Uncaught? && r.error.exception.ArgumentError?)
    ensures klass == VModule(ConstantLoaderName, true) || klass == VModule(FunctionalBuilderName, true) ==>
              (r.Ok? <==> |options| == 0) && (r.Err? ==> r.error == UnexpectedOptions(options))
  {
    if !(klass.VModule? && klass.isClass) then
      Err(Uncaught(NameError(VSym("new"), "undefined method `new'")))
    else if klass.name == ObjectBuilderName then
      ObjectBuilderOptions(options);
      var kw :- KeywordArgs(AsSymbols(options), ["class_name"], []);
      RequiredKeywordBound(AsSymbols(options), ["class_name"], [], "class_name");
      Ok(ObjectBuilder(Get(kw, "class_name").value))
    else if klass.name == ConstantLoaderName then
      var _ :- BaseInitialize(options);
      Ok(ConstantLoader)
    else if klass.name == FunctionalBuilderName then
      var _ :- BaseInitialize(options);
      Ok(FunctionalBuilder)
    else
      var _ :- env.customNew(klass.name, options);
      Ok(Custom(klass.name, options))
  }

  /** `ObjectBuilder.new(options)` requires the keyword `class_name`: a
      record without it fails with an `ArgumentError`. */
  lemma ObjectBuilderNeedsClassName(env: Env, options: seq<(string, Json)>)
    requires !HasKey(options, "class_name")
    ensures New(env, VModule(ObjectBuilderName, true), options)
              == Err(Uncaught(ArgumentError("missing keyword: class_name")))
  {
    var names := SymbolNames(AsSymbols(options));
    assert "class_name" !in names by {
      forall i | 0 <= i < |names| ensures names[i] != "class_name" {
        assert names[i] == options[i].0;
      }
    }
    assert Missing(names, ["class_name"]) == ["class_name"];
  }

  /** With `class_name` as its only option it is built around that raw value. */
  lemma ObjectBuilderTakesClassName(env: Env, className: Json)
    ensures New(env, VModule(ObjectBuilderName, true), [("class_name", className)])
              == Ok(ObjectBuilder(className))
  {
    var given := AsSymbols([("class_name", className)]);
    assert SymbolNames(given) == ["class_name"];
    var kw := KeywordArgs(given, ["class_name"], []).value;
    assert kw == [("class_name", className)];
  }

  // ---------------------------------------------------------------------
  // #build

  /** `ObjectBuilder::BadKey.try_raise(key)`. */
  function BadKeyTryRaise(key: string): (r: Result<()>)
    ensures r.Ok? <==> StartsWith(key, "@") && !StartsWith(key, "@@")
    ensures r.Err? ==> r.error == BadKey(key, StartsWith(key, "@"))
  {
    if !StartsWith(key, "@") then Err(BadKey(key, false))
    else if StartsWith(key, "@@") then Err(BadKey(key, true))
    else Ok(())
  }

  predicate IsIdentStart(c: char) {
    ('a' <= c <= 'z') || ('A' <= c <= 'Z') || c == '_' || c as int >= 128
  }

  predicate IsIdentChar(c: char) {
    IsIdentStart(c) || ('0' <= c <= '9')
  }

  /** What `instance_variable_set` accepts as a name: `@` and an identifier. */
  predicate ValidIvarName(s: string) {
    |s| >= 2 && s[0] == '@' && IsIdentStart(s[1]) &&
    forall i :: 2 <= i < |s| ==> IsIdentChar(s[i])
  }

  /** Every key BadKey lets through either is a valid name or makes
      `instance_variable_set` raise; every valid name passes BadKey. */
  lemma ValidIvarNamesPassBadKey(s: string)
    ensures ValidIvarName(s) ==> BadKeyTryRaise(s).Ok?
  {
    if ValidIvarName(s) {
      assert s[..1] == "@";
      assert s[1] != '@';
      assert !StartsWith(s, "@@") by {
        if |s| >= 2 { assert s[..2][1] == s[1]; }
      }
    }
  }

  /** The loop of `ObjectBuilder#build`: each data key in order is checked
      and set as an instance variable; the first bad key aborts. */
  function SetIvars(data: seq<(Value, Value)>): (r: Result<seq<(string, Value)>>)
    ensures r.Ok? ==> |r.value| == |data|
    ensures r.Ok? ==> forall i :: 0 <= i < |data| ==>
                         data[i].0 == VStr(r.value[i].0) && data[i].1 == r.value[i].1
                         && ValidIvarName(r.value[i].0)
  {
    if |data| == 0 then Ok([])
    else
      var (key, value) := data[0];
      if !key.VStr? then
        Err(Uncaught(NameError(VSym("starts_with?"), "undefined method `starts_with?'")))
      else
        var _ :- BadKeyTryRaise(key.s);
        if !ValidIvarName(key.s) then
          Err(Uncaught(NameError(key, "'" + key.s + "' is not allowed as an instance variable name")))
        else
          var rest :- SetIvars(data[1..]);
          Ok([(key.s, value)] + rest)
  }

  /** A data key that fails the loop stops it: no later key is looked at. */
  lemma {:induction false} SetIvarsAbortsOnFirstBadKey(data: seq<(Value, Value)>, i: nat)
    requires i < |data| && data[i].0.VStr? && BadKeyTryRaise(data[i].0.s).Err?
    requires forall j :: 0 <= j < i ==> data[j].0.VStr? && ValidIvarName(data[j].0.s)
    ensures SetIvars(data) == Err(BadKeyTryRaise(data[i].0.s).error)
  {
    if i > 0 {
      ValidIvarNamesPassBadKey(data[0].0.s);
      SetIvarsAbortsOnFirstBadKey(data[1..], i - 1);
    }
  }

  /** `ObjectLoadError.secure_constantize(name)` on any value. Only strings
      have `constantize`; on anything else its `NoMethodError` is rescued and
      `name.split('::')` is evaluated. ActiveSupport gives arrays a `split`
      whose pieces are arrays, never the symbol `:constantize`, so the error
      is re-raised; the other values have no `split`, and that
      `NoMethodError` escapes from the rescue clause. */
  function SecureConstantizeValue(env: Env, name: Value): (r: Result<Value>)
    ensures r.Ok? ==> name.VStr?
    ensures name.VArr? ==> r == Err(Uncaught(NoMethod("constantize")))
    ensures !(name.VStr? || name.VArr?) ==> r == Err(Uncaught(NoMethod("split")))
  {
    if name.VStr? then SecureConstantize(name.s, env.resolve(name.s))
    else if name.VArr? then Err(Uncaught(NoMethod("constantize")))
    else Err(Uncaught(NoMethod("split")))
  }

  /** The `NoMethodError` Ruby raises for a method the receiver lacks. */
  function NoMethod(m: string): Exception {
    NameError(VSym(m), "undefined method `" + m + "'")
  }

  /** A raw option value as the Ruby value it loads as. Only the `builder`
      and `class_name` options are looked up this way; for a name lookup an
      array differs from an object (see `SecureConstantizeValue`), but the
      contents of either do not matter. */
  function JsonAsValue(j: Json): Value {
    match j
    case JStr(s) => VStr(s)
    case JNull => VNil
    case JBool(b) => VBool(b)
    case JInt(i) => VInt(i)
    case JFloat(f) => VFloat(f)
    case JArr(_) => VArr([])
    case JObj(_) => VHash([])
  }

  /** `ObjectBuilder#build(data)`: the class is looked up before any data
      key, and only a class can `allocate`. */
  function BuildObject(env: Env, className: Json, data: seq<(Value, Value)>): (r: Result<Value>)
    ensures r.Ok? ==> r.value.VObj? && |r.value.ivars| == |data|
    ensures var k := SecureConstantizeValue(env, JsonAsValue(className));
            (k.Err? ==> r == Err(k.error))
            && (r.Ok? <==> k.Ok? && k.value.VModule? && k.value.isClass && SetIvars(data).Ok?)
            && (r.Ok? ==> r.value == VObj(k.value.name, SetIvars(data).value))
  {
    var klass :- SecureConstantizeValue(env, JsonAsValue(className));
    if !(klass.VModule? && klass.isClass) then
      Err(Uncaught(NameError(VSym("allocate"), "undefined method `allocate'")))
    else
      var ivars :- SetIvars(data);
      Ok(VObj(klass.name, ivars))
  }

  /** `ConstantLoader#build(name:)`: the constant named by the `:name` entry. */
  function BuildConstant(env: Env, data: seq<(Value, Value)>): (r: Result<Value>)
    ensures var kw := KeywordArgs(data, ["name"], []);
            (kw.Err? ==> r == Err(kw.error))
            && (kw.Ok? ==> HasKey(data, VSym("name"))
                           && r == SecureConstantizeValue(env, Get(data, VSym("name")).value))
  {
    var kw :- KeywordArgs(data, ["name"], []);
    KeywordGet(data, ["name"], [], "name");
    RequiredKeywordBound(data, ["name"], [], "name");
    SecureConstantizeValue(env, Get(kw, "name").value)
  }

  /** What `*args` passes on: the arguments, or what a user-defined
      `to_a` raised. */
  datatype Splatted = Spread(items: seq<Value>) | ToARaised(exception: Exception)

  /** Values whose class may define its own `to_a`. Ruby's `Array`, `Hash`
      and `NilClass` answer `to_a`; its other classes modelled here do not. */
  predicate MayDefineToA(v: Value) {
    v.VObj? || v.VModule? || v.VCustom?
  }

  /** `*args`: an array is spread; `nil` gives no argument and a hash its
      pairs as two-element arrays. Any other object that responds to `to_a`
      is spread through it: an array result is spread, `nil` leaves the
      object as the one argument, and anything else is a `TypeError`. An
      object without `to_a` is the one argument. */
  function Splat(env: Env, args: Value): (r: Splatted)
    ensures args.VArr? ==> r == Spread(args.items)
    ensures args.VNil? ==> r == Spread([])
    ensures args.VHash? ==> r.Spread? && |r.items| == |args.pairs|
                            && forall i :: 0 <= i < |r.items| ==> r.items[i] == VArr([args.pairs[i].0, args.pairs[i].1])
    ensures (!(args.VArr? || args.VNil? || args.VHash?) && !(MayDefineToA(args) && env.toA(args).Some?))
              ==> r == Spread([args])
    ensures MayDefineToA(args) && env.toA(args).Some? ==>
              match env.toA(args).value
              case Raised(x) => r == ToARaised(x)
              case Returned(a) =>
                if a.VArr? then r == Spread(a.items)
                else if a.VNil? then r == Spread([args])
                else r.ToARaised? && r.exception.TypeError?
  {
    match args
    case VArr(xs) => Spread(xs)
    case VNil => Spread([])
    case VHash(ps) => Spread(seq(|ps|, i requires 0 <= i < |ps| => VArr([ps[i].0, ps[i].1])))
    case _ =>
      if !MayDefineToA(args) then Spread([args])
      else match env.toA(args)
        case None => Spread([args])
        case Some(Raised(x)) => ToARaised(x)
        case Some(Returned(a)) =>
          if a.VArr? then Spread(a.items)
          else if a.VNil? then Spread([args])
          else ToARaised(TypeError("can't convert " + ClassName(args) + " to Array ("
                                   + ClassName(args) + "#to_a gives " + ClassName(a) + ")"))
  }

  /** `Array#to_h` on two-element arrays: the hash they describe, or `None`
      when an item is not a pair. */
  function ArrayPairs(items: seq<Value>): (r: Option<seq<(Value, Value)>>)
    ensures r.Some? ==> |r.value| == |items|
  {
    if |items| == 0 then Some([])
    else if !(items[0].VArr? && |items[0].items| == 2) then None
    else match ArrayPairs(items[1..])
      case None => None
      case Some(rest) => Some([(items[0].items[0], items[0].items[1])] + rest)
  }

  /** Spreading a hash and reading the arguments back as pairs gives the
      hash again: `*h` loses nothing. */
  lemma SplatHashComesBack(env: Env, ps: seq<(Value, Value)>)
    ensures Splat(env, VHash(ps)).Spread?
    ensures ArrayPairs(Splat(env, VHash(ps)).items) == Some(ps)
  {
    PairArraysComeBack(ps, Splat(env, VHash(ps)).items);
  }

  lemma {:induction false} PairArraysComeBack(ps: seq<(Value, Value)>, items: seq<Value>)
    requires |items| == |ps|
    requires forall i :: 0 <= i < |items| ==> items[i] == VArr([ps[i].0, ps[i].1])
    ensures ArrayPairs(items) == Some(ps)
  {
    if |ps| > 0 {
      PairArraysComeBack(ps[1..], items[1..]);
      assert [ps[0]] + ps[1..] == ps;
    }
  }

  const Kernel: Value := VModule("Kernel", false)

  /** The method name `public_send` takes from a string or a symbol. */
  function MethodName(meth: Value): string
    requires meth.VStr? || meth.VSym?
  {
    if meth.VStr? then meth.s else meth.name
  }

  /** `FunctionalBuilder#build(method:, args:, namespace: Kernel)`. */
  function BuildFunctional(env: Env, data: seq<(Value, Value)>): (r: Result<Value>)
    ensures r.Err? && r.error.Proxy? ==> r.error.original.NameError?
    ensures var kw := KeywordArgs(data, ["method", "args"], ["namespace"]);
            kw.Err? ==> r == Err(kw.error)
  {
    var kw :- KeywordArgs(data, ["method", "args"], ["namespace"]);
    RequiredKeywordBound(data, ["method", "args"], ["namespace"], "method");
    RequiredKeywordBound(data, ["method", "args"], ["namespace"], "args");
    var meth := Get(kw, "method").value;
    var args := Get(kw, "args").value;
    var namespace := (match Get(kw, "namespace") case Some(ns) => ns case None => Kernel);
    match Splat(env, args)
    case ToARaised(x) => RescueNameError(meth, x)
    case Spread(xs) =>
      if !(meth.VStr? || meth.VSym?) then
        Err(Uncaught(TypeError("is not a symbol nor a string")))
      else
        match env.call(namespace, MethodName(meth), xs)
        case Returned(v) => Ok(v)
        case Raised(x) => RescueNameError(meth, x)
  }

  /** `rescue NameError => e; raise(e) unless e.name == method`, then
      `ProxyError.wrap(e)`. */
  function RescueNameError(meth: Value, x: Exception): Result<Value> {
    if x.NameError? && x.name == meth then Err(Wrap(PlainProxy, x)) else Err(Uncaught(x))
  }

  function Build(env: Env, b: Builder, data: seq<(Value, Value)>): Result<Value> {
    match b
    case ObjectBuilder(className) => BuildObject(env, className, data)
    case ConstantLoader => BuildConstant(env, data)
    case FunctionalBuilder => BuildFunctional(env, data)
    case Custom(name, options) => env.customBuild(name, options, data)
  }

  /** `Parser.call_builder(builder, options, data)`. The `rescue
      ArgumentError` wraps an argument error only when it was raised while
      constructing the builder (the backtrace test at frame 2 sees
      `call_builder` only for errors from `new`); errors of the lookup and of
      `build` pass through unchanged. */
  function CallBuilder(env: Env, builder: Json, options: seq<(string, Json)>, data: seq<(Value, Value)>)
    : (r: Result<Value>)
    ensures var k := SecureConstantizeValue(env, JsonAsValue(builder));
            (k.Err? ==> r == Err(k.error))
            && (k.Ok? && New(env, k.value, options).Ok? ==> r == Build(env, New(env, k.value, options).value, data))
    ensures var k := SecureConstantizeValue(env, JsonAsValue(builder));
            k.Ok? && New(env, k.value, options).Err? ==>
              var e := New(env, k.value, options).error;
              r == if e.Uncaught? && e.exception.ArgumentError? then Err(Proxy(PlainProxy, e.exception)) else Err(e)
  {
    var klass :- SecureConstantizeValue(env, JsonAsValue(builder));
    match New(env, klass, options)
    case Err(e) => if e.Uncaught? && e.exception.ArgumentError? then Err(Wrap(PlainProxy, e.exception)) else Err(e)
    case Ok(b) => Build(env, b, data)
  }

  // ---------------------------------------------------------------------
  // The three built-in builders, end to end

  /** Every valid name is set, in order: the partner of
      `SetIvarsAbortsOnFirstBadKey`. */
  lemma {:induction false} SetIvarsAcceptsValidNames(data: seq<(Value, Value)>, ivars: seq<(string, Value)>)
    requires |data| == |ivars|
    requires forall i :: 0 <= i < |data| ==> data[i] == (VStr(ivars[i].0), ivars[i].1) && ValidIvarName(ivars[i].0)
    ensures SetIvars(data) == Ok(ivars)
  {
    if |data| > 0 {
      ValidIvarNamesPassBadKey(ivars[0].0);
      SetIvarsAcceptsValidNames(data[1..], ivars[1..]);
      assert ivars == [ivars[0]] + ivars[1..];
    }
  }

  lemma ConstantLoaderNew(env: Env)
    requires env.resolve(ConstantLoaderName) == Found(VModule(ConstantLoaderName, true))
    ensures SecureConstantizeValue(env, JsonAsValue(JStr(ConstantLoaderName))) == Ok(VModule(ConstantLoaderName, true))
    ensures New(env, VModule(ConstantLoaderName, true), []) == Ok(ConstantLoader)
  {
  }

  lemma ConstantLoaderBuild(env: Env, name: string, x: Value)
    requires env.resolve(name) == Found(x)
    ensures BuildConstant(env, [(VSym("name"), VStr(name))]) == Ok(x)
  {
    var data := [(VSym("name"), VStr(name))];
    var names := SymbolNames(data);
    assert names[0] == "name";
    var r := KeywordArgs(data, ["name"], []);
    assert r.Ok?;
    assert r.value[0] == ("name", VStr(name));
    assert r.value == [("name", VStr(name))];
    assert Get(r.value, "name") == Some(VStr(name));
  }

  /** `{"__rjson_builder": "RJSON::ConstantLoader", ":name": "%X"}` loads the
      constant `X`. */
  lemma ConstantLoaderLoads(env: Env, name: string, x: Value)
    requires env.resolve(ConstantLoaderName) == Found(VModule(ConstantLoaderName, true))
    requires env.resolve(name) == Found(x)
    ensures CallBuilder(env, JStr(ConstantLoaderName), [], [(VSym("name"), VStr(name))]) == Ok(x)
  {
    ConstantLoaderNew(env);
    ConstantLoaderBuild(env, name, x);
  }

  lemma FunctionalBuilderNew(env: Env)
    requires env.resolve(FunctionalBuilderName) == Found(VModule(FunctionalBuilderName, true))
    ensures SecureConstantizeValue(env, JsonAsValue(JStr(FunctionalBuilderName))) == Ok(VModule(FunctionalBuilderName, true))
    ensures New(env, VModule(FunctionalBuilderName, true), []) == Ok(FunctionalBuilder)
  {
  }

  lemma FunctionalBuilderKeywords(m: string, t: string)
    ensures KeywordArgs([(VSym("method"), VStr(m)), (VSym("args"), VArr([VStr(t)]))], ["method", "args"], ["namespace"])
              == Ok([("method", VStr(m)), ("args", VArr([VStr(t)]))])
  {
    var data := [(VSym("method"), VStr(m)), (VSym("args"), VArr([VStr(t)]))];
    var names := SymbolNames(data);
    assert names == ["method", "args"];
    var r := KeywordArgs(data, ["method", "args"], ["namespace"]);
    assert r.Ok?;
    assert r.value == [("method", VStr(m)), ("args", VArr([VStr(t)]))];
  }

  lemma FunctionalBuilderBuild(env: Env, m: string, t: string, r: Value)
    requires env.call(Kernel, m, [VStr(t)]) == Returned(r)
    ensures BuildFunctional(env, [(VSym("method"), VStr(m)), (VSym("args"), VArr([VStr(t)]))]) == Ok(r)
  {
    var kw := [("method", VStr(m)), ("args", VArr([VStr(t)]))];
    FunctionalBuilderKeywords(m, t);
    assert Get(kw, "method") == Some(VStr(m));
    IndexOfFirst(kw, "args", 1);
    assert Get(kw, "args") == Some(VArr([VStr(t)]));
    assert !HasKey(kw, "namespace");
  }

  /** `{"__rjson_builder": "RJSON::FunctionalBuilder", ":method": "%m",
      ":args": ["%t"]}` is `Kernel.m(t)`. */
  lemma FunctionalBuilderCalls(env: Env, m: string, t: string, r: Value)
    requires env.resolve(FunctionalBuilderName) == Found(VModule(FunctionalBuilderName, true))
    requires env.call(Kernel, m, [VStr(t)]) == Returned(r)
    ensures CallBuilder(env, JStr(FunctionalBuilderName), [],
                        [(VSym("method"), VStr(m)), (VSym("args"), VArr([VStr(t)]))]) == Ok(r)
  {
    FunctionalBuilderNew(env);
    FunctionalBuilderBuild(env, m, t, r);
  }

  /** A record naming `RJSON::ObjectBuilder` without `__rjson_class_name`:
      the constructor's `ArgumentError` is rescued by `call_builder` and
      surfaces as a `ProxyError` around it. */
  lemma ObjectBuilderWithoutClassNameIsProxied(env: Env, options: seq<(string, Json)>, data: seq<(Value, Value)>)
    requires env.resolve(ObjectBuilderName) == Found(VModule(ObjectBuilderName, true))
    requires !HasKey(options, "class_name")
    ensures CallBuilder(env, JStr(ObjectBuilderName), options, data)
              == Err(Proxy(PlainProxy, ArgumentError("missing keyword: class_name")))
  {
    assert SecureConstantizeValue(env, JsonAsValue(JStr(ObjectBuilderName))) == Ok(VModule(ObjectBuilderName, true));
    ObjectBuilderNeedsClassName(env, options);
  }

  /** When the method called by a `FunctionalBuilder` record raises, the
      error is wrapped in a `ProxyError` exactly when it is a `NameError`
      for that very method; anything else propagates as it is. */
  lemma FunctionalBuilderRaises(env: Env, m: string, t: string, x: Exception)
    requires env.call(Kernel, m, [VStr(t)]) == Raised(x)
    ensures BuildFunctional(env, [(VSym("method"), VStr(m)), (VSym("args"), VArr([VStr(t)]))])
              == if x.NameError? && x.name == VStr(m) then Err(Proxy(PlainProxy, x)) else Err(Uncaught(x))
  {
    var kw := [("method", VStr(m)), ("args", VArr([VStr(t)]))];
    FunctionalBuilderKeywords(m, t);
    assert Get(kw, "method") == Some(VStr(m));
    IndexOfFirst(kw, "args", 1);
    assert Get(kw, "args") == Some(VArr([VStr(t)]));
    assert !HasKey(kw, "namespace");
  }

  /** Every `FunctionalBuilder` record whose keywords bind and whose
      `:method` is a string or a symbol calls that method on its `:namespace`
      (`Kernel` when there is none) with the `:args` spread. */
  lemma FunctionalBuilderCallsMethod(env: Env, data: seq<(Value, Value)>, meth: Value, args: Value, namespace: Value)
    requires KeywordArgs(data, ["method", "args"], ["namespace"]).Ok?
    requires Get(data, VSym("method")) == Some(meth) && (meth.VStr? || meth.VSym?)
    requires Get(data, VSym("args")) == Some(args)
    requires Get(data, VSym("namespace")) == Some(namespace)
             || (!HasKey(data, VSym("namespace")) && namespace == Kernel)
    ensures BuildFunctional(env, data)
              == match Splat(env, args)
                 case ToARaised(x) =>
                   if x.NameError? && x.name == meth then Err(Proxy(PlainProxy, x)) else Err(Uncaught(x))
                 case Spread(xs) =>
                   match env.call(namespace, MethodName(meth), xs)
                   case Returned(v) => Ok(v)
                   case Raised(x) =>
                     if x.NameError? && x.name == meth then Err(Proxy(PlainProxy, x)) else Err(Uncaught(x))
  {
    KeywordGet(data, ["method", "args"], ["namespace"], "method");
    KeywordGet(data, ["method", "args"], ["namespace"], "args");
    KeywordGet(data, ["method", "args"], ["namespace"], "namespace");
  }

  /** A builder named by an array, such as `{"__rjson_builder": ["X"]}`:
      the `NoMethodError` for `constantize` is re-raised unwrapped, and
      neither `new` nor `build` runs. */
  lemma ArrayBuilderNameIsNotProxied(env: Env, xs: seq<Json>, options: seq<(string, Json)>,
                                     data: seq<(Value, Value)>)
    ensures CallBuilder(env, JArr(xs), options, data)
              == Err(Uncaught(NameError(VSym("constantize"), "undefined method `constantize'")))
  {
    assert "undefined method `" + "constantize" + "'" == "undefined method `constantize'";
  }

  /** The `ArgumentError` of a `ConstantLoader` record without `:name` comes
      from `build`, not `new`, so `call_builder` lets it through unwrapped. */
  lemma ConstantLoaderWithoutNameIsNotProxied(env: Env, data: seq<(Value, Value)>)
    requires env.resolve(ConstantLoaderName) == Found(VModule(ConstantLoaderName, true))
    requires AllSymbolKeys(data) && !HasKey(data, VSym("name"))
    ensures CallBuilder(env, JStr(ConstantLoaderName), [], data)
              == Err(Uncaught(ArgumentError("missing keyword: name")))
  {
    ConstantLoaderNew(env);
    var names := SymbolNames(data);
    assert "name" !in names by {
      forall i | 0 <= i < |names| ensures names[i] != "name" {
        assert data[i].0 == VSym(names[i]);
      }
    }
    assert Missing(names, ["name"]) == ["name"];
  }

  lemma ObjectBuilderBuild(env: Env, cls: string, data: seq<(Value, Value)>, ivars: seq<(string, Value)>)
    requires env.resolve(cls) == Found(VModule(cls, true))
    requires SetIvars(data) == Ok(ivars)
    ensures BuildObject(env, JStr(cls), data) == Ok(VObj(cls, ivars))
  {
  }

  /** `{"__rjson_builder": "RJSON::ObjectBuilder", "__rjson_class_name": "C",
      "@a": ...}` allocates a `C` and sets its instance variables. */
  lemma ObjectBuilderBuilds(env: Env, cls: string, data: seq<(Value, Value)>, ivars: seq<(string, Value)>)
    requires env.resolve(ObjectBuilderName) == Found(VModule(ObjectBuilderName, true))
    requires env.resolve(cls) == Found(VModule(cls, true))
    requires SetIvars(data) == Ok(ivars)
    ensures CallBuilder(env, JStr(ObjectBuilderName), [("class_name", JStr(cls))], data) == Ok(VObj(cls, ivars))
  {
    assert SecureConstantizeValue(env, JsonAsValue(JStr(ObjectBuilderName))) == Ok(VModule(ObjectBuilderName, true));
    ObjectBuilderTakesClassName(env, JStr(cls));
    ObjectBuilderBuild(env, cls, data, ivars);
  }
}

=== FILE: dumpers.dfy ===
/** `RJSON::Dumper` and its subclasses: turning a runtime value into a wire
    tree. A value with `as_rjson` is handed to that method; every other value
    goes to the first dumper of the priority-sorted registry `DUMPERS` whose
    `can_dump?` accepts it. */
module Dumpers {
  import opened Wire
  import opened Values
  import opened Hashes
  import opened Errors

  /** The descendants of `RJSON::Dumper`. */
  datatype DumperKind =
    | DumperProxy
    | PrimitiveTypesDumper
    | FloatDumper
    | StringDumper
    | SymbolDumper
    | ArrayDumper
    | HashDumper
    | StringRepresentableDumper
    | ObjectDumper

  /** `Dumper.priority`: 500 unless overridden. */
  function Priority(k: DumperKind): int {
    match k
    case DumperProxy => 1000
    case ObjectDumper => 0
    case _ => 500
  }

  /** `can_dump?` of each dumper class. */
  predicate CanDump(k: DumperKind, v: Value) {
    match k
    case DumperProxy => v.VCustom?
    case PrimitiveTypesDumper => v.VInt? || v.VBool? || v.VNil?
    case FloatDumper => v.VFloat?
    case StringDumper => v.VStr?
    case SymbolDumper => v.VSym?
    case ArrayDumper => v.VArr?
    case HashDumper => v.VHash?
    case StringRepresentableDumper => v.VNum?
    case ObjectDumper => true
  }

  /** `Dumper.descendants.sort_by { |x| -x.priority }`. Ruby's `sort_by` is
      not stable, so the order among the priority-500 dumpers is one of many;
      `ChoiceIgnoresTieOrder` shows that it does not matter. */
  const Dumpers: seq<DumperKind> := [
    DumperProxy,
    PrimitiveTypesDumper, FloatDumper, StringDumper, SymbolDumper,
    ArrayDumper, HashDumper, StringRepresentableDumper,
    ObjectDumper
  ]

  predicate SortedByPriority(reg: seq<DumperKind>) {
    forall i, j :: 0 <= i < j < |reg| ==> Priority(reg[i]) >= Priority(reg[j])
  }

  /** Any order `sort_by` may produce: every dumper, by descending priority. */
  predicate ValidRegistry(reg: seq<DumperKind>) {
    SortedByPriority(reg) && forall k: DumperKind :: k in reg
  }

  /** Index of the first dumper of `reg` that accepts `v` (`|reg|` if none):
      `DUMPERS.find { |x| x.can_dump?(object) }`. */
  function FirstMatch(reg: seq<DumperKind>, v: Value): (i: nat)
    ensures i <= |reg|
    ensures i < |reg| ==> CanDump(reg[i], v)
    ensures forall j :: 0 <= j < i ==> !CanDump(reg[j], v)
  {
    if |reg| == 0 then 0
    else if CanDump(reg[0], v) then 0
    else 1 + FirstMatch(reg[1..], v)
  }

  /** `ObjectDumper.can_dump?` is always true, so a registry holding it never
      comes up empty. */
  lemma {:induction false} FirstMatchFound(reg: seq<DumperKind>, v: Value)
    requires ObjectDumper in reg
    ensures FirstMatch(reg, v) < |reg|
  {
    if reg[0] != ObjectDumper {
      FirstMatchFound(reg[1..], v);
    }
  }

  /** `choose_object_dumper(object)`. */
  function ChooseObjectDumper(v: Value): (k: DumperKind)
    ensures CanDump(k, v)
    ensures k == DumperProxy <==> v.VCustom?
    ensures forall k' :: CanDump(k', v) ==> Priority(k') <= Priority(k)
  {
    DumpersIsValid();
    HighestPriorityWins(Dumpers, v);
    var k := Dumpers[FirstMatch(Dumpers, v)];
    assert forall k' :: CanDump(k', v) ==> Priority(k') <= Priority(k) by {
      forall k' | CanDump(k', v) ensures Priority(k') <= Priority(k) {
        IntendedOutranks(v, k');
      }
    }
    k
  }

  /** The one dumper a value calls for, read off its shape: the class-specific
      dumper if there is one, `ObjectDumper` otherwise. */
  function Intended(v: Value): DumperKind {
    match v
    case VCustom(_, _) => DumperProxy
    case VNil => PrimitiveTypesDumper
    case VBool(_) => PrimitiveTypesDumper
    case VInt(_) => PrimitiveTypesDumper
    case VFloat(_) => FloatDumper
    case VStr(_) => StringDumper
    case VSym(_) => SymbolDumper
    case VArr(_) => ArrayDumper
    case VHash(_) => HashDumper
    case VNum(_, _) => StringRepresentableDumper
    case VObj(_, _) => ObjectDumper
    case VModule(_, _) => ObjectDumper
  }

  /** The predicates of the priority-500 dumpers test the exact class, so at
      most one of them accepts a value, and whichever accepts it outranks
      every other dumper that does. */
  lemma IntendedOutranks(v: Value, k: DumperKind)
    ensures CanDump(Intended(v), v)
    ensures CanDump(k, v) && k != Intended(v) ==> Priority(k) < Priority(Intended(v))
  {
  }

  /** In a registry sorted by descending priority the first match is the
      unique highest-priority match. */
  lemma HighestPriorityWins(reg: seq<DumperKind>, v: Value)
    requires ValidRegistry(reg)
    ensures FirstMatch(reg, v) < |reg|
    ensures reg[FirstMatch(reg, v)] == Intended(v)
  {
    var i := FirstMatch(reg, v);
    FirstMatchFound(reg, v);
    assert Intended(v) in reg;
    var j :| 0 <= j < |reg| && reg[j] == Intended(v);
    IntendedOutranks(v, reg[i]);
  }

  /** Whatever order `sort_by` leaves the equal-priority dumpers in, the same
      dumper is chosen for every value. */
  lemma ChoiceIgnoresTieOrder(reg1: seq<DumperKind>, reg2: seq<DumperKind>, v: Value)
    requires ValidRegistry(reg1) && ValidRegistry(reg2)
    ensures FirstMatch(reg1, v) < |reg1| && FirstMatch(reg2, v) < |reg2|
    ensures reg1[FirstMatch(reg1, v)] == reg2[FirstMatch(reg2, v)]
  {
    HighestPriorityWins(reg1, v);
    HighestPriorityWins(reg2, v);
  }

  lemma DumpersIsValid()
    ensures ValidRegistry(Dumpers)
    ensures Dumpers[0] == DumperProxy && Dumpers[|Dumpers| - 1] == ObjectDumper
  {
    forall k: DumperKind ensures k in Dumpers {
      match k
      case DumperProxy => assert Dumpers[0] == k;
      case PrimitiveTypesDumper => assert Dumpers[1] == k;
      case FloatDumper => assert Dumpers[2] == k;
      case StringDumper => assert Dumpers[3] == k;
      case SymbolDumper => assert Dumpers[4] == k;
      case ArrayDumper => assert Dumpers[5] == k;
      case HashDumper => assert Dumpers[6] == k;
      case StringRepresentableDumper => assert Dumpers[7] == k;
      case ObjectDumper => assert Dumpers[8] == k;
    }
  }

  // ---------------------------------------------------------------------
  // Dumping

  const BuilderKey: string := PrivateNamespacePrefix + "builder"
  const ClassNameKey: string := PrivateNamespacePrefix + "class_name"

  /** What `FloatDumper` makes of `Float::INFINITY`: a `ConstantLoader`
      record naming the constant. */
  const InfinityRecord: Json :=
    JObj([(BuilderKey, JStr("RJSON::ConstantLoader")), (":name", JStr("%Float::INFINITY"))])

  /** `Dumper.dump(object)`: only Strings and Symbols become JSON strings,
      escaped by `%` and `:`, and every object written has distinct keys,
      `as_rjson` objects aside. */
  function Dump(codec: TextCodec, v: Value): (r: Json)
    ensures v.VCustom? ==> r == v.rjson
    ensures !v.VCustom? ==> (r.JStr? <==> v.VStr? || v.VSym?)
    ensures v.VStr? ==> r == JStr("%" + v.s)
    ensures v.VSym? ==> r == JStr(":" + v.name)
    ensures !v.VCustom? && r.JObj? ==> DistinctKeys(r.pairs)
    decreases v, 1
  {
    if v.VCustom? then v.rjson
    else
      ChosenIsIntended(v);
      DumpWith(codec, ChooseObjectDumper(v), v)
  }

  /** `choose_object_dumper(object).new(object).dump`: the String and Symbol
      dumpers write strings and no other dumper does; the hash and record
      dumpers write objects with distinct keys. */
  function DumpWith(codec: TextCodec, k: DumperKind, v: Value): (r: Json)
    requires CanDump(k, v) && k != DumperProxy
    ensures r.JStr? <==> k == StringDumper || k == SymbolDumper
    ensures r.JObj? ==> DistinctKeys(r.pairs)
    decreases v, 0
  {
    match k
    case PrimitiveTypesDumper =>
      (match v
       case VInt(i) => JInt(i)
       case VBool(b) => JBool(b)
       case VNil => JNull)
    case FloatDumper => if v.f == PosInf then InfinityRecord else JFloat(v.f)
    case StringDumper => JStr("%" + v.s)
    case SymbolDumper => JStr(":" + v.name)
    case ArrayDumper => JArr(DumpItems(codec, v, 0))
    case HashDumper => JObj(ToH(DumpEntries(codec, v, 0)))
    case StringRepresentableDumper =>
      JObj([(BuilderKey, JStr("RJSON::FunctionalBuilder")),
            (":method", JStr("%" + NumClassName(v.numClass))),
            (":args", JArr([JStr("%" + v.text)]))])
    case ObjectDumper =>
      JObj(ToH([(BuilderKey, JStr("RJSON::ObjectBuilder")), (ClassNameKey, JStr(ClassName(v)))]
               + DumpIvars(codec, v, 0)))
  }

  /** `object.map { |x| self.class.dump(x) }` from position `i` on. */
  function DumpItems(codec: TextCodec, v: Value, i: nat): seq<Json>
    requires v.VArr? && i <= |v.items|
    decreases v, 0, |v.items| - i
  {
    if i == |v.items| then [] else [Dump(codec, v.items[i])] + DumpItems(codec, v, i + 1)
  }

  /** The pairs `HashDumper#dump` builds before `to_h`, from position `i` on. */
  function DumpEntries(codec: TextCodec, v: Value, i: nat): seq<(string, Json)>
    requires v.VHash? && i <= |v.pairs|
    decreases v, 0, |v.pairs| - i
  {
    if i == |v.pairs| then []
    else [(DumpKey(codec, v.pairs[i].0), Dump(codec, v.pairs[i].1))] + DumpEntries(codec, v, i + 1)
  }

  /** A hash key: its dump if that is a String, otherwise `"!"` followed by
      the JSON text of its dump. So a String key is escaped by `%`, a Symbol
      key by `:`, and any other key (an `as_rjson` object aside) by `!`. */
  function DumpKey(codec: TextCodec, key: Value): (r: string)
    ensures key.VStr? ==> r == "%" + key.s
    ensures key.VSym? ==> r == ":" + key.name
    ensures !key.VStr? && !key.VSym? && !key.VCustom? ==> r == "!" + codec.write(Dump(codec, key))
    decreases key, 2
  {
    var d := Dump(codec, key);
    if d.JStr? then d.s else "!" + codec.write(d)
  }

  /** One `[key, Dumper.dump(value)]` pair per instance variable. */
  function DumpIvars(codec: TextCodec, v: Value, i: nat): seq<(string, Json)>
    requires i <= |Ivars(v)|
    decreases v, 0, |Ivars(v)| - i
  {
    if i == |Ivars(v)| then []
    else [(Ivars(v)[i].0, Dump(codec, v.ivars[i].1))] + DumpIvars(codec, v, i + 1)
  }

  // ---------------------------------------------------------------------
  // Properties

  /** The registry picks, for every value, the dumper its shape calls for. */
  lemma ChosenIsIntended(v: Value)
    ensures ChooseObjectDumper(v) == Intended(v)
  {
    IntendedOutranks(v, ChooseObjectDumper(v));
  }

  /** `Dumper.dump`: an `as_rjson` object is its own encoding and no registry
      dumper is consulted; every other value goes to the dumper its shape
      calls for. */
  lemma DumpDispatch(codec: TextCodec, v: Value)
    ensures v.VCustom? ==> Dump(codec, v) == v.rjson
    ensures !v.VCustom? ==> Intended(v) != DumperProxy && Dump(codec, v) == DumpWith(codec, Intended(v), v)
  {
    ChosenIsIntended(v);
  }

  /** `ArrayDumper`: one dumped element per element, in order. */
  lemma {:induction false} DumpItemsInOrder(codec: TextCodec, v: Value, i: nat)
    requires v.VArr? && i <= |v.items|
    ensures |DumpItems(codec, v, i)| == |v.items| - i
    ensures forall j :: i <= j < |v.items| ==> DumpItems(codec, v, i)[j - i] == Dump(codec, v.items[j])
    decreases |v.items| - i
  {
    if i < |v.items| {
      DumpItemsInOrder(codec, v, i + 1);
    }
  }

  /** `ArrayDumper` dumps the elements one by one, in order. */
  lemma DumpItemsAre(codec: TextCodec, v: Value)
    requires v.VArr?
    ensures |DumpItems(codec, v, 0)| == |v.items|
    ensures forall i :: 0 <= i < |v.items| ==> DumpItems(codec, v, 0)[i] == Dump(codec, v.items[i])
  {
    DumpItemsInOrder(codec, v, 0);
    var ds := DumpItems(codec, v, 0);
    forall i | 0 <= i < |v.items| ensures ds[i] == Dump(codec, v.items[i]) {
      assert ds[i - 0] == Dump(codec, v.items[i]);
    }
  }

  /** `HashDumper`, before `to_h`: one escaped key and dumped value per pair,
      in order. */
  lemma {:induction false} DumpEntriesInOrder(codec: TextCodec, v: Value, i: nat)
    requires v.VHash? && i <= |v.pairs|
    ensures |DumpEntries(codec, v, i)| == |v.pairs| - i
    ensures forall j :: i <= j < |v.pairs| ==>
              DumpEntries(codec, v, i)[j - i] == (DumpKey(codec, v.pairs[j].0), Dump(codec, v.pairs[j].1))
    decreases |v.pairs| - i
  {
    if i < |v.pairs| {
      DumpEntriesInOrder(codec, v, i + 1);
    }
  }

  /** `HashDumper` dumps the pairs one by one, in order. */
  lemma DumpEntriesAre(codec: TextCodec, v: Value)
    requires v.VHash?
    ensures |DumpEntries(codec, v, 0)| == |v.pairs|
    ensures forall i :: 0 <= i < |v.pairs| ==>
              DumpEntries(codec, v, 0)[i] == (DumpKey(codec, v.pairs[i].0), Dump(codec, v.pairs[i].1))
  {
    DumpEntriesInOrder(codec, v, 0);
    var es := DumpEntries(codec, v, 0);
    forall i | 0 <= i < |v.pairs| ensures es[i] == (DumpKey(codec, v.pairs[i].0), Dump(codec, v.pairs[i].1)) {
      assert es[i - 0] == (DumpKey(codec, v.pairs[i].0), Dump(codec, v.pairs[i].1));
    }
  }

  /** `ObjectDumper` dumps the instance variables one by one, in order,
      under their own names. */
  lemma DumpIvarsAre(codec: TextCodec, v: Value)
    requires v.VObj?
    ensures |DumpIvars(codec, v, 0)| == |v.ivars|
    ensures forall i :: 0 <= i < |v.ivars| ==>
              DumpIvars(codec, v, 0)[i] == (v.ivars[i].0, Dump(codec, v.ivars[i].1))
  {
    DumpIvarsInOrder(codec, v, 0);
    var ds := DumpIvars(codec, v, 0);
    forall i | 0 <= i < |v.ivars| ensures ds[i] == (v.ivars[i].0, Dump(codec, v.ivars[i].1)) {
      assert ds[i - 0] == (v.ivars[i].0, Dump(codec, v.ivars[i].1));
    }
  }

  /** Every dumped hash key starts with one of the escape characters. */
  lemma DumpedKeyIsEscaped(codec: TextCodec, k: Value)
    requires !k.VCustom?
    ensures |DumpKey(codec, k)| > 0
    ensures DumpKey(codec, k)[0] == '%' || DumpKey(codec, k)[0] == ':' || DumpKey(codec, k)[0] == '!'
  {
  }

  /** `ObjectDumper`: one pair per instance variable, name kept, value dumped. */
  lemma {:induction false} DumpIvarsInOrder(codec: TextCodec, v: Value, i: nat)
    requires v.VObj? && i <= |v.ivars|
    ensures |DumpIvars(codec, v, i)| == |v.ivars| - i
    ensures forall j :: i <= j < |v.ivars| ==>
              DumpIvars(codec, v, i)[j - i] == (v.ivars[j].0, Dump(codec, v.ivars[j].1))
    decreases |v.ivars| - i
  {
    if i < |v.ivars| {
      DumpIvarsInOrder(codec, v, i + 1);
      assert DumpIvars(codec, v, i) == [(v.ivars[i].0, Dump(codec, v.ivars[i].1))] + DumpIvars(codec, v, i + 1);
    }
  }


  // What each dumper writes, one lemma per dumper.

  lemma DumpPrimitive(codec: TextCodec, v: Value)
    requires v.VNil? || v.VBool? || v.VInt?
    ensures Dump(codec, v) == (match v case VInt(i) => JInt(i) case VBool(b) => JBool(b) case _ => JNull)
  {
    ChosenIsIntended(v);
  }

  lemma DumpFloat(codec: TextCodec, f: Float)
    ensures Dump(codec, VFloat(f)) == if f.PosInf? then InfinityRecord else JFloat(f)
  {
    ChosenIsIntended(VFloat(f));
  }

  lemma DumpString(codec: TextCodec, s: string)
    ensures Dump(codec, VStr(s)) == JStr("%" + s)
  {
    ChosenIsIntended(VStr(s));
  }

  lemma DumpSymbol(codec: TextCodec, name: string)
    ensures Dump(codec, VSym(name)) == JStr(":" + name)
  {
    ChosenIsIntended(VSym(name));
  }

  lemma DumpArray(codec: TextCodec, v: Value)
    requires v.VArr?
    ensures Dump(codec, v) == JArr(DumpItems(codec, v, 0))
  {
    ChosenIsIntended(v);
  }

  lemma DumpHash(codec: TextCodec, v: Value)
    requires v.VHash?
    ensures Dump(codec, v) == JObj(ToH(DumpEntries(codec, v, 0)))
  {
    ChosenIsIntended(v);
  }

  lemma DumpNumeric(codec: TextCodec, c: NumClass, t: string)
    ensures Dump(codec, VNum(c, t))
              == JObj([(BuilderKey, JStr("RJSON::FunctionalBuilder")),
                       (":method", JStr("%" + NumClassName(c))),
                       (":args", JArr([JStr("%" + t)]))])
  {
    ChosenIsIntended(VNum(c, t));
  }

  lemma DumpObject(codec: TextCodec, v: Value)
    requires v.VObj?
    ensures Dump(codec, v)
              == JObj(ToH([(BuilderKey, JStr("RJSON::ObjectBuilder")), (ClassNameKey, JStr(v.cls))]
                          + DumpIvars(codec, v, 0)))
  {
    ChosenIsIntended(v);
  }
}

=== FILE: errors.dfy ===
/** RJSON's error taxonomy, the Ruby exceptions it wraps, and the two
    "try raise" decisions that live in `lib/rjson/errors.rb`. */
module Errors {
  import opened Wire
  import opened Values
  import opened Strings
  import opened Hashes

  const PrivateNamespacePrefix: string := "__rjson_"

  /** Ruby exceptions that are not RJSON's own. `NameError` also stands for
      its subclass `NoMethodError`; its `name` is a Symbol or a String,
      depending on which code raised it, so it is kept as a value. */
  datatype Exception =
    | NameError(name: Value, message: string)
    | ArgumentError(message: string)
    | TypeError(message: string)
    | StandardError(message: string)

  /** The three `ProxyError` classes: `ProxyError` itself and its subclasses
      `YAMLParserError` and `ObjectLoadError`. */
  datatype ProxyKind = PlainProxy | YamlParser | ObjectLoad

  datatype Error =
      /** Private keys left over with no builder to consume them; `unused`
          holds the option names with the prefix stripped. */
    | PrivateKeysNotUsed(unused: seq<string>, hash: seq<(string, Json)>)
      /** `ParseError` raised by `Builder#initialize`. */
    | UnexpectedOptions(options: seq<(string, Json)>)
      /** `ObjectBuilder::BadKey`; `doubleAt` tells which of its two messages. */
    | BadKey(key: string, doubleAt: bool)
    | Proxy(kind: ProxyKind, original: Exception)
      /** An exception RJSON lets through unwrapped. */
    | Uncaught(exception: Exception)

  datatype ErrorClass =
    | ParseErrorClass
    | PrivateKeysNotUsedClass
    | ProxyErrorClass
    | YamlParserErrorClass
    | ObjectLoadErrorClass
    | BadKeyClass
    | ForeignClass

  function ClassOf(e: Error): ErrorClass {
    match e
    case PrivateKeysNotUsed(_, _) => PrivateKeysNotUsedClass
    case UnexpectedOptions(_) => ParseErrorClass
    case BadKey(_, _) => BadKeyClass
    case Proxy(PlainProxy, _) => ProxyErrorClass
    case Proxy(YamlParser, _) => YamlParserErrorClass
    case Proxy(ObjectLoad, _) => ObjectLoadErrorClass
    case Uncaught(_) => ForeignClass
  }

  /** The declared superclass, as far as RJSON's own classes go. */
  function Superclass(c: ErrorClass): Option<ErrorClass> {
    match c
    case PrivateKeysNotUsedClass => Some(ParseErrorClass)
    case ProxyErrorClass => Some(ParseErrorClass)
    case YamlParserErrorClass => Some(ProxyErrorClass)
    case ObjectLoadErrorClass => Some(ProxyErrorClass)
    case BadKeyClass => Some(ParseErrorClass)
    case _ => None
  }

  function Depth(c: ErrorClass): nat {
    match c
    case ParseErrorClass => 0
    case ForeignClass => 0
    case YamlParserErrorClass => 2
    case ObjectLoadErrorClass => 2
    case _ => 1
  }

  /** `c <= ancestor` in Ruby's class hierarchy. */
  predicate IsA(c: ErrorClass, ancestor: ErrorClass)
    decreases Depth(c)
  {
    c == ancestor ||
    match Superclass(c)
    case None => false
    case Some(p) => Depth(p) < Depth(c) && IsA(p, ancestor)
  }

  /** Everything RJSON raises of its own is a `ParseError`; only foreign
      exceptions are not. */
  lemma EveryRjsonErrorIsAParseError(e: Error)
    ensures IsA(ClassOf(e), ParseErrorClass) <==> !e.Uncaught?
  {
  }

  function ExceptionMessage(x: Exception): string {
    x.message
  }

  function Message(e: Error): string {
    match e
    case PrivateKeysNotUsed(unused, original) =>
      "Private keys " + InspectStrings(ReaddPrefix(unused)) + " not used in " + InspectObject(original)
    case UnexpectedOptions(options) => "Unexpected options: " + InspectOptions(options)
    case BadKey(key, doubleAt) =>
      if doubleAt then "Key " + key + " should not start with double '@@'"
      else "Key " + key + " should have '@' prefix to set object ivar"
    case Proxy(_, original) => ExceptionMessage(original)
    case Uncaught(x) => ExceptionMessage(x)
  }

  /** `"#{PRIVATE_NAMESPACE_PREFIX}#{x}"` for every leftover option name. */
  function ReaddPrefix(names: seq<string>): (r: seq<string>)
    ensures |r| == |names|
    ensures forall i :: 0 <= i < |names| ==> r[i] == PrivateNamespacePrefix + names[i]
  {
    if |names| == 0 then [] else [PrivateNamespacePrefix + names[0]] + ReaddPrefix(names[1..])
  }

  /** A key is among the names with the prefix re-added exactly when it
      starts with the prefix and the rest is one of the names. */
  lemma ReaddPrefixHas(names: seq<string>, k: string)
    ensures k in ReaddPrefix(names)
            <==> StartsWith(k, PrivateNamespacePrefix) && k[|PrivateNamespacePrefix|..] in names
  {
    var keys := ReaddPrefix(names);
    if k in keys {
      var i :| 0 <= i < |keys| && keys[i] == k;
      assert k[..|PrivateNamespacePrefix|] == PrivateNamespacePrefix;
      assert k[|PrivateNamespacePrefix|..] == names[i];
    }
    if StartsWith(k, PrivateNamespacePrefix) && k[|PrivateNamespacePrefix|..] in names {
      var i :| 0 <= i < |names| && names[i] == k[|PrivateNamespacePrefix|..];
      assert k == k[..|PrivateNamespacePrefix|] + k[|PrivateNamespacePrefix|..];
      assert keys[i] == k;
    }
  }

  /** Re-adding the prefix to the option names left after
      `options.delete(b)` gives the other names of `options`. */
  lemma RemainingOptionNames(options: seq<(string, Json)>, b: string, k: string)
    ensures k in ReaddPrefix(Keys(Without(options, b)))
            <==> k in ReaddPrefix(Keys(options)) && k != PrivateNamespacePrefix + b
  {
    ReaddPrefixHas(Keys(Without(options, b)), k);
    ReaddPrefixHas(Keys(options), k);
    PrefixedNames(PrivateNamespacePrefix, b, k);
    if StartsWith(k, PrivateNamespacePrefix) {
      KeysWithout(options, b, k[|PrivateNamespacePrefix|..]);
    }
  }

  /** For a key that starts with `pre`, the rest differs from `b` exactly
      when the key differs from `pre + b`. */
  lemma PrefixedNames(pre: string, b: string, k: string)
    ensures StartsWith(k, pre) ==> (k[|pre|..] == b <==> k == pre + b)
  {
    if StartsWith(k, pre) {
      assert k == k[..|pre|] + k[|pre|..];
      assert (pre + b)[|pre|..] == b;
    }
  }

  datatype Result<+T> = Ok(value: T) | Err(error: Error) {
    predicate IsFailure() {
      Err?
    }

    function PropagateFailure<U>(): Result<U>
      requires Err?
    {
      Err(error)
    }

    function Extract(): T
      requires Ok?
    {
      value
    }
  }

  /** `PrivateKeysNotUsed.try_raise(options, original_hash)`. */
  function TryRaisePrivateKeysNotUsed(options: seq<(string, Json)>, original: seq<(string, Json)>): (r: Result<()>)
    ensures r.Ok? <==> |options| == 0
    ensures r.Err? ==> r.error.PrivateKeysNotUsed? && r.error.unused == Keys(options)
                       && r.error.hash == original
  {
    if |options| == 0 then Ok(()) else Err(PrivateKeysNotUsed(Keys(options), original))
  }

  /** `ProxyError.wrap(original_error)` and its subclasses' `wrap`. */
  function Wrap(kind: ProxyKind, x: Exception): (e: Error)
    ensures ClassOf(e) != ForeignClass && IsA(ClassOf(e), ProxyErrorClass)
    ensures e.original == x
    ensures Message(e) == ExceptionMessage(x)
  {
    Proxy(kind, x)
  }

  /** What `String#constantize` does with a name: the constant's value, or
      the exception it raises. */
  datatype Lookup = Found(value: Value) | Missing(exception: Exception)

  function SegmentValues(name: string): (r: seq<Value>)
    ensures |r| == |Segments(name)|
    ensures forall i :: 0 <= i < |r| ==> r[i] == VStr(Segments(name)[i])
  {
    var segs := Segments(name);
    seq(|segs|, i requires 0 <= i < |segs| => VStr(segs[i]))
  }

  /** `ObjectLoadError.secure_constantize(name)`, given the outcome of
      `name.constantize`: a `NameError` is wrapped only when the missing
      name is one of the `::`-separated segments of the requested name. */
  function SecureConstantize(name: string, lookup: Lookup): (r: Result<Value>)
    ensures lookup.Found? ==> r == Ok(lookup.value)
    ensures lookup.Missing? ==> r.Err?
    ensures lookup.Missing? ==>
              (r.error == Proxy(ObjectLoad, lookup.exception) <==>
               lookup.exception.NameError? && lookup.exception.name in SegmentValues(name))
    ensures lookup.Missing? && r.error != Proxy(ObjectLoad, lookup.exception) ==>
              r.error == Uncaught(lookup.exception)
  {
    match lookup
    case Found(v) => Ok(v)
    case Missing(x) =>
      if x.NameError? && x.name in SegmentValues(name) then Err(Wrap(ObjectLoad, x))
      else Err(Uncaught(x))
  }

  // Ruby's `inspect`, used in error messages. String escaping is not modelled.

  function Digits(n: nat): string
    decreases n
  {
    var d := [(('0' as int) + n % 10) as char];
    if n < 10 then d else Digits(n / 10) + d
  }

  function IntToString(i: int): string {
    if i < 0 then "-" + Digits(-i) else Digits(i)
  }

  function InspectString(s: string): string {
    "\"" + s + "\""
  }

  function InspectStrings(ss: seq<string>): string {
    "[" + JoinInspected(seq(|ss|, i requires 0 <= i < |ss| => InspectString(ss[i]))) + "]"
  }

  function JoinInspected(parts: seq<string>): string {
    if |parts| == 0 then ""
    else if |parts| == 1 then parts[0]
    else parts[0] + ", " + JoinInspected(parts[1..])
  }

  function InspectFloat(f: Float): string {
    match f
    case Finite(token) => token
    case PosInf => "Infinity"
    case NegInf => "-Infinity"
    case NaN => "NaN"
  }

  function Inspect(t: Json): string
    decreases t, 1
  {
    match t
    case JNull => "nil"
    case JBool(b) => if b then "true" else "false"
    case JInt(i) => IntToString(i)
    case JFloat(f) => InspectFloat(f)
    case JStr(s) => InspectString(s)
    case JArr(xs) => "[" + JoinInspected(seq(|xs|, i requires 0 <= i < |xs| => Inspect(xs[i]))) + "]"
    case JObj(_) => "{" + JoinInspected(InspectMembers(t, 0)) + "}"
  }

  function InspectMembers(t: Json, i: nat): seq<string>
    requires t.JObj? && i <= |t.pairs|
    decreases t, 0, |t.pairs| - i
  {
    if i == |t.pairs| then []
    else [InspectString(t.pairs[i].0) + "=>" + Inspect(t.pairs[i].1)] + InspectMembers(t, i + 1)
  }

  function InspectObject(ps: seq<(string, Json)>): string {
    Inspect(JObj(ps))
  }

  /** A hash with symbol keys, as `{:name=>value}`. */
  function InspectOptions(options: seq<(string, Json)>): string {
    "{" + JoinInspected(seq(|options|, i requires 0 <= i < |options| =>
                          ":" + options[i].0 + "=>" + Inspect(options[i].1))) + "}"
  }
}

=== FILE: hashes.dfy ===
/** Ruby hashes as insertion-ordered association lists.

    A Ruby `Hash` keeps its keys distinct and remembers the order in which
    they were first inserted; `Array#to_h` and `Enumerable#map { ... }.to_h`
    insert pairs left to right, so a repeated key keeps its first position
    and takes its last value. */
module Hashes {

  datatype Option<+T> = None | Some(value: T)

  function Keys<K, V>(ps: seq<(K, V)>): (ks: seq<K>)
    ensures |ks| == |ps|
    ensures forall i :: 0 <= i < |ps| ==> ks[i] == ps[i].0
  {
    if |ps| == 0 then [] else [ps[0].0] + Keys(ps[1..])
  }

  /** The invariant of every Ruby hash: no key occurs twice. */
  predicate DistinctKeys<K(==), V>(ps: seq<(K, V)>) {
    forall i, j :: 0 <= i < j < |ps| ==> ps[i].0 != ps[j].0
  }

  predicate HasKey<K(==), V>(ps: seq<(K, V)>, k: K) {
    exists i :: 0 <= i < |ps| && ps[i].0 == k
  }

  /** Position of the first pair with key `k`, or `|ps|` when there is none. */
  function IndexOf<K(==), V>(ps: seq<(K, V)>, k: K): (i: nat)
    ensures i <= |ps|
    ensures i < |ps| ==> ps[i].0 == k
    ensures forall j :: 0 <= j < i ==> ps[j].0 != k
  {
    if |ps| == 0 then 0
    else if ps[0].0 == k then 0
    else 1 + IndexOf(ps[1..], k)
  }

  /** `hash[k]`, with Ruby's `nil` for a missing key as `None`. */
  function Get<K(==), V>(ps: seq<(K, V)>, k: K): (r: Option<V>)
    ensures r.None? <==> !HasKey(ps, k)
    ensures r.Some? ==> exists i :: 0 <= i < |ps| && ps[i] == (k, r.value)
  {
    var i := IndexOf(ps, k);
    if i < |ps| then Some(ps[i].1) else None
  }

  /** `hash[k] = v`: overwrite in place when present, append otherwise. */
  function Put<K(==), V>(ps: seq<(K, V)>, k: K, v: V): (r: seq<(K, V)>)
    ensures HasKey(ps, k) ==> |r| == |ps|
    ensures !HasKey(ps, k) ==> r == ps + [(k, v)]
    ensures forall j :: 0 <= j < |ps| ==> r[j].0 == ps[j].0
    ensures forall j :: 0 <= j < |ps| && ps[j].0 != k ==> r[j] == ps[j]
    ensures Get(r, k) == Some(v)
    ensures DistinctKeys(ps) ==> DistinctKeys(r)
  {
    var i := IndexOf(ps, k);
    if i < |ps| then
      var r := ps[i := (k, v)];
      assert IndexOf(r, k) == i by {
        IndexOfFirst(r, k, i);
      }
      r
    else
      var r := ps + [(k, v)];
      assert IndexOf(r, k) == |ps| by {
        IndexOfFirst(r, k, |ps|);
      }
      r
  }

  /** The first position holding `k` is the one `IndexOf` finds. */
  lemma {:induction false} IndexOfFirst<K, V>(ps: seq<(K, V)>, k: K, i: nat)
    requires i < |ps| && ps[i].0 == k
    requires forall j :: 0 <= j < i ==> ps[j].0 != k
    ensures IndexOf(ps, k) == i
  {
    if i > 0 {
      IndexOfFirst(ps[1..], k, i - 1);
    }
  }

  /** `pairs.to_h`: insert every pair in order into an empty hash. */
  function ToH<K(==), V>(ps: seq<(K, V)>): (r: seq<(K, V)>)
    ensures DistinctKeys(r)
    ensures |r| <= |ps|
  {
    if |ps| == 0 then [] else
      var last := ps[|ps| - 1];
      Put(ToH(ps[..|ps| - 1]), last.0, last.1)
  }

  /** `hash.delete(k)`: the removed value (or `nil`) and the remaining hash,
      which keeps every other pair in its place. */
  function Delete<K(==), V>(ps: seq<(K, V)>, k: K): (r: (Option<V>, seq<(K, V)>))
    ensures r.0 == Get(ps, k)
    ensures !HasKey(r.1, k) && |r.1| <= |ps|
    ensures forall j :: 0 <= j < |r.1| ==> r.1[j] in ps && r.1[j].0 != k
    ensures forall j :: 0 <= j < |ps| && ps[j].0 != k ==> ps[j] in r.1
    ensures Subsequence(r.1, ps)
    ensures DistinctKeys(ps) ==> DistinctKeys(r.1)
  {
    (Get(ps, k), Without(ps, k))
  }

  /** The pairs of `ps` whose key is not `k`, in their order. */
  function Without<K(==), V>(ps: seq<(K, V)>, k: K): (r: seq<(K, V)>)
    ensures forall j :: 0 <= j < |r| ==> r[j] in ps && r[j].0 != k
    ensures forall j :: 0 <= j < |ps| && ps[j].0 != k ==> ps[j] in r
    ensures Subsequence(r, ps)
    ensures !HasKey(r, k) && |r| <= |ps|
    ensures DistinctKeys(ps) ==> DistinctKeys(r)
    ensures !HasKey(ps, k) ==> r == ps
  {
    if |ps| == 0 then []
    else
      var rest := Without(ps[1..], k);
      assert RemovesKey(rest, ps[1..], k);
      assert [ps[0]] + ps[1..] == ps;
      if ps[0].0 == k then
        WithoutSkip(ps[0], rest, ps[1..], k);
        rest
      else
        WithoutKeep(ps[0], rest, ps[1..], k);
        [ps[0]] + rest
  }

  /** Everything `Without` promises of `r` as the result for `ps` and `k`. */
  ghost predicate RemovesKey<K, V>(r: seq<(K, V)>, ps: seq<(K, V)>, k: K) {
    && (forall j :: 0 <= j < |r| ==> r[j] in ps && r[j].0 != k)
    && (forall j :: 0 <= j < |ps| && ps[j].0 != k ==> ps[j] in r)
    && Subsequence(r, ps)
    && !HasKey(r, k) && |r| <= |ps|
    && (DistinctKeys(ps) ==> DistinctKeys(r))
    && (!HasKey(ps, k) ==> r == ps)
  }

  lemma WithoutSkip<K, V>(p: (K, V), rest: seq<(K, V)>, tail: seq<(K, V)>, k: K)
    requires p.0 == k && RemovesKey(rest, tail, k)
    ensures RemovesKey(rest, [p] + tail, k)
  {
    var ps := [p] + tail;
    assert ps[1..] == tail;
    assert HasKey(ps, k) by { assert ps[0].0 == k; }
    forall j | 0 <= j < |rest|
      ensures rest[j] in ps
    {
      assert rest[j] in tail;
    }
    forall j | 0 <= j < |ps| && ps[j].0 != k
      ensures ps[j] in rest
    {
      assert ps[j] == tail[j - 1];
    }
    SubsequenceSkip(p, rest, tail);
    if DistinctKeys(ps) {
      assert DistinctKeys(tail) by {
        forall i, j | 0 <= i < j < |tail|
          ensures tail[i].0 != tail[j].0
        {
          assert tail[i] == ps[i + 1] && tail[j] == ps[j + 1];
        }
      }
    }
  }

  lemma WithoutKeep<K, V>(p: (K, V), rest: seq<(K, V)>, tail: seq<(K, V)>, k: K)
    requires p.0 != k && RemovesKey(rest, tail, k)
    ensures RemovesKey([p] + rest, [p] + tail, k)
  {
    var ps := [p] + tail;
    var r := [p] + rest;
    assert ps[1..] == tail && r[1..] == rest;
    forall j | 0 <= j < |r|
      ensures r[j] in ps && r[j].0 != k
    {
      if j > 0 {
        assert r[j] == rest[j - 1];
        assert rest[j - 1] in tail;
      }
    }
    forall j | 0 <= j < |ps| && ps[j].0 != k
      ensures ps[j] in r
    {
      if j > 0 {
        assert ps[j] == tail[j - 1];
        assert tail[j - 1] in rest;
      }
    }
    assert !HasKey(r, k) by {
      forall j | 0 <= j < |r|
        ensures r[j].0 != k
      {
        if j > 0 {
          assert r[j] == rest[j - 1];
        }
      }
    }
    SubsequenceKeep(p, rest, tail);
    if DistinctKeys(ps) {
      assert DistinctKeys(tail) by {
        forall i, j | 0 <= i < j < |tail|
          ensures tail[i].0 != tail[j].0
        {
          assert tail[i] == ps[i + 1] && tail[j] == ps[j + 1];
        }
      }
      forall i, j | 0 <= i < j < |r|
        ensures r[i].0 != r[j].0
      {
        assert r[j] == rest[j - 1];
        if i == 0 {
          var m :| 0 <= m < |tail| && tail[m] == rest[j - 1];
          assert ps[m + 1] == tail[m];
        } else {
          assert r[i] == rest[i - 1];
        }
      }
    }
    if !HasKey(ps, k) {
      assert !HasKey(tail, k) by {
        forall j | 0 <= j < |tail|
          ensures tail[j].0 != k
        {
          assert tail[j] == ps[j + 1];
        }
      }
    }
  }

  /** The keys left by `Without` are the other keys. */
  lemma {:induction false} KeysWithout<K, V>(ps: seq<(K, V)>, k: K, n: K)
    ensures n in Keys(Without(ps, k)) <==> n in Keys(ps) && n != k
  {
    if |ps| > 0 {
      KeysWithout(ps[1..], k, n);
      assert Keys(ps) == [ps[0].0] + Keys(ps[1..]);
      if ps[0].0 != k {
        var rest := Without(ps[1..], k);
        assert ([ps[0]] + rest)[1..] == rest;
        assert Keys([ps[0]] + rest) == [ps[0].0] + Keys(rest);
      }
    }
  }

  /** `HasKey` and membership among the keys agree. */
  lemma HasKeyInKeys<K, V>(ps: seq<(K, V)>, k: K)
    ensures HasKey(ps, k) <==> k in Keys(ps)
  {
    if k in Keys(ps) {
      var i :| 0 <= i < |ps| && Keys(ps)[i] == k;
      assert ps[i].0 == k;
    }
  }

  /** Looking up the first pair of `[p] + tail`. */
  lemma GetCons<K, V>(p: (K, V), tail: seq<(K, V)>, n: K)
    ensures Get([p] + tail, n) == if p.0 == n then Some(p.1) else Get(tail, n)
  {
    assert ([p] + tail)[1..] == tail;
  }

  /** Deleting `k` leaves the value of every other key as it was. */
  lemma {:induction false} GetWithout<K, V>(ps: seq<(K, V)>, k: K, n: K)
    requires n != k
    ensures Get(Without(ps, k), n) == Get(ps, n)
  {
    if |ps| > 0 {
      GetWithout(ps[1..], k, n);
      assert [ps[0]] + ps[1..] == ps;
      GetCons(ps[0], ps[1..], n);
      if ps[0].0 != k {
        GetCons(ps[0], Without(ps[1..], k), n);
      }
    }
  }

  /** `a` is `b` with some elements left out and the rest in their order. */
  predicate Subsequence<T(==)>(a: seq<T>, b: seq<T>)
    decreases |b|
  {
    if |a| == 0 then true
    else if |b| == 0 then false
    else (a[0] == b[0] && Subsequence(a[1..], b[1..])) || Subsequence(a, b[1..])
  }

  lemma SubsequenceKeep<T>(x: T, a: seq<T>, b: seq<T>)
    requires Subsequence(a, b)
    ensures Subsequence([x] + a, [x] + b)
  {
    assert ([x] + a)[1..] == a;
    assert ([x] + b)[1..] == b;
  }

  lemma SubsequenceSkip<T>(x: T, a: seq<T>, b: seq<T>)
    requires Subsequence(a, b)
    ensures Subsequence(a, [x] + b)
  {
    assert ([x] + b)[1..] == b;
  }

  /** A subsequence holds nothing its sequence does not. */
  lemma {:induction false} SubsequenceIn<T>(a: seq<T>, b: seq<T>, x: T)
    requires Subsequence(a, b) && x in a
    ensures x in b
    decreases |b|
  {
    if a[0] == b[0] && Subsequence(a[1..], b[1..]) {
      if x != a[0] {
        SubsequenceIn(a[1..], b[1..], x);
      }
    } else {
      SubsequenceIn(a, b[1..], x);
    }
  }

  /** The value a key ends up with in `to_h`: that of its LAST occurrence. */
  function LastValue<K(==), V>(ps: seq<(K, V)>, k: K): (r: Option<V>)
    ensures r.None? <==> !HasKey(ps, k)
    ensures r.Some? ==> (k, r.value) in ps
  {
    if |ps| == 0 then None
    else if ps[|ps| - 1].0 == k then Some(ps[|ps| - 1].1)
    else
      var r := LastValue(ps[..|ps| - 1], k);
      assert HasKey(ps[..|ps| - 1], k) ==> HasKey(ps, k);
      assert HasKey(ps, k) ==> HasKey(ps[..|ps| - 1], k) by {
        if HasKey(ps, k) {
          var i :| 0 <= i < |ps| && ps[i].0 == k;
          assert ps[..|ps| - 1][i].0 == k;
        }
      }
      r
  }

  /** `to_h` keeps the set of keys and gives each the value of its last occurrence. */
  lemma {:induction false} ToHLookup<K, V>(ps: seq<(K, V)>, k: K)
    ensures Get(ToH(ps), k) == LastValue(ps, k)
  {
    if |ps| == 0 {
    } else {
      var init := ps[..|ps| - 1];
      var last := ps[|ps| - 1];
      ToHLookup(init, k);
      if last.0 != k {
        var h := ToH(init);
        var r := Put(h, last.0, last.1);
        assert r == ToH(ps);
        var i := IndexOf(h, k);
        var i' := IndexOf(r, k);
        if i < |h| {
          assert r[i] == h[i];
          assert forall j :: 0 <= j < i ==> r[j].0 != k;
          IndexOfFirst(r, k, i);
        } else {
          assert forall j :: 0 <= j < |r| ==> r[j].0 != k;
        }
      }
    }
  }

  /** `to_h` loses no key and invents none. */
  lemma ToHKeys<K, V>(ps: seq<(K, V)>, k: K)
    ensures HasKey(ToH(ps), k) <==> HasKey(ps, k)
  {
    ToHLookup(ps, k);
  }

  /** `to_h` of pairs whose keys are already distinct is the identity. */
  lemma {:induction false} ToHIdentity<K, V>(ps: seq<(K, V)>)
    requires DistinctKeys(ps)
    ensures ToH(ps) == ps
  {
    if |ps| > 0 {
      var init := ps[..|ps| - 1];
      var last := ps[|ps| - 1];
      ToHIdentity(init);
      forall i | 0 <= i < |init| ensures init[i].0 != last.0 {
        assert init[i] == ps[i];
      }
      assert init + [last] == ps;
    }
  }
}

=== FILE: intactness.dfy ===
/** The promise of the library as a whole: what `RJSON.dump` writes,
    `RJSON.load` reads back as the same value. It holds for values whose
    every part has a dumper/builder pair, objects being those described by
    their instance variables alone, in a Ruby process where the
    builders and the constants they name resolve as they should, with a text
    layer that reads back what it writes. */
module Intactness {
  import opened Wire
  import opened Values
  import opened Hashes
  import opened Strings
  import opened Errors
  import opened Builders
  import opened Parser
  import opened Dumpers

  /** The reflective side of a Ruby process with RJSON loaded: the built-in
      builders and `Float::INFINITY` resolve, and `Kernel.BigDecimal`,
      `Kernel.Complex` and `Kernel.Rational` read back their own `to_s`. */
  ghost predicate Faithful(env: Env) {
    && env.resolve(ObjectBuilderName) == Found(VModule(ObjectBuilderName, true))
    && env.resolve(ConstantLoaderName) == Found(VModule(ConstantLoaderName, true))
    && env.resolve(FunctionalBuilderName) == Found(VModule(FunctionalBuilderName, true))
    && env.resolve("Float::INFINITY") == Found(VFloat(PosInf))
    && forall c: NumClass, t: string ::
         env.call(Kernel, NumClassName(c), [VStr(t)]) == Returned(VNum(c, t))
  }

  /** Values the dumpers and builders handle without loss: no `as_rjson`
      objects (their encoding is their own), no classes or modules (dumped
      as objects of class `Class` or `Module`, which cannot be rebuilt by
      `allocate`), no `-Infinity` or `NaN` (JSON cannot hold
      them), hashes with distinct keys, and plain objects (whose state is
      their instance variables) whose class resolves to itself and whose
      instance variables have valid, distinct names. */
  predicate Supported(env: Env, v: Value)
    decreases v
  {
    match v
    case VFloat(f) => f.Finite? || f.PosInf?
    case VArr(xs) => forall i :: 0 <= i < |xs| ==> Supported(env, xs[i])
    case VHash(ps) =>
      && DistinctKeys(ps)
      && forall i :: 0 <= i < |ps| ==> Supported(env, ps[i].0) && Supported(env, ps[i].1)
    case VObj(cls, ivars) =>
      && env.resolve(cls) == Found(VModule(cls, true))
      && DistinctKeys(ivars)
      && forall i :: 0 <= i < |ivars| ==> ValidIvarName(ivars[i].0) && Supported(env, ivars[i].1)
    case VModule(_, _) => false
    case VCustom(_, _) => false
    case _ => true
  }

  /** What one dumped value needs to come back. */
  ghost predicate ComesBack(env: Env, codec: TextCodec, v: Value)
    requires Sound(codec)
  {
    ParseGeneric(env, codec, Dump(codec, v)) == Ok(v) && Writable(Dump(codec, v))
  }

  // ---------------------------------------------------------------------
  // One lemma per dumper

  lemma StringIntact(env: Env, codec: TextCodec, s: string)
    requires Sound(codec)
    ensures ComesBack(env, codec, VStr(s))
  {
    DumpString(codec, s);
    ParseGenericOfString(env, codec, JStr("%" + s));
    StringKeyIntact(env, codec, s);
  }

  lemma SymbolIntact(env: Env, codec: TextCodec, name: string)
    requires Sound(codec)
    ensures ComesBack(env, codec, VSym(name))
  {
    DumpSymbol(codec, name);
    ParseGenericOfString(env, codec, JStr(":" + name));
    SymbolKeyIntact(env, codec, name);
  }

  lemma PrimitiveIntact(env: Env, codec: TextCodec, v: Value)
    requires Sound(codec)
    requires v.VNil? || v.VBool? || v.VInt?
    ensures ComesBack(env, codec, v)
  {
    DumpPrimitive(codec, v);
    ParseGenericOfScalar(env, codec, Dump(codec, v));
  }

  /** The data section of the `ConstantLoader` record for `Float::INFINITY`. */
  function InfinityArgs(): seq<(string, Json)> {
    [(":name", JStr("%Float::INFINITY"))]
  }

  lemma InfinityArgsArePublic()
    ensures forall i :: 0 <= i < |InfinityArgs()| ==> !IsPrivate(InfinityArgs()[i].0)
  {
    EscapedKeyIsNotPrivate(":name");
  }

  lemma InfinityData(env: Env, codec: TextCodec)
    requires Sound(codec)
    ensures ParseHashData(env, codec, InfinityArgs()) == Ok([(VSym("name"), VStr("Float::INFINITY"))])
  {
    EscapedStringParses(env, codec, ":name");
    ParseGenericOfString(env, codec, JStr("%Float::INFINITY"));
    EscapedStringParses(env, codec, "%Float::INFINITY");
    ParseHashDataOfOne(env, codec, ":name", JStr("%Float::INFINITY"), VSym("name"), VStr("Float::INFINITY"));
  }

  lemma InfinityRecordIsBuilderCall()
    ensures InfinityRecord.pairs == [(PrivateNamespacePrefix + "builder", JStr(ConstantLoaderName))] + InfinityArgs()
  {
  }

  /** The `ConstantLoader` record `FloatDumper` writes for `Float::INFINITY`
      is a builder call with the constant's name as its data. */
  lemma InfinityRecordCallsLoader(env: Env, codec: TextCodec)
    requires Sound(codec)
    ensures ParseHash(env, codec, InfinityRecord.pairs)
              == CallBuilder(env, JStr(ConstantLoaderName), [], [(VSym("name"), VStr("Float::INFINITY"))])
  {
    InfinityRecordIsBuilderCall();
    InfinityArgsArePublic();
    InfinityData(env, codec);
    BuilderRecordCallsBuilder(env, codec, JStr(ConstantLoaderName), InfinityArgs(),
                              [(VSym("name"), VStr("Float::INFINITY"))]);
  }

  /** `Float::INFINITY` goes out as a `ConstantLoader` record and comes back
      as the constant it names. */
  lemma InfinityIntact(env: Env, codec: TextCodec)
    requires Faithful(env) && Sound(codec)
    ensures ParseGeneric(env, codec, InfinityRecord) == Ok(VFloat(PosInf))
  {
    ParseGenericOfObject(env, codec, InfinityRecord);
    InfinityRecordCallsLoader(env, codec);
    ConstantLoaderLoads(env, "Float::INFINITY", VFloat(PosInf));
  }

  lemma InfinityWritable()
    ensures Writable(InfinityRecord)
  {
    assert InfinityRecord.pairs[0].1 == JStr(ConstantLoaderName);
    assert InfinityRecord.pairs[1].1 == JStr("%Float::INFINITY");
  }

  lemma FloatIntact(env: Env, codec: TextCodec, f: Float)
    requires Faithful(env) && Sound(codec)
    requires f.Finite? || f.PosInf?
    ensures ComesBack(env, codec, VFloat(f))
  {
    DumpFloat(codec, f);
    if f.PosInf? {
      InfinityIntact(env, codec);
      InfinityWritable();
    } else {
      ParseGenericOfScalar(env, codec, JFloat(f));
    }
  }

  /** The data section of the `FunctionalBuilder` record for a numeric
      value: the `Kernel` method and its one argument. */
  function NumericArgs(m: string, t: string): seq<(string, Json)> {
    [(":method", JStr("%" + m)), (":args", JArr([JStr("%" + t)]))]
  }

  /** The record `NumericDumper` writes for a numeric value. */
  function NumericRecord(m: string, t: string): seq<(string, Json)> {
    [(PrivateNamespacePrefix + "builder", JStr(FunctionalBuilderName))] + NumericArgs(m, t)
  }

  lemma NumericArgValues(env: Env, codec: TextCodec, m: string, t: string)
    requires Sound(codec)
    ensures ParseGeneric(env, codec, JStr("%" + m)) == Ok(VStr(m))
    ensures ParseGeneric(env, codec, JArr([JStr("%" + t)])) == Ok(VArr([VStr(t)]))
  {
    ParseGenericOfString(env, codec, JStr("%" + m));
    StringKeyIntact(env, codec, m);
    ParseGenericOfString(env, codec, JStr("%" + t));
    StringKeyIntact(env, codec, t);
    ParseArrayOfParsed(env, codec, [JStr("%" + t)], [VStr(t)]);
    ParseGenericOfArray(env, codec, JArr([JStr("%" + t)]), [VStr(t)]);
  }

  lemma NumericArgsArePublic(m: string, t: string)
    ensures forall i :: 0 <= i < |NumericArgs(m, t)| ==> !IsPrivate(NumericArgs(m, t)[i].0)
  {
    EscapedKeyIsNotPrivate(":method");
    EscapedKeyIsNotPrivate(":args");
  }

  lemma NumericData(env: Env, codec: TextCodec, m: string, t: string)
    requires Sound(codec)
    ensures ParseHashData(env, codec, NumericArgs(m, t))
              == Ok([(VSym("method"), VStr(m)), (VSym("args"), VArr([VStr(t)]))])
  {
    SymbolKeyIntact(env, codec, "method");
    SymbolKeyIntact(env, codec, "args");
    NumericArgValues(env, codec, m, t);
    ParseHashDataOfTwo(env, codec, ":method", JStr("%" + m), ":args", JArr([JStr("%" + t)]),
                       VSym("method"), VStr(m), VSym("args"), VArr([VStr(t)]));
  }

  lemma NumericRecordCallsBuilder(env: Env, codec: TextCodec, m: string, t: string)
    requires Sound(codec)
    ensures ParseHash(env, codec, NumericRecord(m, t))
              == CallBuilder(env, JStr(FunctionalBuilderName), [],
                             [(VSym("method"), VStr(m)), (VSym("args"), VArr([VStr(t)]))])
  {
    NumericArgsArePublic(m, t);
    NumericData(env, codec, m, t);
    BuilderRecordCallsBuilder(env, codec, JStr(FunctionalBuilderName), NumericArgs(m, t),
                              [(VSym("method"), VStr(m)), (VSym("args"), VArr([VStr(t)]))]);
  }

  lemma NumericWritable(m: string, t: string)
    ensures Writable(JObj(NumericRecord(m, t)))
  {
    var ps := NumericRecord(m, t);
    assert ps[2].1.items[0] == JStr("%" + t);
    assert Writable(ps[2].1);
  }

  lemma NumericDumpIsRecord(codec: TextCodec, c: NumClass, t: string)
    ensures Dump(codec, VNum(c, t)) == JObj(NumericRecord(NumClassName(c), t))
  {
    DumpNumeric(codec, c, t);
    assert NumericRecord(NumClassName(c), t)
             == [(BuilderKey, JStr("RJSON::FunctionalBuilder")),
                 (":method", JStr("%" + NumClassName(c))),
                 (":args", JArr([JStr("%" + t)]))];
  }

  /** `BigDecimal`, `Complex` and `Rational` go out as a `FunctionalBuilder`
      call of the class-named `Kernel` method on their text, and come back. */
  lemma NumericIntact(env: Env, codec: TextCodec, c: NumClass, t: string)
    requires Faithful(env) && Sound(codec)
    ensures ComesBack(env, codec, VNum(c, t))
  {
    var m := NumClassName(c);
    NumericDumpIsRecord(codec, c, t);
    ParseGenericOfObject(env, codec, JObj(NumericRecord(m, t)));
    NumericRecordCallsBuilder(env, codec, m, t);
    FunctionalBuilderCalls(env, m, t, VNum(c, t));
    NumericWritable(m, t);
  }

  lemma ComesBackParses(env: Env, codec: TextCodec, xs: seq<Value>)
    requires Sound(codec)
    requires forall i :: 0 <= i < |xs| ==> ComesBack(env, codec, xs[i])
    ensures forall i :: 0 <= i < |xs| ==> ParseGeneric(env, codec, Dump(codec, xs[i])) == Ok(xs[i])
    ensures forall i :: 0 <= i < |xs| ==> Writable(Dump(codec, xs[i]))
  {
  }

  /** The dumped elements of an array read back as its elements. */
  lemma ArrayItemsIntact(env: Env, codec: TextCodec, v: Value)
    requires Sound(codec)
    requires v.VArr?
    requires forall i :: 0 <= i < |v.items| ==> ComesBack(env, codec, v.items[i])
    ensures ParseArray(env, codec, DumpItems(codec, v, 0)) == Ok(v.items)
  {
    DumpItemsAre(codec, v);
    ComesBackParses(env, codec, v.items);
    ParseArrayOfParsed(env, codec, DumpItems(codec, v, 0), v.items);
  }

  lemma ArrayItemsWritable(env: Env, codec: TextCodec, v: Value)
    requires Sound(codec)
    requires v.VArr?
    requires forall i :: 0 <= i < |v.items| ==> ComesBack(env, codec, v.items[i])
    ensures Writable(JArr(DumpItems(codec, v, 0)))
  {
    DumpItemsAre(codec, v);
    ComesBackParses(env, codec, v.items);
  }

  /** `ArrayDumper` and `parse_array`: elements come back in order. */
  lemma ArrayIntact(env: Env, codec: TextCodec, v: Value)
    requires Sound(codec)
    requires v.VArr?
    requires forall i :: 0 <= i < |v.items| ==> ComesBack(env, codec, v.items[i])
    ensures ComesBack(env, codec, v)
  {
    DumpArray(codec, v);
    ArrayItemsIntact(env, codec, v);
    ArrayItemsWritable(env, codec, v);
    ParseGenericOfArray(env, codec, JArr(DumpItems(codec, v, 0)), v.items);
  }

  /** What one hash pair needs to come back: its key reads back from its
      escaped form and its value comes back. */
  ghost predicate PairComesBack(env: Env, codec: TextCodec, p: (Value, Value))
    requires Sound(codec)
  {
    && !p.0.VCustom?
    && ParseString(env, codec, DumpKey(codec, p.0)) == Ok(p.0)
    && ComesBack(env, codec, p.1)
  }

  lemma PairParses(env: Env, codec: TextCodec, p: (Value, Value))
    requires Sound(codec)
    requires PairComesBack(env, codec, p)
    ensures ParseString(env, codec, DumpKey(codec, p.0)) == Ok(p.0)
    ensures ParseGeneric(env, codec, Dump(codec, p.1)) == Ok(p.1) && Writable(Dump(codec, p.1))
  {
  }

  lemma HashEntriesParse(env: Env, codec: TextCodec, v: Value)
    requires Sound(codec)
    requires v.VHash?
    requires forall i :: 0 <= i < |v.pairs| ==> PairComesBack(env, codec, v.pairs[i])
    ensures |DumpEntries(codec, v, 0)| == |v.pairs|
    ensures forall i :: 0 <= i < |v.pairs| ==>
              && ParseString(env, codec, DumpEntries(codec, v, 0)[i].0) == Ok(v.pairs[i].0)
              && ParseGeneric(env, codec, DumpEntries(codec, v, 0)[i].1) == Ok(v.pairs[i].1)
              && Writable(DumpEntries(codec, v, 0)[i].1)
  {
    var es := DumpEntries(codec, v, 0);
    DumpEntriesAre(codec, v);
    forall i | 0 <= i < |v.pairs|
      ensures ParseString(env, codec, es[i].0) == Ok(v.pairs[i].0)
      ensures ParseGeneric(env, codec, es[i].1) == Ok(v.pairs[i].1) && Writable(es[i].1)
    {
      PairParses(env, codec, v.pairs[i]);
    }
  }

  /** Keys that read back as distinct keys were written distinct. */
  lemma HashEntriesDistinct(env: Env, codec: TextCodec, v: Value)
    requires Sound(codec)
    requires v.VHash? && DistinctKeys(v.pairs)
    requires forall i :: 0 <= i < |v.pairs| ==> PairComesBack(env, codec, v.pairs[i])
    ensures DistinctKeys(DumpEntries(codec, v, 0))
  {
    var es := DumpEntries(codec, v, 0);
    HashEntriesParse(env, codec, v);
    DumpEntriesAre(codec, v);
    forall i, j | 0 <= i < j < |es| ensures es[i].0 != es[j].0 {
      assert v.pairs[i].0 != v.pairs[j].0;
      assert ParseString(env, codec, es[i].0) == Ok(v.pairs[i].0);
      assert ParseString(env, codec, es[j].0) == Ok(v.pairs[j].0);
    }
  }

  lemma HashEntriesPublic(codec: TextCodec, v: Value)
    requires v.VHash?
    requires forall i :: 0 <= i < |v.pairs| ==> !v.pairs[i].0.VCustom?
    ensures forall i :: 0 <= i < |DumpEntries(codec, v, 0)| ==> !IsPrivate(DumpEntries(codec, v, 0)[i].0)
  {
    var es := DumpEntries(codec, v, 0);
    DumpEntriesAre(codec, v);
    forall i | 0 <= i < |es| ensures !IsPrivate(es[i].0) {
      DumpedKeyIsEscaped(codec, v.pairs[i].0);
      EscapedKeyIsNotPrivate(es[i].0);
    }
  }

  /** `HashDumper` and `parse_hash`: escaped keys are never private and, as
      each reads back as its own key, they stay distinct; so the hash comes
      back pair by pair. */
  lemma HashIntact(env: Env, codec: TextCodec, v: Value)
    requires Sound(codec)
    requires v.VHash? && DistinctKeys(v.pairs)
    requires forall i :: 0 <= i < |v.pairs| ==> PairComesBack(env, codec, v.pairs[i])
    ensures ComesBack(env, codec, v)
  {
    var es := DumpEntries(codec, v, 0);
    DumpHash(codec, v);
    HashEntriesDistinct(env, codec, v);
    ToHIdentity(es);
    HashEntriesPublic(codec, v);
    HashEntriesParse(env, codec, v);
    PlainObjectParses(env, codec, es, v.pairs);
    assert Writable(JObj(es));
  }

  /** What one instance variable needs to come back: a valid name and a
      value that comes back. */
  ghost predicate IvarComesBack(env: Env, codec: TextCodec, p: (string, Value))
    requires Sound(codec)
  {
    ValidIvarName(p.0) && ComesBack(env, codec, p.1)
  }

  lemma IvarParses(env: Env, codec: TextCodec, p: (string, Value))
    requires Sound(codec)
    requires IvarComesBack(env, codec, p)
    ensures ParseString(env, codec, p.0) == Ok(VStr(p.0))
    ensures ParseGeneric(env, codec, Dump(codec, p.1)) == Ok(p.1) && Writable(Dump(codec, p.1))
  {
    UnescapedStringIsItself(env, codec, p.0);
  }

  /** The data section of an `ObjectDumper` record: the instance variable
      names as Strings, each with its value. */
  function IvarData(ivars: seq<(string, Value)>): (data: seq<(Value, Value)>)
    ensures |data| == |ivars|
    ensures forall i :: 0 <= i < |ivars| ==> data[i] == (VStr(ivars[i].0), ivars[i].1)
  {
    seq(|ivars|, i requires 0 <= i < |ivars| => (VStr(ivars[i].0), ivars[i].1))
  }

  lemma ObjectIvarsParse(env: Env, codec: TextCodec, v: Value)
    requires Sound(codec)
    requires v.VObj? && DistinctKeys(v.ivars)
    requires forall i :: 0 <= i < |v.ivars| ==> IvarComesBack(env, codec, v.ivars[i])
    ensures ParseHashData(env, codec, DumpIvars(codec, v, 0)) == Ok(IvarData(v.ivars))
    ensures forall i :: 0 <= i < |DumpIvars(codec, v, 0)| ==> Writable(DumpIvars(codec, v, 0)[i].1)
  {
    var ivs := DumpIvars(codec, v, 0);
    var data := IvarData(v.ivars);
    DumpIvarsAre(codec, v);
    forall i | 0 <= i < |ivs|
      ensures ParseString(env, codec, ivs[i].0) == Ok(data[i].0)
      ensures ParseGeneric(env, codec, ivs[i].1) == Ok(data[i].1) && Writable(ivs[i].1)
    {
      IvarParses(env, codec, v.ivars[i]);
    }
    forall i, j | 0 <= i < j < |data| ensures data[i].0 != data[j].0 {
      assert v.ivars[i].0 != v.ivars[j].0;
    }
    ParseHashDataOfDistinct(env, codec, ivs, data);
  }

  lemma ObjectIvarsPublic(codec: TextCodec, v: Value)
    requires v.VObj?
    requires forall i :: 0 <= i < |v.ivars| ==> ValidIvarName(v.ivars[i].0)
    ensures forall i :: 0 <= i < |DumpIvars(codec, v, 0)| ==> !IsPrivate(DumpIvars(codec, v, 0)[i].0)
  {
    var ivs := DumpIvars(codec, v, 0);
    DumpIvarsAre(codec, v);
    forall i | 0 <= i < |ivs| ensures !IsPrivate(ivs[i].0) {
      assert ivs[i].0 == v.ivars[i].0;
      EscapedKeyIsNotPrivate(ivs[i].0);
    }
  }

  /** The keys of an `ObjectDumper` record are distinct: two private keys,
      then instance variable names, which start with `@`. */
  lemma ObjectRecordKeysDistinct(codec: TextCodec, v: Value)
    requires v.VObj? && DistinctKeys(v.ivars)
    requires forall i :: 0 <= i < |v.ivars| ==> ValidIvarName(v.ivars[i].0)
    ensures DistinctKeys([(BuilderKey, JStr(ObjectBuilderName)), (ClassNameKey, JStr(v.cls))]
                         + DumpIvars(codec, v, 0))
  {
    var head := [(BuilderKey, JStr(ObjectBuilderName)), (ClassNameKey, JStr(v.cls))];
    var ivs := DumpIvars(codec, v, 0);
    DumpIvarsAre(codec, v);
    var all := head + ivs;
    forall i, j | 0 <= i < j < |all| ensures all[i].0 != all[j].0 {
      if j >= 2 {
        assert all[j].0 == v.ivars[j - 2].0;
        assert all[j].0[0] == '@';
        if i >= 2 {
          assert all[i].0 == v.ivars[i - 2].0;
        } else {
          assert all[i].0[0] == '_';
        }
      }
    }
  }

  /** An `ObjectDumper` record is read as an `ObjectBuilder` call with the
      class name as option and the instance variables as data. */
  lemma ObjectRecordCallsObjectBuilder(env: Env, codec: TextCodec, v: Value)
    requires Sound(codec)
    requires v.VObj? && DistinctKeys(v.ivars)
    requires forall i :: 0 <= i < |v.ivars| ==> IvarComesBack(env, codec, v.ivars[i])
    ensures ParseGeneric(env, codec, JObj([(BuilderKey, JStr(ObjectBuilderName)), (ClassNameKey, JStr(v.cls))]
                                          + DumpIvars(codec, v, 0)))
              == CallBuilder(env, JStr(ObjectBuilderName), [("class_name", JStr(v.cls))], IvarData(v.ivars))
  {
    var ivs := DumpIvars(codec, v, 0);
    var ps := [(BuilderKey, JStr(ObjectBuilderName)), (ClassNameKey, JStr(v.cls))] + ivs;
    ParseGenericOfObject(env, codec, JObj(ps));
    ObjectIvarsPublic(codec, v);
    ObjectIvarsParse(env, codec, v);
    ObjectRecordCallsBuilder(env, codec, JStr(ObjectBuilderName), JStr(v.cls), ivs, IvarData(v.ivars));
  }

  lemma ObjectRecordBuilds(env: Env, codec: TextCodec, v: Value)
    requires Faithful(env) && Sound(codec)
    requires v.VObj? && env.resolve(v.cls) == Found(VModule(v.cls, true)) && DistinctKeys(v.ivars)
    requires forall i :: 0 <= i < |v.ivars| ==> IvarComesBack(env, codec, v.ivars[i])
    ensures ParseGeneric(env, codec, JObj([(BuilderKey, JStr(ObjectBuilderName)), (ClassNameKey, JStr(v.cls))]
                                          + DumpIvars(codec, v, 0)))
              == Ok(v)
  {
    ObjectRecordCallsObjectBuilder(env, codec, v);
    SetIvarsAcceptsValidNames(IvarData(v.ivars), v.ivars);
    ObjectBuilderBuilds(env, v.cls, IvarData(v.ivars), v.ivars);
  }

  lemma ObjectRecordWritable(codec: TextCodec, v: Value)
    requires v.VObj? && DistinctKeys(v.ivars)
    requires forall i :: 0 <= i < |v.ivars| ==> ValidIvarName(v.ivars[i].0)
    requires forall i :: 0 <= i < |DumpIvars(codec, v, 0)| ==> Writable(DumpIvars(codec, v, 0)[i].1)
    ensures Writable(JObj([(BuilderKey, JStr(ObjectBuilderName)), (ClassNameKey, JStr(v.cls))]
                          + DumpIvars(codec, v, 0)))
  {
    var ivs := DumpIvars(codec, v, 0);
    var ps := [(BuilderKey, JStr(ObjectBuilderName)), (ClassNameKey, JStr(v.cls))] + ivs;
    ObjectRecordKeysDistinct(codec, v);
    forall i | 0 <= i < |ps| ensures Writable(ps[i].1) {
      if i >= 2 {
        assert ps[i] == ivs[i - 2];
      }
    }
  }

  /** `ObjectDumper` and `ObjectBuilder`: the object comes back with its class
      and its instance variables. */
  lemma ObjectIntact(env: Env, codec: TextCodec, v: Value)
    requires Faithful(env) && Sound(codec)
    requires v.VObj? && env.resolve(v.cls) == Found(VModule(v.cls, true)) && DistinctKeys(v.ivars)
    requires forall i :: 0 <= i < |v.ivars| ==> IvarComesBack(env, codec, v.ivars[i])
    ensures ComesBack(env, codec, v)
  {
    var ps := [(BuilderKey, JStr(ObjectBuilderName)), (ClassNameKey, JStr(v.cls))] + DumpIvars(codec, v, 0);
    DumpObject(codec, v);
    ObjectRecordKeysDistinct(codec, v);
    ToHIdentity(ps);
    ObjectRecordBuilds(env, codec, v);
    ObjectIvarsParse(env, codec, v);
    ObjectRecordWritable(codec, v);
  }

  /** A dumped hash key reads back as the key: through `parse_string` when
      the key dumped to a String, through the text layer after `!`
      otherwise. */
  lemma EscapedKeyIntact(env: Env, codec: TextCodec, k: Value)
    requires Sound(codec) && RoundTrips(codec)
    requires !k.VCustom? && ComesBack(env, codec, k)
    ensures ParseString(env, codec, DumpKey(codec, k)) == Ok(k)
  {
    if k.VStr? {
      StringKeyIntact(env, codec, k.s);
    } else if k.VSym? {
      SymbolKeyIntact(env, codec, k.name);
    } else {
      var d := Dump(codec, k);
      ParseBangString(env, codec, codec.write(d));
      ParseJsonOfParsed(env, codec, codec.write(d), d);
    }
  }

  lemma StringKeyIntact(env: Env, codec: TextCodec, s: string)
    requires Sound(codec)
    ensures ParseString(env, codec, "%" + s) == Ok(VStr(s))
  {
    assert ("%" + s)[1..] == s;
  }

  lemma SymbolKeyIntact(env: Env, codec: TextCodec, name: string)
    requires Sound(codec)
    ensures ParseString(env, codec, ":" + name) == Ok(VSym(name))
  {
    assert (":" + name)[1..] == name;
  }

  // ---------------------------------------------------------------------
  // The round trip

  /** `parse_generic(Dumper.dump(v)) == v` for every supported value, and the
      dump can be written as JSON text. */
  lemma {:induction false} Intact(env: Env, codec: TextCodec, v: Value)
    requires Faithful(env) && Sound(codec) && RoundTrips(codec)
    requires Supported(env, v)
    ensures ComesBack(env, codec, v)
    decreases v, 1
  {
    match v
    case VNil => PrimitiveIntact(env, codec, v);
    case VBool(_) => PrimitiveIntact(env, codec, v);
    case VInt(_) => PrimitiveIntact(env, codec, v);
    case VFloat(f) => FloatIntact(env, codec, f);
    case VStr(s) => StringIntact(env, codec, s);
    case VSym(name) => SymbolIntact(env, codec, name);
    case VNum(c, t) => NumericIntact(env, codec, c, t);
    case VArr(xs) =>
      forall i | 0 <= i < |xs| ensures ComesBack(env, codec, xs[i]) {
        Intact(env, codec, xs[i]);
      }
      ArrayIntact(env, codec, v);
    case VHash(ps) =>
      forall i | 0 <= i < |ps| ensures PairComesBack(env, codec, ps[i]) {
        KeyIntact(env, codec, ps[i].0);
        Intact(env, codec, ps[i].1);
      }
      HashIntact(env, codec, v);
    case VObj(cls, ivars) =>
      forall i | 0 <= i < |ivars| ensures IvarComesBack(env, codec, ivars[i]) {
        Intact(env, codec, ivars[i].1);
      }
      ObjectIntact(env, codec, v);
  }

  /** A supported hash key survives `HashDumper`'s escaping. */
  lemma {:induction false} KeyIntact(env: Env, codec: TextCodec, k: Value)
    requires Faithful(env) && Sound(codec) && RoundTrips(codec)
    requires Supported(env, k)
    ensures !k.VCustom? && ParseString(env, codec, DumpKey(codec, k)) == Ok(k)
    decreases k, 2
  {
    Intact(env, codec, k);
    EscapedKeyIntact(env, codec, k);
  }

  /** `RJSON.load(RJSON.dump(v)) == v`: the text written for a supported
      value loads back as the value. */
  lemma LoadDumpRoundTrip(env: Env, codec: TextCodec, v: Value)
    requires Faithful(env) && Sound(codec) && RoundTrips(codec)
    requires Supported(env, v)
    ensures ParseJson(env, codec, Some(codec.write(Dump(codec, v)))) == Ok(v)
  {
    Intact(env, codec, v);
    ParseJsonOfParsed(env, codec, codec.write(Dump(codec, v)), Dump(codec, v));
  }

  /** Distinct supported values never dump to the same tree. */
  lemma DumpIsInjective(env: Env, codec: TextCodec, v1: Value, v2: Value)
    requires Faithful(env) && Sound(codec) && RoundTrips(codec)
    requires Supported(env, v1) && Supported(env, v2)
    ensures Dump(codec, v1) == Dump(codec, v2) ==> v1 == v2
  {
    Intact(env, codec, v1);
    Intact(env, codec, v2);
  }
}

=== FILE: parser.dfy ===
/** `RJSON::Parser`: turning a wire tree back into a runtime value. Strings
    are unescaped by their first character, arrays element by element, and
    hashes are split into private options (keys starting with `__rjson_`)
    and data; a `builder` option hands both to a builder. */
module Parser {
  import opened Wire
  import opened Values
  import opened Hashes
  import opened Strings
  import opened Errors
  import opened Builders

  predicate IsPrivate(key: string) {
    StartsWith(key, PrivateNamespacePrefix)
  }

  /** `raw_hash.select { |key, _| key.starts_with?(PRIVATE_NAMESPACE_PREFIX) }`. */
  function PrivatePart(ps: seq<(string, Json)>): (r: seq<(string, Json)>)
    ensures forall i :: 0 <= i < |r| ==> IsPrivate(r[i].0)
    ensures forall p :: p in r <==> p in ps && IsPrivate(p.0)
    ensures Subsequence(r, ps)
  {
    if |ps| == 0 then []
    else
      var rest := PrivatePart(ps[1..]);
      assert [ps[0]] + ps[1..] == ps;
      if IsPrivate(ps[0].0) then
        SubsequenceKeep(ps[0], rest, ps[1..]);
        [ps[0]] + rest
      else
        SubsequenceSkip(ps[0], rest, ps[1..]);
        assert [] + rest == rest;
        rest
  }

  /** The complementary `select`: every pair whose key is not private. */
  function DataPart(ps: seq<(string, Json)>): (r: seq<(string, Json)>)
    ensures forall i :: 0 <= i < |r| ==> !IsPrivate(r[i].0)
    ensures forall p :: p in r <==> p in ps && !IsPrivate(p.0)
    ensures SizePairs(r) <= SizePairs(ps)
    ensures Subsequence(r, ps)
  {
    if |ps| == 0 then []
    else
      var rest := DataPart(ps[1..]);
      assert [ps[0]] + ps[1..] == ps;
      if IsPrivate(ps[0].0) then
        SubsequenceSkip(ps[0], rest, ps[1..]);
        rest
      else
        assert ([ps[0]] + rest)[1..] == rest;
        SubsequenceKeep(ps[0], rest, ps[1..]);
        [ps[0]] + rest
  }

  /** `extract_private_options` splits a hash without losing or duplicating a
      pair: each pair lands on exactly one side, private keys on the options
      side. Both sides also keep the original order: see the `Subsequence`
      postconditions of `PrivatePart` and `DataPart`. */
  lemma {:induction false} PartitionIsExact(ps: seq<(string, Json)>)
    ensures |PrivatePart(ps)| + |DataPart(ps)| == |ps|
    ensures multiset(PrivatePart(ps)) + multiset(DataPart(ps)) == multiset(ps)
  {
    if |ps| > 0 {
      PartitionIsExact(ps[1..]);
      assert ps == [ps[0]] + ps[1..];
    }
  }

  /** Option names: the private keys without their prefix. */
  function StripOptionKeys(options: seq<(string, Json)>): (r: seq<(string, Json)>)
    requires forall i :: 0 <= i < |options| ==> IsPrivate(options[i].0)
    ensures |r| == |options|
    ensures forall i :: 0 <= i < |options| ==>
              PrivateNamespacePrefix + r[i].0 == options[i].0 && r[i].1 == options[i].1
  {
    if |options| == 0 then []
    else
      assert IsPrivate(options[0].0);
      assert forall i :: 0 <= i < |options| - 1 ==> options[1..][i] == options[i + 1];
      [(StripPrefix(options[0].0, PrivateNamespacePrefix), options[0].1)] + StripOptionKeys(options[1..])
  }

  /** `parse_hash_options`: prefix stripped, values left as they are; the
      result is a hash whose names are exactly the private keys without
      their prefix. */
  function ParseHashOptions(options: seq<(string, Json)>): (r: seq<(string, Json)>)
    requires forall i :: 0 <= i < |options| ==> IsPrivate(options[i].0)
    ensures DistinctKeys(r)
    ensures forall n :: HasKey(r, n) <==> HasKey(options, PrivateNamespacePrefix + n)
  {
    var r := ToH(StripOptionKeys(options));
    assert forall n :: HasKey(r, n) <==> HasKey(options, PrivateNamespacePrefix + n) by {
      forall n ensures HasKey(r, n) <==> HasKey(options, PrivateNamespacePrefix + n) {
        StripOptionKeysHasKey(options, n);
        ToHKeys(StripOptionKeys(options), n);
      }
    }
    r
  }

  /** Ruby truthiness of the raw `builder` option. */
  predicate Truthy(j: Json) {
    !(j.JNull? || j == JBool(false))
  }

  /** `load_json(raw_json)`: `nil` stays `nil` and the text parser is not
      called; parser failures become `YAMLParserError`. */
  function LoadJson(codec: TextCodec, raw: Option<string>): (r: Result<Json>)
    requires Sound(codec)
    ensures raw.None? ==> r == Ok(JNull)
    ensures raw.Some? && r.Ok? ==> Size(r.value) <= |raw.value|
    ensures r.Err? ==> r.error.Proxy? && r.error.kind == YamlParser
    ensures raw.Some? && codec.parse(raw.value).Parsed? ==> r == Ok(codec.parse(raw.value).tree)
    ensures raw.Some? && codec.parse(raw.value).Rejected? ==>
              r == Err(Wrap(YamlParser, StandardError(codec.parse(raw.value).message)))
  {
    match raw
    case None => Ok(JNull)
    case Some(x) =>
      match codec.parse(x)
      case Parsed(t) => Ok(t)
      case Rejected(message) => Err(Wrap(YamlParser, StandardError(message)))
  }

  /** `parse_json(raw_json)`: `nil` text is `nil`, and text the parser
      rejects is a `YAMLParserError` carrying the parser's message. */
  function ParseJson(env: Env, codec: TextCodec, raw: Option<string>): (r: Result<Value>)
    requires Sound(codec)
    ensures raw.None? ==> r == Ok(VNil)
    ensures raw.Some? && codec.parse(raw.value).Rejected? ==>
              r == Err(Proxy(YamlParser, StandardError(codec.parse(raw.value).message)))
    decreases if raw.Some? then |raw.value| else 0, 6, 0
  {
    var t :- LoadJson(codec, raw);
    ParseGeneric(env, codec, t)
  }

  /** `parse_generic(object)`: strings, arrays and hashes go to their parsers,
      everything else is returned as it is. */
  function ParseGeneric(env: Env, codec: TextCodec, t: Json): (r: Result<Value>)
    requires Sound(codec)
    ensures !(t.JStr? || t.JArr? || t.JObj?) ==> r == Ok(JsonAsValue(t))
    ensures t.JArr? && r.Ok? ==> r.value.VArr? && |r.value.items| == |t.items|
    decreases Size(t), 2, 0
  {
    match t
    case JNull => Ok(VNil)
    case JBool(b) => Ok(VBool(b))
    case JInt(i) => Ok(VInt(i))
    case JFloat(f) => Ok(VFloat(f))
    case JStr(s) => ParseString(env, codec, s)
    case JArr(xs) =>
      var items :- ParseArray(env, codec, xs);
      Ok(VArr(items))
    case JObj(ps) =>
      SizeObject(ps);
      ParseHash(env, codec, ps)
  }

  /** `parse_string(raw_string)`, by first character. Only `!` strings,
      which hold nested text, can fail; every other string loses at most its
      one escape character. */
  function ParseString(env: Env, codec: TextCodec, s: string): (r: Result<Value>)
    requires Sound(codec)
    ensures !(|s| > 0 && s[0] == '!') ==> r.Ok? && (r.value.VSym? || r.value.VStr?)
    ensures r.Ok? && r.value.VSym? && !(|s| > 0 && s[0] == '!') ==> |s| > 0 && s[0] == ':' && r.value.name == s[1..]
    ensures r.Ok? && r.value.VStr? && !(|s| > 0 && s[0] == '!') ==>
              if |s| > 0 && s[0] == '%' then r.value.s == s[1..] else r.value.s == s && !(|s| > 0 && s[0] == ':')
    decreases |s|, 1, 0
  {
    if |s| == 0 then Ok(VStr(s))
    else if s[0] == ':' then Ok(VSym(s[1..]))
    else if s[0] == '%' then Ok(VStr(s[1..]))
    else if s[0] == '!' then ParseJson(env, codec, Some(s[1..]))
    else Ok(VStr(s))
  }

  /** `parse_array(raw_array)`: elements in order; the first failure wins. */
  function ParseArray(env: Env, codec: TextCodec, xs: seq<Json>): (r: Result<seq<Value>>)
    requires Sound(codec)
    ensures r.Ok? ==> |r.value| == |xs|
    decreases SizeList(xs), 3, |xs|
  {
    if |xs| == 0 then Ok([])
    else
      var first :- ParseGeneric(env, codec, xs[0]);
      var rest :- ParseArray(env, codec, xs[1..]);
      Ok([first] + rest)
  }

  /** The pairs of `parse_hash_data` before `to_h`: each key through
      `parse_string`, then its value through `parse_generic`. */
  function ParsePairs(env: Env, codec: TextCodec, ps: seq<(string, Json)>): (r: Result<seq<(Value, Value)>>)
    requires Sound(codec)
    ensures r.Ok? ==> |r.value| == |ps|
    decreases SizePairs(ps), 3, |ps|
  {
    if |ps| == 0 then Ok([])
    else
      var key :- ParseString(env, codec, ps[0].0);
      var value :- ParseGeneric(env, codec, ps[0].1);
      var rest :- ParsePairs(env, codec, ps[1..]);
      Ok([(key, value)] + rest)
  }

  /** `parse_hash_data(data)`: a hash, so parsed keys that coincide merge. */
  function ParseHashData(env: Env, codec: TextCodec, ps: seq<(string, Json)>): (r: Result<seq<(Value, Value)>>)
    requires Sound(codec)
    ensures r.Ok? ==> DistinctKeys(r.value) && |r.value| <= |ps|
    decreases SizePairs(ps), 4, 0
  {
    var pairs :- ParsePairs(env, codec, ps);
    Ok(ToH(pairs))
  }

  /** `parse_hash(raw_hash)`: the data section is parsed first, so its
      errors win over any about the options. */
  function ParseHash(env: Env, codec: TextCodec, ps: seq<(string, Json)>): (r: Result<Value>)
    requires Sound(codec)
    ensures ParseHashData(env, codec, DataPart(ps)).Err? ==> r == Err(ParseHashData(env, codec, DataPart(ps)).error)
    decreases SizePairs(ps), 5, 0
  {
    var data :- ParseHashData(env, codec, DataPart(ps));
    Dispatch(env, ps, data)
  }

  /** The rest of `parse_hash` once the data section has parsed: the options
      (which cannot fail to parse) go to the builder, or must be empty. */
  function Dispatch(env: Env, ps: seq<(string, Json)>, data: seq<(Value, Value)>): (r: Result<Value>)
    ensures var b := Get(ParseHashOptions(PrivatePart(ps)), "builder");
            !(b.Some? && Truthy(b.value)) ==>
              r == Ok(VHash(data)) || (r.Err? && r.error.PrivateKeysNotUsed? && r.error.hash == ps)
  {
    var options := ParseHashOptions(PrivatePart(ps));
    var (builder, rest) := Delete(options, "builder");
    if builder.Some? && Truthy(builder.value) then
      CallBuilder(env, builder.value, rest, data)
    else
      var _ :- TryRaisePrivateKeysNotUsed(rest, ps);
      Ok(VHash(data))
  }

  // ---------------------------------------------------------------------
  // Properties

  /** A hash with no private key is all data. */
  lemma {:induction false} NoPrivateKeysAllData(ps: seq<(string, Json)>)
    requires forall i :: 0 <= i < |ps| ==> !IsPrivate(ps[i].0)
    ensures PrivatePart(ps) == [] && DataPart(ps) == ps
  {
    if |ps| > 0 {
      NoPrivateKeysAllData(ps[1..]);
      assert ps == [ps[0]] + ps[1..];
    }
  }

  /** A hash without private keys parses to the hash of its parsed pairs. */
  lemma PlainHashIsItsData(env: Env, codec: TextCodec, ps: seq<(string, Json)>)
    requires Sound(codec)
    requires forall i :: 0 <= i < |ps| ==> !IsPrivate(ps[i].0)
    ensures ParseHash(env, codec, ps)
              == (match ParseHashData(env, codec, ps)
                  case Ok(data) => Ok(VHash(data))
                  case Err(e) => Err(e))
  {
    NoPrivateKeysAllData(ps);
    var r := ParseHashData(env, codec, ps);
    if r.Ok? {
      PlainDispatch(env, ps, r.value);
    }
  }

  /** With no private keys there is nothing to dispatch on: the data is the
      hash. */
  lemma PlainDispatch(env: Env, ps: seq<(string, Json)>, data: seq<(Value, Value)>)
    requires PrivatePart(ps) == []
    ensures Dispatch(env, ps, data) == Ok(VHash(data))
  {
    var none: seq<(string, Json)> := [];
    assert ParseHashOptions(none) == none;
    assert Delete(none, "builder") == (None, none);
  }

  /** `raw_array.map(&method(:parse_generic))`: the array parses exactly when
      every element does, element by element in order; otherwise the first
      failing element's error is the array's. */
  lemma {:induction false} ParseArrayOk(env: Env, codec: TextCodec, xs: seq<Json>)
    requires Sound(codec)
    ensures ParseArray(env, codec, xs).Ok? <==>
              forall i :: 0 <= i < |xs| ==> ParseGeneric(env, codec, xs[i]).Ok?
  {
    if |xs| > 0 {
      ParseArrayOk(env, codec, xs[1..]);
      assert forall i :: 0 < i < |xs| ==> xs[1..][i - 1] == xs[i];
    }
  }

  lemma {:induction false} ParseArrayValues(env: Env, codec: TextCodec, xs: seq<Json>)
    requires Sound(codec)
    ensures ParseArray(env, codec, xs).Ok? ==>
              |ParseArray(env, codec, xs).value| == |xs| &&
              forall i :: 0 <= i < |xs| ==> ParseGeneric(env, codec, xs[i]) == Ok(ParseArray(env, codec, xs).value[i])
  {
    if |xs| > 0 {
      var tail := xs[1..];
      assert forall i :: 0 <= i < |tail| ==> tail[i] == xs[i + 1];
      ParseArrayValues(env, codec, tail);
    }
  }

  lemma {:induction false} ParseArrayFirstError(env: Env, codec: TextCodec, xs: seq<Json>)
    requires Sound(codec)
    ensures ParseArray(env, codec, xs).Err? ==>
              exists i :: 0 <= i < |xs| &&
                ParseGeneric(env, codec, xs[i]) == Err(ParseArray(env, codec, xs).error) &&
                forall j :: 0 <= j < i ==> ParseGeneric(env, codec, xs[j]).Ok?
  {
    if |xs| > 0 {
      var tail := xs[1..];
      assert forall i :: 0 <= i < |tail| ==> tail[i] == xs[i + 1];
      ParseArrayFirstError(env, codec, tail);
      var r := ParseArray(env, codec, xs);
      if ParseGeneric(env, codec, xs[0]).Ok? && r.Err? {
        var i :| 0 <= i < |tail| &&
                 ParseGeneric(env, codec, tail[i]) == Err(r.error) &&
                 forall j :: 0 <= j < i ==> ParseGeneric(env, codec, tail[j]).Ok?;
        assert ParseGeneric(env, codec, xs[i + 1]) == Err(r.error);
      }
    }
  }

  lemma ParseArrayPointwise(env: Env, codec: TextCodec, xs: seq<Json>)
    requires Sound(codec)
    ensures ParseArray(env, codec, xs).Ok? <==>
              forall i :: 0 <= i < |xs| ==> ParseGeneric(env, codec, xs[i]).Ok?
    ensures ParseArray(env, codec, xs).Ok? ==>
              |ParseArray(env, codec, xs).value| == |xs| &&
              forall i :: 0 <= i < |xs| ==> ParseGeneric(env, codec, xs[i]) == Ok(ParseArray(env, codec, xs).value[i])
    ensures ParseArray(env, codec, xs).Err? ==>
              exists i :: 0 <= i < |xs| &&
                ParseGeneric(env, codec, xs[i]) == Err(ParseArray(env, codec, xs).error) &&
                forall j :: 0 <= j < i ==> ParseGeneric(env, codec, xs[j]).Ok?
  {
    ParseArrayOk(env, codec, xs);
    ParseArrayValues(env, codec, xs);
    ParseArrayFirstError(env, codec, xs);
  }


  /** `parse_hash_data` before `to_h`: the pairs parse exactly when every key
      and every value does, and each result pair is the parsed key with the
      parsed value. */
  lemma ParsePairsOk(env: Env, codec: TextCodec, ps: seq<(string, Json)>)
    requires Sound(codec)
    ensures ParsePairs(env, codec, ps).Ok? <==>
              forall i :: 0 <= i < |ps| ==>
                     ParseString(env, codec, ps[i].0).Ok? && ParseGeneric(env, codec, ps[i].1).Ok?
  {
    ParsePairsAllParse(env, codec, ps);
    assert forall i :: 0 <= i < |ps| ==>
             (PairParses(env, codec, ps[i])
              <==> ParseString(env, codec, ps[i].0).Ok? && ParseGeneric(env, codec, ps[i].1).Ok?);
  }

  predicate PairParses(env: Env, codec: TextCodec, p: (string, Json))
    requires Sound(codec)
  {
    ParseString(env, codec, p.0).Ok? && ParseGeneric(env, codec, p.1).Ok?
  }

  lemma ParsePairsAllParse(env: Env, codec: TextCodec, ps: seq<(string, Json)>)
    requires Sound(codec)
    ensures ParsePairs(env, codec, ps).Ok? <==> forall i :: 0 <= i < |ps| ==> PairParses(env, codec, ps[i])
  {
    if ParsePairs(env, codec, ps).Ok? {
      ParsePairsOkAll(env, codec, ps);
    } else if forall i :: 0 <= i < |ps| ==> PairParses(env, codec, ps[i]) {
      ParsePairsAllOk(env, codec, ps);
    }
  }

  lemma {:induction false} ParsePairsOkAll(env: Env, codec: TextCodec, ps: seq<(string, Json)>)
    requires Sound(codec)
    requires ParsePairs(env, codec, ps).Ok?
    ensures forall i :: 0 <= i < |ps| ==> PairParses(env, codec, ps[i])
  {
    if |ps| > 0 {
      var tail := ps[1..];
      assert forall i :: 0 <= i < |tail| ==> tail[i] == ps[i + 1];
      ParsePairsStep(env, codec, ps);
      ParsePairsOkAll(env, codec, tail);
    }
  }

  lemma {:induction false} ParsePairsAllOk(env: Env, codec: TextCodec, ps: seq<(string, Json)>)
    requires Sound(codec)
    requires forall i :: 0 <= i < |ps| ==> PairParses(env, codec, ps[i])
    ensures ParsePairs(env, codec, ps).Ok?
  {
    if |ps| > 0 {
      var tail := ps[1..];
      assert forall i :: 0 <= i < |tail| ==> tail[i] == ps[i + 1];
      ParsePairsAllOk(env, codec, tail);
      assert PairParses(env, codec, ps[0]);
      ParsePairsStep(env, codec, ps);
    }
  }

  lemma ParsePairsStep(env: Env, codec: TextCodec, ps: seq<(string, Json)>)
    requires Sound(codec) && |ps| > 0
    ensures ParsePairs(env, codec, ps).Ok? <==>
              ParseString(env, codec, ps[0].0).Ok? && ParseGeneric(env, codec, ps[0].1).Ok?
              && ParsePairs(env, codec, ps[1..]).Ok?
  {
  }

  lemma {:induction false} ParsePairsValues(env: Env, codec: TextCodec, ps: seq<(string, Json)>)
    requires Sound(codec)
    ensures ParsePairs(env, codec, ps).Ok? ==>
              |ParsePairs(env, codec, ps).value| == |ps| &&
              forall i :: 0 <= i < |ps| ==>
                ParseString(env, codec, ps[i].0) == Ok(ParsePairs(env, codec, ps).value[i].0) &&
                ParseGeneric(env, codec, ps[i].1) == Ok(ParsePairs(env, codec, ps).value[i].1)
  {
    if |ps| > 0 && ParsePairs(env, codec, ps).Ok? {
      var tail := ps[1..];
      assert forall i :: 0 <= i < |tail| ==> tail[i] == ps[i + 1];
      ParsePairsValues(env, codec, tail);
      var key := ParseString(env, codec, ps[0].0).value;
      var value := ParseGeneric(env, codec, ps[0].1).value;
      assert ParsePairs(env, codec, ps).value == [(key, value)] + ParsePairs(env, codec, tail).value;
    }
  }

  lemma ParsePairsPointwise(env: Env, codec: TextCodec, ps: seq<(string, Json)>)
    requires Sound(codec)
    ensures ParsePairs(env, codec, ps).Ok? <==>
              forall i :: 0 <= i < |ps| ==>
                     ParseString(env, codec, ps[i].0).Ok? && ParseGeneric(env, codec, ps[i].1).Ok?
    ensures ParsePairs(env, codec, ps).Ok? ==>
              |ParsePairs(env, codec, ps).value| == |ps| &&
              forall i :: 0 <= i < |ps| ==>
                ParseString(env, codec, ps[i].0) == Ok(ParsePairs(env, codec, ps).value[i].0) &&
                ParseGeneric(env, codec, ps[i].1) == Ok(ParsePairs(env, codec, ps).value[i].1)
  {
    ParsePairsOk(env, codec, ps);
    ParsePairsValues(env, codec, ps);
  }


  /** Members that each parse make a list of pairs that parses to them. */
  lemma ParsePairsOfParsed(env: Env, codec: TextCodec, ps: seq<(string, Json)>, pairs: seq<(Value, Value)>)
    requires Sound(codec)
    requires |pairs| == |ps|
    requires forall i :: 0 <= i < |ps| ==>
               ParseString(env, codec, ps[i].0) == Ok(pairs[i].0) && ParseGeneric(env, codec, ps[i].1) == Ok(pairs[i].1)
    ensures ParsePairs(env, codec, ps) == Ok(pairs)
  {
    ParsePairsPointwise(env, codec, ps);
    var r := ParsePairs(env, codec, ps).value;
    assert r == pairs by {
      forall i | 0 <= i < |ps| ensures r[i] == pairs[i] {
      }
    }
  }

  /** A data section whose keys and values all parse, to pairs with distinct
      keys, parses to exactly those pairs: `to_h` has nothing to merge. */
  lemma ParseHashDataOfDistinct(env: Env, codec: TextCodec, ps: seq<(string, Json)>, pairs: seq<(Value, Value)>)
    requires Sound(codec)
    requires |pairs| == |ps|
    requires forall i :: 0 <= i < |ps| ==>
               ParseString(env, codec, ps[i].0) == Ok(pairs[i].0) && ParseGeneric(env, codec, ps[i].1) == Ok(pairs[i].1)
    requires DistinctKeys(pairs)
    ensures ParseHashData(env, codec, ps) == Ok(pairs)
  {
    ParsePairsOfParsed(env, codec, ps, pairs);
    ParseHashDataOfPairs(env, codec, ps, pairs);
  }

  lemma ParseHashDataOfPairs(env: Env, codec: TextCodec, ps: seq<(string, Json)>, pairs: seq<(Value, Value)>)
    requires Sound(codec)
    requires ParsePairs(env, codec, ps) == Ok(pairs) && DistinctKeys(pairs)
    ensures ParseHashData(env, codec, ps) == Ok(pairs)
  {
    ToHIdentity(pairs);
  }


  /** Keys escaped by a dumper start with `%`, `:` or `!`, never with the
      private prefix. */
  lemma EscapedKeyIsNotPrivate(s: string)
    requires |s| > 0 && (s[0] == '%' || s[0] == ':' || s[0] == '!' || s[0] == '@')
    ensures !IsPrivate(s)
  {
    if |PrivateNamespacePrefix| <= |s| {
      assert s[..|PrivateNamespacePrefix|][0] == s[0];
    }
  }

  /** Stripping the prefix neither merges nor splits option names. */
  lemma StripOptionKeysHasKey(options: seq<(string, Json)>, n: string)
    requires forall i :: 0 <= i < |options| ==> IsPrivate(options[i].0)
    ensures HasKey(StripOptionKeys(options), n) <==> HasKey(options, PrivateNamespacePrefix + n)
  {
    var r := StripOptionKeys(options);
    forall i | 0 <= i < |options|
      ensures r[i].0 == n <==> options[i].0 == PrivateNamespacePrefix + n
    {
      assert (PrivateNamespacePrefix + r[i].0)[|PrivateNamespacePrefix|..] == r[i].0;
      assert (PrivateNamespacePrefix + n)[|PrivateNamespacePrefix|..] == n;
    }
  }

  /** Once the data section has parsed, `parse_hash` is decided by the
      options alone. */
  lemma ParseHashOfParsedData(env: Env, codec: TextCodec, ps: seq<(string, Json)>, data: seq<(Value, Value)>)
    requires Sound(codec)
    requires ParseHashData(env, codec, DataPart(ps)) == Ok(data)
    ensures ParseHash(env, codec, ps) == Dispatch(env, ps, data)
  {
  }

  /** A private key with the prefix removed. */
  lemma PrivateKeyOf(n: string)
    ensures IsPrivate(PrivateNamespacePrefix + n)
    ensures StripPrefix(PrivateNamespacePrefix + n, PrivateNamespacePrefix) == n
  {
    assert (PrivateNamespacePrefix + n)[..|PrivateNamespacePrefix|] == PrivateNamespacePrefix;
    assert (PrivateNamespacePrefix + n)[|PrivateNamespacePrefix|..] == n;
  }

  /** An option name is present exactly when the hash has the prefixed key. */
  lemma OptionNameIffPrivateKey(ps: seq<(string, Json)>, n: string)
    ensures HasKey(ParseHashOptions(PrivatePart(ps)), n) <==> HasKey(ps, PrivateNamespacePrefix + n)
  {
    var priv := PrivatePart(ps);
    StripOptionKeysHasKey(priv, n);
    ToHKeys(StripOptionKeys(priv), n);
    PrivateKeyOf(n);
    PrivatePartHasKey(ps, PrivateNamespacePrefix + n);
  }

  /** The private part holds exactly the private keys. */
  lemma PrivatePartHasKey(ps: seq<(string, Json)>, k: string)
    requires IsPrivate(k)
    ensures HasKey(PrivatePart(ps), k) <==> HasKey(ps, k)
  {
    var priv := PrivatePart(ps);
    if HasKey(ps, k) {
      var i :| 0 <= i < |ps| && ps[i].0 == k;
      assert ps[i] in priv;
    }
    if HasKey(priv, k) {
      var i :| 0 <= i < |priv| && priv[i].0 == k;
      assert priv[i] in ps;
    }
  }

  lemma PrivateKeyInPrivatePart(ps: seq<(string, Json)>, k: string)
    requires HasKey(ps, k) && IsPrivate(k)
    ensures k in Keys(PrivatePart(ps))
  {
    var priv := PrivatePart(ps);
    var i :| 0 <= i < |ps| && ps[i].0 == k;
    assert ps[i] in priv;
    var i' :| 0 <= i' < |priv| && priv[i'] == ps[i];
    assert Keys(priv)[i'] == k;
  }

  lemma ReaddedNameIsPrivateKey(ps: seq<(string, Json)>, k: string)
    requires k in ReaddPrefix(Keys(ParseHashOptions(PrivatePart(ps))))
    ensures k in Keys(PrivatePart(ps))
  {
    var options := ParseHashOptions(PrivatePart(ps));
    var names := Keys(options);
    var j :| 0 <= j < |names| && ReaddPrefix(names)[j] == k;
    var n := options[j].0;
    assert k == PrivateNamespacePrefix + n;
    assert HasKey(options, n);
    OptionNameIffPrivateKey(ps, n);
    PrivateKeyOf(n);
    PrivateKeyInPrivatePart(ps, k);
  }

  lemma KeyOfPrivatePart(ps: seq<(string, Json)>, k: string)
    requires k in Keys(PrivatePart(ps))
    ensures HasKey(PrivatePart(ps), k) && IsPrivate(k)
  {
    var priv := PrivatePart(ps);
    var i :| 0 <= i < |priv| && Keys(priv)[i] == k;
    assert priv[i] in ps;
  }

  lemma PrivateKeyIsReaddedName(ps: seq<(string, Json)>, k: string)
    requires k in Keys(PrivatePart(ps))
    ensures k in ReaddPrefix(Keys(ParseHashOptions(PrivatePart(ps))))
  {
    var priv := PrivatePart(ps);
    var options := ParseHashOptions(priv);
    KeyOfPrivatePart(ps, k);
    PrivatePartHasKey(ps, k);
    var n := StripPrefix(k, PrivateNamespacePrefix);
    assert PrivateNamespacePrefix + n == k;
    OptionNameIffPrivateKey(ps, n);
    ReaddedKeyOf(options, n);
  }

  /** An option name, prefix re-added, is among the names the
      `PrivateKeysNotUsed` message lists. */
  lemma ReaddedKeyOf(options: seq<(string, Json)>, n: string)
    requires HasKey(options, n)
    ensures PrivateNamespacePrefix + n in ReaddPrefix(Keys(options))
  {
    var j :| 0 <= j < |options| && options[j].0 == n;
    assert ReaddPrefix(Keys(options))[j] == PrivateNamespacePrefix + n;
  }

  /** The option names are the private keys without their prefix: re-adding
      the prefix to them, as the `PrivateKeysNotUsed` message does, gives back
      exactly the private keys of the hash. */
  lemma OptionNamesArePrivateKeys(ps: seq<(string, Json)>, k: string)
    ensures k in ReaddPrefix(Keys(ParseHashOptions(PrivatePart(ps)))) <==> k in Keys(PrivatePart(ps))
  {
    if k in ReaddPrefix(Keys(ParseHashOptions(PrivatePart(ps)))) {
      ReaddedNameIsPrivateKey(ps, k);
    }
    if k in Keys(PrivatePart(ps)) {
      PrivateKeyIsReaddedName(ps, k);
    }
  }


  /** The `builder` option takes its value from a `__rjson_builder` pair of
      the hash. */
  lemma BuilderOptionOf(ps: seq<(string, Json)>)
    requires Get(ParseHashOptions(PrivatePart(ps)), "builder").Some?
    ensures (PrivateNamespacePrefix + "builder", Get(ParseHashOptions(PrivatePart(ps)), "builder").value) in ps
  {
    var priv := PrivatePart(ps);
    var stripped := StripOptionKeys(priv);
    ToHLookup(stripped, "builder");
    var v := LastValue(stripped, "builder").value;
    var j :| 0 <= j < |stripped| && stripped[j] == ("builder", v);
    assert priv[j] == (PrivateNamespacePrefix + "builder", v);
    assert priv[j] in priv;
  }

  /** The private keys the options name once `b` is deleted: all but `b`'s. */
  lemma UnusedPrivateKeys(ps: seq<(string, Json)>, b: string, k: string)
    ensures k in ReaddPrefix(Keys(Without(ParseHashOptions(PrivatePart(ps)), b)))
            <==> k in Keys(PrivatePart(ps)) && k != PrivateNamespacePrefix + b
  {
    RemainingOptionNames(ParseHashOptions(PrivatePart(ps)), b, k);
    OptionNamesArePrivateKeys(ps, k);
  }

  /** The options left once the option `b` is deleted: exactly the private
      keys other than `b`'s, each with its option value. */
  lemma OptionsWithout(ps: seq<(string, Json)>, b: string, n: string)
    ensures HasKey(Without(ParseHashOptions(PrivatePart(ps)), b), n)
            <==> PrivateNamespacePrefix + n in Keys(PrivatePart(ps)) && n != b
    ensures n != b ==> Get(Without(ParseHashOptions(PrivatePart(ps)), b), n)
                       == Get(ParseHashOptions(PrivatePart(ps)), n)
  {
    var options := ParseHashOptions(PrivatePart(ps));
    HasKeyInKeys(Without(options, b), n);
    KeysWithout(options, b, n);
    HasKeyInKeys(options, n);
    OptionNameIffPrivateKey(ps, n);
    PrivateKeyOf(n);
    PrivatePartHasKey(ps, PrivateNamespacePrefix + n);
    HasKeyInKeys(PrivatePart(ps), PrivateNamespacePrefix + n);
    if n != b {
      GetWithout(options, b, n);
    }
  }

  lemma NoUnusedPrivateKeys(ps: seq<(string, Json)>, b: string)
    ensures |Without(ParseHashOptions(PrivatePart(ps)), b)| == 0
            <==> forall k :: k in Keys(PrivatePart(ps)) ==> k == PrivateNamespacePrefix + b
  {
    var rest := Without(ParseHashOptions(PrivatePart(ps)), b);
    if |rest| > 0 {
      var k := ReaddPrefix(Keys(rest))[0];
      UnusedPrivateKeys(ps, b, k);
    } else {
      forall k | k in Keys(PrivatePart(ps)) ensures k == PrivateNamespacePrefix + b {
        UnusedPrivateKeys(ps, b, k);
      }
    }
  }

  /** Without a truthy builder option, `parse_hash` only checks that no other
      option is left. */
  lemma DispatchFalsy(env: Env, ps: seq<(string, Json)>, data: seq<(Value, Value)>)
    requires var b := Get(ParseHashOptions(PrivatePart(ps)), "builder"); !(b.Some? && Truthy(b.value))
    ensures var rest := Without(ParseHashOptions(PrivatePart(ps)), "builder");
            Dispatch(env, ps, data)
              == if |rest| == 0 then Ok(VHash(data)) else Err(PrivateKeysNotUsed(Keys(rest), ps))
  {
  }

  /** Without a truthy `__rjson_builder` (none at all, or `nil` or `false`)
      the options must be empty apart from the ignored builder key: a hash
      with other private keys fails with `PrivateKeysNotUsed`, which lists
      exactly those keys and carries the hash itself. */
  lemma DispatchWithoutBuilder(env: Env, ps: seq<(string, Json)>, data: seq<(Value, Value)>)
    requires forall i :: 0 <= i < |ps| && ps[i].0 == PrivateNamespacePrefix + "builder" ==> !Truthy(ps[i].1)
    ensures Dispatch(env, ps, data).Ok? <==>
              forall k :: k in Keys(PrivatePart(ps)) ==> k == PrivateNamespacePrefix + "builder"
    ensures Dispatch(env, ps, data).Ok? ==> Dispatch(env, ps, data).value == VHash(data)
    ensures Dispatch(env, ps, data).Err? ==>
              Dispatch(env, ps, data).error.PrivateKeysNotUsed? &&
              Dispatch(env, ps, data).error.hash == ps &&
              forall k :: (k in ReaddPrefix(Dispatch(env, ps, data).error.unused)
                           <==> k in Keys(PrivatePart(ps)) && k != PrivateNamespacePrefix + "builder")
  {
    if Get(ParseHashOptions(PrivatePart(ps)), "builder").Some? {
      BuilderOptionOf(ps);
    }
    DispatchFalsy(env, ps, data);
    NoUnusedPrivateKeys(ps, "builder");
    forall k ensures k in ReaddPrefix(Keys(Without(ParseHashOptions(PrivatePart(ps)), "builder")))
                     <==> k in Keys(PrivatePart(ps)) && k != PrivateNamespacePrefix + "builder" {
      UnusedPrivateKeys(ps, "builder", k);
    }
  }

  /** A hash with private keys other than a falsy `__rjson_builder` and no
      truthy one fails with `PrivateKeysNotUsed` once its data has parsed. */
  lemma LeftoverPrivateKeysAreReported(env: Env, codec: TextCodec, ps: seq<(string, Json)>)
    requires Sound(codec)
    requires forall i :: 0 <= i < |ps| && ps[i].0 == PrivateNamespacePrefix + "builder" ==> !Truthy(ps[i].1)
    requires exists k :: k in Keys(PrivatePart(ps)) && k != PrivateNamespacePrefix + "builder"
    requires ParseHashData(env, codec, DataPart(ps)).Ok?
    ensures ParseHash(env, codec, ps).Err?
    ensures ParseHash(env, codec, ps).error.PrivateKeysNotUsed?
    ensures ParseHash(env, codec, ps).error.hash == ps
    ensures forall k :: (k in ReaddPrefix(ParseHash(env, codec, ps).error.unused)
                         <==> k in Keys(PrivatePart(ps)) && k != PrivateNamespacePrefix + "builder")
  {
    var data := ParseHashData(env, codec, DataPart(ps)).value;
    ParseHashOfParsedData(env, codec, ps, data);
    DispatchWithoutBuilder(env, ps, data);
  }

  // The worked examples below go one small step per lemma: each step is a
  // computation on literal hashes, and the solver does them best apart.

  lemma BuilderRecordSections(b: Json, rest: seq<(string, Json)>)
    requires forall i :: 0 <= i < |rest| ==> !IsPrivate(rest[i].0)
    ensures PrivatePart([(PrivateNamespacePrefix + "builder", b)] + rest) == [(PrivateNamespacePrefix + "builder", b)]
    ensures DataPart([(PrivateNamespacePrefix + "builder", b)] + rest) == rest
  {
    var ps := [(PrivateNamespacePrefix + "builder", b)] + rest;
    NoPrivateKeysAllData(rest);
    assert ps[1..] == rest;
    PrivateKeyOf("builder");
  }

  lemma BuilderOnlyOptions(b: Json)
    ensures ParseHashOptions([(PrivateNamespacePrefix + "builder", b)]) == [("builder", b)]
  {
    PrivateKeyOf("builder");
    assert StripOptionKeys([(PrivateNamespacePrefix + "builder", b)]) == [("builder", b)];
    ToHIdentity([("builder", b)]);
  }

  lemma FalsyBuilderDispatch(env: Env, b: Json, rest: seq<(string, Json)>, data: seq<(Value, Value)>)
    requires !Truthy(b)
    requires forall i :: 0 <= i < |rest| ==> !IsPrivate(rest[i].0)
    ensures Dispatch(env, [(PrivateNamespacePrefix + "builder", b)] + rest, data) == Ok(VHash(data))
  {
    BuilderRecordSections(b, rest);
    BuilderOnlyOptions(b);
    assert Delete([("builder", b)], "builder") == (Some(b), []);
  }

  /** `if builder`: a `nil` or `false` builder counts as no builder, and is
      not reported as an unused key either. */
  lemma FalsyBuilderIsIgnored(env: Env, codec: TextCodec, b: Json, rest: seq<(string, Json)>)
    requires Sound(codec)
    requires !Truthy(b)
    requires forall i :: 0 <= i < |rest| ==> !IsPrivate(rest[i].0)
    ensures ParseHash(env, codec, [(PrivateNamespacePrefix + "builder", b)] + rest)
              == ParseHash(env, codec, rest)
  {
    var ps := [(PrivateNamespacePrefix + "builder", b)] + rest;
    BuilderRecordSections(b, rest);
    PlainHashIsItsData(env, codec, rest);
    match ParseHashData(env, codec, rest)
    case Err(_) =>
    case Ok(data) =>
      ParseHashOfParsedData(env, codec, ps, data);
      FalsyBuilderDispatch(env, b, rest, data);
  }

  /** A record whose only private key is a truthy `__rjson_builder` hands the
      builder no options and its parsed data. */
  /** With a truthy `__rjson_builder`, whatever else the hash holds, the
      builder is called with every other option, prefix stripped and value
      kept, and with the parsed data; nothing is reported as unused. */
  lemma DispatchWithBuilder(env: Env, ps: seq<(string, Json)>, data: seq<(Value, Value)>, b: Json)
    requires Get(ParseHashOptions(PrivatePart(ps)), "builder") == Some(b) && Truthy(b)
    ensures var opts := Without(ParseHashOptions(PrivatePart(ps)), "builder");
            && Dispatch(env, ps, data) == CallBuilder(env, b, opts, data)
            && (forall n :: HasKey(opts, n) <==> (PrivateNamespacePrefix + n in Keys(PrivatePart(ps)) && n != "builder"))
            && (forall n :: n != "builder" ==> Get(opts, n) == Get(ParseHashOptions(PrivatePart(ps)), n))
  {
    forall n
      ensures HasKey(Without(ParseHashOptions(PrivatePart(ps)), "builder"), n)
              <==> (PrivateNamespacePrefix + n in Keys(PrivatePart(ps)) && n != "builder")
      ensures n != "builder" ==> Get(Without(ParseHashOptions(PrivatePart(ps)), "builder"), n)
                                 == Get(ParseHashOptions(PrivatePart(ps)), n)
    {
      OptionsWithout(ps, "builder", n);
    }
  }

  lemma TruthyBuilderOnlyDispatch(env: Env, b: Json, rest: seq<(string, Json)>, data: seq<(Value, Value)>)
    requires Truthy(b)
    requires forall i :: 0 <= i < |rest| ==> !IsPrivate(rest[i].0)
    ensures Dispatch(env, [(PrivateNamespacePrefix + "builder", b)] + rest, data) == CallBuilder(env, b, [], data)
  {
    BuilderRecordSections(b, rest);
    BuilderOnlyOptions(b);
    assert Delete([("builder", b)], "builder") == (Some(b), []);
  }

  /** `parse_hash_data` of a one-member object. */
  lemma ParseHashDataOfOne(env: Env, codec: TextCodec, k: string, t: Json, a: Value, b: Value)
    requires Sound(codec)
    requires ParseString(env, codec, k) == Ok(a) && ParseGeneric(env, codec, t) == Ok(b)
    ensures ParseHashData(env, codec, [(k, t)]) == Ok([(a, b)])
  {
    ParsePairsOne(env, codec, (k, t), a, b);
    ParseHashDataOfPairs(env, codec, [(k, t)], [(a, b)]);
  }

  /** `parse_hash_data` of a two-member object whose keys read as different
      values. */
  lemma ParseHashDataOfTwo(env: Env, codec: TextCodec, k1: string, t1: Json, k2: string, t2: Json,
                           a1: Value, b1: Value, a2: Value, b2: Value)
    requires Sound(codec)
    requires ParseString(env, codec, k1) == Ok(a1) && ParseGeneric(env, codec, t1) == Ok(b1)
    requires ParseString(env, codec, k2) == Ok(a2) && ParseGeneric(env, codec, t2) == Ok(b2)
    requires a1 != a2
    ensures ParseHashData(env, codec, [(k1, t1), (k2, t2)]) == Ok([(a1, b1), (a2, b2)])
  {
    ParsePairsOne(env, codec, (k2, t2), a2, b2);
    ParsePairsCons(env, codec, (k1, t1), [(k2, t2)], a1, b1, [(a2, b2)]);
    PairDisplay((k1, t1), (k2, t2));
    PairDisplay((a1, b1), (a2, b2));
    TwoDistinctKeys(a1, b1, a2, b2);
    ParseHashDataOfPairs(env, codec, [(k1, t1), (k2, t2)], [(a1, b1), (a2, b2)]);
  }

  /** One more member that parses extends the parsed pairs by one. */
  lemma ParsePairsCons(env: Env, codec: TextCodec, p: (string, Json), ps: seq<(string, Json)>,
                       a: Value, b: Value, rest: seq<(Value, Value)>)
    requires Sound(codec)
    requires ParseString(env, codec, p.0) == Ok(a) && ParseGeneric(env, codec, p.1) == Ok(b)
    requires ParsePairs(env, codec, ps) == Ok(rest)
    ensures ParsePairs(env, codec, [p] + ps) == Ok([(a, b)] + rest)
  {
    assert ([p] + ps)[1..] == ps;
  }

  lemma ParsePairsOne(env: Env, codec: TextCodec, p: (string, Json), a: Value, b: Value)
    requires Sound(codec)
    requires ParseString(env, codec, p.0) == Ok(a) && ParseGeneric(env, codec, p.1) == Ok(b)
    ensures ParsePairs(env, codec, [p]) == Ok([(a, b)])
  {
    var none: seq<(string, Json)> := [];
    var nothing: seq<(Value, Value)> := [];
    ParsePairsCons(env, codec, p, none, a, b, nothing);
    assert [p] + none == [p];
    assert [(a, b)] + nothing == [(a, b)];
  }

  lemma PairDisplay<T>(x: T, y: T)
    ensures [x] + [y] == [x, y]
  {
  }

  lemma TwoDistinctKeys(a1: Value, b1: Value, a2: Value, b2: Value)
    requires a1 != a2
    ensures DistinctKeys([(a1, b1), (a2, b2)])
  {
  }

  /** `parse_generic` returns nil, booleans and numbers as they are. */
  lemma ParseGenericOfScalar(env: Env, codec: TextCodec, t: Json)
    requires Sound(codec)
    requires t.JNull? || t.JBool? || t.JInt? || t.JFloat?
    ensures ParseGeneric(env, codec, t)
              == Ok(match t case JBool(b) => VBool(b) case JInt(i) => VInt(i) case JFloat(f) => VFloat(f) case _ => VNil)
  {
  }

  /** `parse_generic` hands a JSON string to `parse_string`. */
  lemma ParseGenericOfString(env: Env, codec: TextCodec, t: Json)
    requires Sound(codec)
    requires t.JStr?
    ensures ParseGeneric(env, codec, t) == ParseString(env, codec, t.s)
  {
  }

  /** A string with no escape character in front is read as itself. */
  lemma UnescapedStringIsItself(env: Env, codec: TextCodec, s: string)
    requires Sound(codec)
    requires |s| > 0 && s[0] != ':' && s[0] != '%' && s[0] != '!'
    ensures ParseString(env, codec, s) == Ok(VStr(s))
  {
  }

  /** `parse_json` of text the text layer reads as a tree is `parse_generic`
      of that tree. */
  lemma ParseJsonOfParsed(env: Env, codec: TextCodec, x: string, t: Json)
    requires Sound(codec)
    requires codec.parse(x) == Parsed(t)
    ensures ParseJson(env, codec, Some(x)) == ParseGeneric(env, codec, t)
  {
  }

  /** A `!`-escaped string is the JSON text after the `!`, parsed. */
  lemma ParseBangString(env: Env, codec: TextCodec, x: string)
    requires Sound(codec)
    ensures ParseString(env, codec, "!" + x) == ParseJson(env, codec, Some(x))
  {
    assert ("!" + x)[1..] == x;
  }

  /** `parse_generic` hands a JSON object to `parse_hash`. */
  lemma ParseGenericOfObject(env: Env, codec: TextCodec, t: Json)
    requires Sound(codec)
    requires t.JObj?
    ensures ParseGeneric(env, codec, t) == ParseHash(env, codec, t.pairs)
  {
  }

  /** Elements that each parse to a value make an array that parses to
      those values. */
  lemma ParseArrayOfParsed(env: Env, codec: TextCodec, xs: seq<Json>, items: seq<Value>)
    requires Sound(codec)
    requires |xs| == |items|
    requires forall i :: 0 <= i < |xs| ==> ParseGeneric(env, codec, xs[i]) == Ok(items[i])
    ensures ParseArray(env, codec, xs) == Ok(items)
  {
    ParseArrayPointwise(env, codec, xs);
    var r := ParseArray(env, codec, xs).value;
    assert r == items by {
      forall i | 0 <= i < |xs| ensures r[i] == items[i] {
        assert ParseGeneric(env, codec, xs[i]) == Ok(r[i]);
      }
    }
  }

  /** `parse_generic` maps `parse_array` over a JSON array. */
  lemma ParseGenericOfArray(env: Env, codec: TextCodec, t: Json, items: seq<Value>)
    requires Sound(codec)
    requires t.JArr? && ParseArray(env, codec, t.items) == Ok(items)
    ensures ParseGeneric(env, codec, t) == Ok(VArr(items))
  {
  }

  /** A JSON object without private keys, whose members each parse, is read
      as the hash of the parsed members. */
  lemma PlainObjectParses(env: Env, codec: TextCodec, ps: seq<(string, Json)>, pairs: seq<(Value, Value)>)
    requires Sound(codec)
    requires forall i :: 0 <= i < |ps| ==> !IsPrivate(ps[i].0)
    requires |pairs| == |ps|
    requires forall i :: 0 <= i < |ps| ==>
               ParseString(env, codec, ps[i].0) == Ok(pairs[i].0) && ParseGeneric(env, codec, ps[i].1) == Ok(pairs[i].1)
    requires DistinctKeys(pairs)
    ensures ParseGeneric(env, codec, JObj(ps)) == Ok(VHash(pairs))
  {
    ParseGenericOfObject(env, codec, JObj(ps));
    PlainHashIsItsData(env, codec, ps);
    ParseHashDataOfDistinct(env, codec, ps, pairs);
  }

  lemma BuilderRecordCallsBuilder(env: Env, codec: TextCodec, b: Json, rest: seq<(string, Json)>,
                                  data: seq<(Value, Value)>)
    requires Sound(codec)
    requires Truthy(b)
    requires forall i :: 0 <= i < |rest| ==> !IsPrivate(rest[i].0)
    requires ParseHashData(env, codec, rest) == Ok(data)
    ensures ParseHash(env, codec, [(PrivateNamespacePrefix + "builder", b)] + rest) == CallBuilder(env, b, [], data)
  {
    BuilderRecordSections(b, rest);
    ParseHashOfParsedData(env, codec, [(PrivateNamespacePrefix + "builder", b)] + rest, data);
    TruthyBuilderOnlyDispatch(env, b, rest, data);
  }

  lemma ObjectRecordSections(b: Json, c: Json, rest: seq<(string, Json)>)
    requires forall i :: 0 <= i < |rest| ==> !IsPrivate(rest[i].0)
    ensures PrivatePart([(PrivateNamespacePrefix + "builder", b), (PrivateNamespacePrefix + "class_name", c)] + rest)
              == [(PrivateNamespacePrefix + "builder", b), (PrivateNamespacePrefix + "class_name", c)]
    ensures DataPart([(PrivateNamespacePrefix + "builder", b), (PrivateNamespacePrefix + "class_name", c)] + rest)
              == rest
  {
    PrivateKeyOf("builder");
    PrivateKeyOf("class_name");
    TwoPrivateKeysFirst((PrivateNamespacePrefix + "builder", b), (PrivateNamespacePrefix + "class_name", c), rest);
  }

  /** Two private members ahead of plain ones are exactly the private part. */
  lemma TwoPrivateKeysFirst(p: (string, Json), q: (string, Json), rest: seq<(string, Json)>)
    requires IsPrivate(p.0) && IsPrivate(q.0)
    requires forall i :: 0 <= i < |rest| ==> !IsPrivate(rest[i].0)
    ensures PrivatePart([p, q] + rest) == [p, q]
    ensures DataPart([p, q] + rest) == rest
  {
    var ps := [p, q] + rest;
    NoPrivateKeysAllData(rest);
    assert ps[1..][1..] == rest;
    assert PrivatePart(ps[1..]) == [q] && DataPart(ps[1..]) == rest;
  }

  lemma ObjectRecordOptions(b: Json, c: Json)
    ensures ParseHashOptions([(PrivateNamespacePrefix + "builder", b), (PrivateNamespacePrefix + "class_name", c)])
              == [("builder", b), ("class_name", c)]
  {
    PrivateKeyOf("builder");
    PrivateKeyOf("class_name");
    var stripped := StripOptionKeys([(PrivateNamespacePrefix + "builder", b), (PrivateNamespacePrefix + "class_name", c)]);
    assert stripped == [("builder", b), ("class_name", c)];
    ToHIdentity(stripped);
  }

  lemma ObjectRecordDispatch(env: Env, b: Json, c: Json, rest: seq<(string, Json)>, data: seq<(Value, Value)>)
    requires Truthy(b)
    requires forall i :: 0 <= i < |rest| ==> !IsPrivate(rest[i].0)
    ensures Dispatch(env, [(PrivateNamespacePrefix + "builder", b), (PrivateNamespacePrefix + "class_name", c)] + rest, data)
              == CallBuilder(env, b, [("class_name", c)], data)
  {
    ObjectRecordSections(b, c, rest);
    ObjectRecordOptions(b, c);
    assert Delete([("builder", b), ("class_name", c)], "builder") == (Some(b), [("class_name", c)]);
  }

  /** A record with a truthy `__rjson_builder` and a `__rjson_class_name`
      hands the builder the class name as its one option. */
  lemma ObjectRecordCallsBuilder(env: Env, codec: TextCodec, b: Json, c: Json, rest: seq<(string, Json)>,
                                 data: seq<(Value, Value)>)
    requires Sound(codec)
    requires Truthy(b)
    requires forall i :: 0 <= i < |rest| ==> !IsPrivate(rest[i].0)
    requires ParseHashData(env, codec, rest) == Ok(data)
    ensures ParseHash(env, codec, [(PrivateNamespacePrefix + "builder", b), (PrivateNamespacePrefix + "class_name", c)] + rest)
              == CallBuilder(env, b, [("class_name", c)], data)
  {
    var ps := [(PrivateNamespacePrefix + "builder", b), (PrivateNamespacePrefix + "class_name", c)] + rest;
    ObjectRecordSections(b, c, rest);
    ParseHashOfParsedData(env, codec, ps, data);
    ObjectRecordDispatch(env, b, c, rest, data);
  }

  /** The record of the parser's "calls builder with options" example. */
  function BuilderExample(b: Json, arg: Json): seq<(string, Json)> {
    [(PrivateNamespacePrefix + "builder", b), (PrivateNamespacePrefix + "arg", arg), (":key", JStr("%:value"))]
  }

  lemma BuilderExampleSections(b: Json, arg: Json)
    ensures PrivatePart(BuilderExample(b, arg)) == BuilderExample(b, arg)[..2]
    ensures DataPart(BuilderExample(b, arg)) == [(":key", JStr("%:value"))]
  {
    var ps := BuilderExample(b, arg);
    PrivateKeyOf("builder");
    PrivateKeyOf("arg");
    assert !IsPrivate(":key");
    assert ps[1..][1..] == [ps[2]];
    assert PrivatePart([ps[2]]) == [] && DataPart([ps[2]]) == [ps[2]];
    assert PrivatePart(ps[1..]) == [ps[1]] && DataPart(ps[1..]) == [ps[2]];
  }

  lemma BuilderExampleOptions(b: Json, arg: Json)
    ensures ParseHashOptions(BuilderExample(b, arg)[..2]) == [("builder", b), ("arg", arg)]
  {
    PrivateKeyOf("builder");
    PrivateKeyOf("arg");
    var stripped := StripOptionKeys(BuilderExample(b, arg)[..2]);
    assert stripped == [("builder", b), ("arg", arg)];
    ToHIdentity(stripped);
  }

  lemma BuilderExampleData(env: Env, codec: TextCodec)
    requires Sound(codec)
    ensures ParseHashData(env, codec, [(":key", JStr("%:value"))]) == Ok([(VSym("key"), VStr(":value"))])
  {
    BuilderExampleMember(env, codec);
    ParseGenericOfString(env, codec, JStr("%:value"));
    ParseHashDataOfOne(env, codec, ":key", JStr("%:value"), VSym("key"), VStr(":value"));
  }

  lemma BuilderExampleMember(env: Env, codec: TextCodec)
    requires Sound(codec)
    ensures ParseString(env, codec, ":key") == Ok(VSym("key"))
    ensures ParseString(env, codec, "%:value") == Ok(VStr(":value"))
  {
    EscapedStringParses(env, codec, ":key");
    EscapedStringParses(env, codec, "%:value");
  }

  /** A string escaped with `:` or `%` reads as what follows the escape. */
  lemma EscapedStringParses(env: Env, codec: TextCodec, s: string)
    requires Sound(codec)
    requires |s| > 0 && (s[0] == ':' || s[0] == '%')
    ensures s[0] == ':' ==> ParseString(env, codec, s) == Ok(VSym(s[1..]))
    ensures s[0] == '%' ==> ParseString(env, codec, s) == Ok(VStr(s[1..]))
  {
  }

  /** A truthy builder gets the remaining options, prefix stripped. */
  lemma TruthyBuilderDispatch(env: Env, b: Json, arg: Json, data: seq<(Value, Value)>)
    requires Truthy(b)
    ensures Dispatch(env, BuilderExample(b, arg), data) == CallBuilder(env, b, [("arg", arg)], data)
  {
    BuilderExampleSections(b, arg);
    BuilderExampleOptions(b, arg);
    assert Delete([("builder", b), ("arg", arg)], "builder") == (Some(b), [("arg", arg)]);
  }

  /** The parser's "calls builder with options" example: the builder gets
      the other private options and the parsed data. */
  lemma BuilderReceivesOptionsAndData(env: Env, codec: TextCodec, b: Json, arg: Json)
    requires Sound(codec)
    requires Truthy(b)
    ensures ParseHash(env, codec, BuilderExample(b, arg))
              == CallBuilder(env, b, [("arg", arg)], [(VSym("key"), VStr(":value"))])
  {
    BuilderExampleSections(b, arg);
    BuilderExampleData(env, codec);
    ParseHashOfParsedData(env, codec, BuilderExample(b, arg), [(VSym("key"), VStr(":value"))]);
    TruthyBuilderDispatch(env, b, arg, [(VSym("key"), VStr(":value"))]);
  }

  lemma UnprefixedExampleSections()
    ensures PrivatePart([("__rjson_foo", JStr("bar"))]) == [("__rjson_foo", JStr("bar"))]
    ensures DataPart([("__rjson_foo", JStr("bar"))]) == []
  {
  }

  lemma UnprefixedExampleOptions()
    ensures ParseHashOptions([("__rjson_foo", JStr("bar"))]) == [("foo", JStr("bar"))]
  {
    assert StripOptionKeys([("__rjson_foo", JStr("bar"))]) == [("foo", JStr("bar"))];
    ToHIdentity([("foo", JStr("bar"))]);
  }

  lemma UnprefixedPrivateKeyDispatch(env: Env)
    ensures Dispatch(env, [("__rjson_foo", JStr("bar"))], [])
              == Err(PrivateKeysNotUsed(["foo"], [("__rjson_foo", JStr("bar"))]))
  {
    UnprefixedExampleSections();
    UnprefixedExampleOptions();
    UnprefixedExampleLeftover();
    UnusedOptionsDispatch(env, [("__rjson_foo", JStr("bar"))], [("foo", JStr("bar"))], []);
  }

  /** Options with no builder among them are all reported. */
  lemma UnusedOptionsDispatch(env: Env, ps: seq<(string, Json)>, options: seq<(string, Json)>,
                              data: seq<(Value, Value)>)
    requires ParseHashOptions(PrivatePart(ps)) == options
    requires |options| > 0 && Delete(options, "builder") == (None, options)
    ensures Dispatch(env, ps, data) == Err(PrivateKeysNotUsed(Keys(options), ps))
  {
  }

  lemma UnprefixedExampleLeftover()
    ensures Delete([("foo", JStr("bar"))], "builder") == (None, [("foo", JStr("bar"))])
    ensures Keys([("foo", JStr("bar"))]) == ["foo"]
  {
    assert [("foo", JStr("bar"))][1..] == [];
  }

  lemma UnprefixedExampleMessage()
    ensures StartsWith(Message(PrivateKeysNotUsed(["foo"], [("__rjson_foo", JStr("bar"))])),
                       "Private keys [\"__rjson_foo\"] not used in")
  {
  }

  /** The parser's "unprefixed private key without a builder" example. */
  lemma UnprefixedPrivateKeyIsReported(env: Env, codec: TextCodec)
    requires Sound(codec)
    ensures ParseHash(env, codec, [("__rjson_foo", JStr("bar"))]).Err?
    ensures ClassOf(ParseHash(env, codec, [("__rjson_foo", JStr("bar"))]).error) == PrivateKeysNotUsedClass
    ensures StartsWith(Message(ParseHash(env, codec, [("__rjson_foo", JStr("bar"))]).error),
                       "Private keys [\"__rjson_foo\"] not used in")
  {
    UnprefixedExampleSections();
    assert ParseHashData(env, codec, []) == Ok([]);
    ParseHashOfParsedData(env, codec, [("__rjson_foo", JStr("bar"))], []);
    UnprefixedPrivateKeyDispatch(env);
    UnprefixedExampleMessage();
  }

  /** The parser's "proxies builder argument errors" example, for any data
      section that parses: a record naming `RJSON::ObjectBuilder` without a
      `__rjson_class_name` fails with a `ProxyError` around the
      constructor's `ArgumentError`. */
  lemma MissingClassNameIsProxied(env: Env, codec: TextCodec, rest: seq<(string, Json)>)
    requires Sound(codec)
    requires env.resolve(ObjectBuilderName) == Found(VModule(ObjectBuilderName, true))
    requires forall i :: 0 <= i < |rest| ==> !IsPrivate(rest[i].0)
    requires ParseHashData(env, codec, rest).Ok?
    ensures ParseHash(env, codec, [(PrivateNamespacePrefix + "builder", JStr(ObjectBuilderName))] + rest)
              == Err(Proxy(PlainProxy, ArgumentError("missing keyword: class_name")))
  {
    var data := ParseHashData(env, codec, rest).value;
    BuilderRecordCallsBuilder(env, codec, JStr(ObjectBuilderName), rest, data);
    ObjectBuilderWithoutClassNameIsProxied(env, [], data);
  }

  /** `parse_json(nil)` is `nil`, whatever the text parser. */
  lemma NilTextIsNil(env: Env, codec: TextCodec)
    requires Sound(codec)
    ensures ParseJson(env, codec, None) == Ok(VNil)
  {
  }

  /** `"!"` holds the empty document, which `YAML.load` reads as `false`. */
  lemma BangOfEmptyText(env: Env, codec: TextCodec)
    requires Sound(codec) && codec.parse("") == Parsed(JBool(false))
    ensures ParseString(env, codec, "!") == Ok(VBool(false))
  {
    assert "!"[1..] == "";
  }

  /** `"!abc"` holds a plain YAML scalar, read as the string `"abc"`, which
      is then unescaped like any other string. */
  lemma BangOfPlainScalar(env: Env, codec: TextCodec, s: string)
    requires Sound(codec) && codec.parse(s) == Parsed(JStr(s))
    requires |s| > 0 && s[0] != ':' && s[0] != '%' && s[0] != '!'
    ensures ParseString(env, codec, "!" + s) == Ok(VStr(s))
  {
    assert ("!" + s)[1..] == s;
    assert ParseString(env, codec, s) == Ok(VStr(s));
    assert ParseJson(env, codec, Some(s)) == ParseGeneric(env, codec, JStr(s));
  }

  /** The string examples: plain strings stay, `:` makes a symbol, one `%`
      is removed. */
  lemma PlainStringExamples(env: Env, codec: TextCodec)
    requires Sound(codec)
    ensures ParseString(env, codec, "foo") == Ok(VStr("foo"))
    ensures ParseString(env, codec, "") == Ok(VStr(""))
  {
  }

  lemma SymbolStringExamples(env: Env, codec: TextCodec)
    requires Sound(codec)
    ensures ParseString(env, codec, ":foo") == Ok(VSym("foo"))
  {
  }

  lemma EscapedStringExamples(env: Env, codec: TextCodec)
    requires Sound(codec)
    ensures ParseString(env, codec, "%foo") == Ok(VStr("foo"))
    ensures ParseString(env, codec, "%:foo") == Ok(VStr(":foo"))
    ensures ParseString(env, codec, "%%foo") == Ok(VStr("%foo"))
  {
  }

  lemma StringExamples(env: Env, codec: TextCodec)
    requires Sound(codec)
    ensures ParseString(env, codec, "foo") == Ok(VStr("foo"))
    ensures ParseString(env, codec, ":foo") == Ok(VSym("foo"))
    ensures ParseString(env, codec, "%foo") == Ok(VStr("foo"))
    ensures ParseString(env, codec, "%:foo") == Ok(VStr(":foo"))
    ensures ParseString(env, codec, "%%foo") == Ok(VStr("%foo"))
    ensures ParseString(env, codec, "") == Ok(VStr(""))
  {
    PlainStringExamples(env, codec);
    SymbolStringExamples(env, codec);
    EscapedStringExamples(env, codec);
  }

}

=== FILE: strings.dfy ===
/** String helpers with Ruby's semantics: prefix tests, prefix stripping and
    `String#split("::")`, the splitting used to name the segments of a
    constant path such as `RJSON::ObjectBuilder`. */
module Strings {

  /** Ruby's `String#starts_with?` (ActiveSupport alias of `start_with?`). */
  predicate StartsWith(s: string, prefix: string) {
    |prefix| <= |s| && s[..|prefix|] == prefix
  }

  /** `s.sub(prefix, '')` for a string known to start with `prefix`: the first
      occurrence of the pattern is the leading one, so exactly it is removed. */
  function StripPrefix(s: string, prefix: string): (r: string)
    requires StartsWith(s, prefix)
    ensures prefix + r == s
    ensures |r| == |s| - |prefix|
  {
    s[|prefix|..]
  }

  /** Splits at every `::`, scanning from the left, keeping empty pieces.
      This is the raw split before Ruby drops trailing empty strings. */
  function SplitAll(s: string): (r: seq<string>)
    ensures |r| >= 1
    decreases |s|
  {
    if |s| == 0 then [""]
    else if |s| >= 2 && s[..2] == "::" then [""] + SplitAll(s[2..])
    else
      var rest := SplitAll(s[1..]);
      [[s[0]] + rest[0]] + rest[1..]
  }

  /** Joins pieces with `::` (Ruby's `Array#join('::')`). */
  function Join(pieces: seq<string>): string {
    if |pieces| == 0 then ""
    else if |pieces| == 1 then pieces[0]
    else pieces[0] + "::" + Join(pieces[1..])
  }

  /** Ruby's `Array#split` result: trailing empty strings are removed. */
  function DropTrailingEmpty(pieces: seq<string>): (r: seq<string>)
    ensures |r| <= |pieces|
    ensures r == pieces[..|r|]
    ensures |r| > 0 ==> r[|r| - 1] != ""
    ensures forall i :: |r| <= i < |pieces| ==> pieces[i] == ""
  {
    if |pieces| == 0 then []
    else if pieces[|pieces| - 1] == "" then DropTrailingEmpty(pieces[..|pieces| - 1])
    else pieces
  }

  /** `name.split('::')`. */
  function Segments(name: string): seq<string> {
    DropTrailingEmpty(SplitAll(name))
  }

  /** Splitting at `::` loses nothing: joining the raw pieces gives the input back. */
  lemma {:induction false} JoinSplitAll(s: string)
    ensures Join(SplitAll(s)) == s
    decreases |s|
  {
    if |s| == 0 {
    } else if |s| >= 2 && s[..2] == "::" {
      JoinSplitAll(s[2..]);
      JoinSplitAtSeparator(s);
    } else {
      JoinSplitAll(s[1..]);
      JoinSplitAtChar(s);
    }
  }

  /** The step of `JoinSplitAll` at a leading `::`. */
  lemma JoinSplitAtSeparator(s: string)
    requires |s| >= 2 && s[..2] == "::"
    requires Join(SplitAll(s[2..])) == s[2..]
    ensures Join(SplitAll(s)) == s
  {
    var rest := SplitAll(s[2..]);
    assert SplitAll(s) == [""] + rest;
    if |rest| == 1 {
      assert Join([""] + rest) == "" + "::" + rest[0];
    } else {
      assert ([""] + rest)[1..] == rest;
    }
    assert s == s[..2] + s[2..];
  }

  /** The step of `JoinSplitAll` at any other leading character. */
  lemma JoinSplitAtChar(s: string)
    requires |s| >= 1 && !(|s| >= 2 && s[..2] == "::")
    requires Join(SplitAll(s[1..])) == s[1..]
    ensures Join(SplitAll(s)) == s
  {
    var rest := SplitAll(s[1..]);
    assert SplitAll(s) == [[s[0]] + rest[0]] + rest[1..];
    JoinExtendFirst(s[0], rest);
    assert s == [s[0]] + s[1..];
  }

  /** Prefixing the first piece with a character prefixes the joined string. */
  lemma JoinExtendFirst(c: char, pieces: seq<string>)
    requires |pieces| >= 1
    ensures Join([[c] + pieces[0]] + pieces[1..]) == [c] + Join(pieces)
  {
    if |pieces| == 1 {
      assert [[c] + pieces[0]] + pieces[1..] == [[c] + pieces[0]];
    } else {
      var rest := "::" + Join(pieces[1..]);
      JoinFirst([c] + pieces[0], pieces[1..]);
      JoinFirst(pieces[0], pieces[1..]);
      assert [pieces[0]] + pieces[1..] == pieces;
      ConsAppend(c, pieces[0], rest);
    }
  }

  /** Unfolds `Join` once at a non-empty tail. */
  lemma JoinFirst(first: string, tail: seq<string>)
    requires |tail| >= 1
    ensures Join([first] + tail) == first + ("::" + Join(tail))
  {
    assert ([first] + tail)[1..] == tail;
    Associative(first, "::", Join(tail));
  }

  lemma ConsAppend(c: char, a: string, b: string)
    ensures ([c] + a) + b == [c] + (a + b)
  {
    Associative([c], a, b);
  }

  lemma Associative(a: string, b: string, c: string)
    ensures (a + b) + c == a + (b + c)
  {
  }
}

=== FILE: values.dfy ===
/** Runtime values: the Ruby objects RJSON dumps and loads. */
module Values {
  import opened Wire

  /** The classes `StringRepresentableDumper` handles, whose values are
      rebuilt from their `to_s` text by the method named after the class. */
  datatype NumClass = BigDecimal | Complex | Rational

  function NumClassName(c: NumClass): string {
    match c
    case BigDecimal => "BigDecimal"
    case Complex => "Complex"
    case Rational => "Rational"
  }

  datatype Value =
    | VNil
    | VBool(b: bool)
    | VInt(i: int)
    | VFloat(f: Float)
    | VStr(s: string)
    | VSym(name: string)
    | VArr(items: seq<Value>)
      /** A Ruby Hash: insertion-ordered pairs with arbitrary keys. */
    | VHash(pairs: seq<(Value, Value)>)
      /** A BigDecimal, Complex or Rational, kept as its `to_s` text. */
    | VNum(numClass: NumClass, text: string)
      /** A plain object whose whole state is its instance variables: the
          name of its (named) class and its instance variables, in order,
          each named with its leading `@`. Objects that keep state outside
          instance variables, such as a `Range`, a `Time`, a `Struct`, a
          `Regexp` or an exception, and instances of subclasses of `String`,
          `Array` or `Hash`, have no value here. */
    | VObj(cls: string, ivars: seq<(string, Value)>)
      /** A class (`isClass`) or a module that is not a class, as a constant
          lookup returns it. Only classes respond to `new` and `allocate`. */
    | VModule(name: string, isClass: bool)
      /** An object that defines `as_rjson`; `rjson` is what that method returns. */
    | VCustom(cls: string, rjson: Json)

  /** `object.class.name`. */
  function ClassName(v: Value): string {
    match v
    case VNil => "NilClass"
    case VBool(b) => if b then "TrueClass" else "FalseClass"
    case VInt(_) => "Integer"
    case VFloat(_) => "Float"
    case VStr(_) => "String"
    case VSym(_) => "Symbol"
    case VArr(_) => "Array"
    case VHash(_) => "Hash"
    case VNum(c, _) => NumClassName(c)
    case VObj(c, _) => c
    case VModule(_, isClass) => if isClass then "Class" else "Module"
    case VCustom(c, _) => c
  }

  /** `object.instance_variables` with their values: only plain objects carry
      any in this model. */
  function Ivars(v: Value): seq<(string, Value)> {
    if v.VObj? then v.ivars else []
  }
}

=== FILE: wire.dfy ===
/** The wire tree: the data model of JSON text after parsing and before
    writing. Only RJSON's own escaping distinguishes strings from symbols,
    text keys from other keys, and plain hashes from extension records.

    The text layer itself (`YAML.load` and `to_json`) is an outside
    collaborator, represented by `TextCodec`: a pair of functions together
    with the two properties the engine relies on. */
module Wire {
  import opened Hashes

  /** A floating-point number, kept as an opaque token. Only the infinite and
      not-a-number values matter to the engine. */
  datatype Float = Finite(token: string) | PosInf | NegInf | NaN

  datatype Json =
    | JNull
    | JBool(b: bool)
    | JInt(i: int)
    | JFloat(f: Float)
    | JStr(s: string)
    | JArr(items: seq<Json>)
    | JObj(pairs: seq<(string, Json)>)

  /** A size measure no larger than the length of any text `YAML.load` reads
      as the tree, aliases aside: scalars other than strings weigh nothing
      (the empty document is `false`), a string weighs its length (a plain
      scalar `abc` is the string "abc"), and each array or object at least
      one bracket or indicator character. */
  function Size(t: Json): nat
    decreases t, 1
  {
    match t
    case JStr(s) => |s|
    case JArr(xs) => 1 + SizeList(xs)
    case JObj(_) => 1 + SizeMembers(t, 0)
    case _ => 0
  }

  function SizeList(xs: seq<Json>): nat
    decreases xs, 0
  {
    if |xs| == 0 then 0 else Size(xs[0]) + SizeList(xs[1..])
  }

  /** The size of the members of an object from position `i` on. */
  function SizeMembers(t: Json, i: nat): nat
    requires t.JObj? && i <= |t.pairs|
    decreases t, 0, |t.pairs| - i
  {
    if i == |t.pairs| then 0
    else |t.pairs[i].0| + Size(t.pairs[i].1) + SizeMembers(t, i + 1)
  }

  /** The same measure for a free-standing list of members. */
  function SizePairs(ps: seq<(string, Json)>): nat {
    if |ps| == 0 then 0 else |ps[0].0| + Size(ps[0].1) + SizePairs(ps[1..])
  }

  lemma {:induction false} SizeMembersIsSizePairs(ps: seq<(string, Json)>, i: nat)
    requires i <= |ps|
    ensures SizeMembers(JObj(ps), i) == SizePairs(ps[i..])
    decreases |ps| - i
  {
    if i < |ps| {
      SizeMembersIsSizePairs(ps, i + 1);
      assert ps[i..][1..] == ps[i + 1..];
    }
  }

  /** An object is bigger than its list of members. */
  lemma SizeObject(ps: seq<(string, Json)>)
    ensures Size(JObj(ps)) == 1 + SizePairs(ps)
  {
    SizeMembersIsSizePairs(ps, 0);
    assert ps[0..] == ps;
  }

  /** The trees that survive a trip through text: JSON has no literal for
      the infinities or NaN, and `YAML.load` keeps only the last of repeated
      keys, so every object must have distinct keys. */
  predicate Writable(t: Json) {
    match t
    case JFloat(f) => f.Finite?
    case JArr(xs) => forall i :: 0 <= i < |xs| ==> Writable(xs[i])
    case JObj(ps) => DistinctKeys(ps) && forall i :: 0 <= i < |ps| ==> Writable(ps[i].1)
    case _ => true
  }

  datatype TextOutcome = Parsed(tree: Json) | Rejected(message: string)

  /** `YAML.load` (parse) and `to_json` (write). */
  datatype TextCodec = TextCodec(write: Json -> string, parse: string -> TextOutcome)

  /** A parser never returns a tree bigger than its input text. JSON and
      YAML parsers have this property, except for YAML aliases, which can
      repeat a large node under a short name. */
  ghost predicate Sound(codec: TextCodec) {
    forall x :: codec.parse(x).Parsed? ==> Size(codec.parse(x).tree) <= |x|
  }

  /** Reading back what was written gives the same tree. */
  ghost predicate RoundTrips(codec: TextCodec) {
    forall t :: Writable(t) ==> codec.parse(codec.write(t)) == Parsed(t)
  }
}
